=== FILE: README.md ===
# fr-pcp production planning and control, modelled in Dafny

fr-pcp is a web application for production planning and control (PCP) on a
factory floor with two shifts. Each shift's supervisor imports a spreadsheet
of the products the shift planned and produced. The application merges the
two shifts into one production record per product code and derives the
efficiency metrics:

- CTP1 and CTP2, each shift's produced kg as a percentage of its plan;
- the daily plan in boxes and in recipe batches;
- the total kg and total boxes;
- the difference between produced and planned kg;
- CTPTD, the combined efficiency.

The pages summarise, compare, filter and export those records. A product
catalogue page and a production-targets page complete the system.

This project models the core of that system as pure Dafny functions over
immutable values:

- the metric formulas and `processFullCalculations`;
- the two shift imports, the spreadsheet importer and the recompute pass;
- the aggregations of the dashboard, processing and results pages;
- the product and target forms;
- the navigation sidebar.

The model follows these conventions:

- A stored or imported record is a `map<string, Value>`. An absent key is
  JavaScript's `undefined`. `Value` is a number (`real`), a text, a boolean
  or `null`.
- `Math.round(x * 100) / 100` is `Rounding.Round2`. It is specified by
  `RoundsTo`: the result is the nearest whole number of hundredths, and a tie
  goes to the larger one.
- The document store is not modelled as I/O. A batch reads a fixed
  *listing*, which is the page's `pcpData` snapshot. It issues *writes* (an
  add or an update). A store refusal is a parameter: a predicate `rejects`
  over writes, or a boolean `storeRefuses`.

The model follows the code where the system's own descriptions promise
something else:

- **Fixed listing.** Both shift imports match every row against the listing
  as it stood when the batch began. Two rows with the same new code are
  therefore both added (`PrimeiroTurno.RepeatedNewCodeAddsTwice`).
- **Rows without a code.** A row with no product code is not skipped. It is
  written under the empty code (`PrimeiroTurno.RowWithoutCodeIsWritten`).
- **Stored derived fields win.** The rest spread of `processFullCalculations`
  comes last, so a derived field already present in its input is kept. As a
  result:
  - deriving a stored record again changes nothing
    (`Calculations.ProcessFixpoint`);
  - the recompute pass rewrites exactly the records missing a compared field,
    and never repairs a stale value (`Processamento.NeedsUpdate`,
    `Processamento.RecomputeStep`);
  - a first-shift update keeps the first-shift derivation's stale
    second-shift efficiency and totals
    (`PrimeiroTurno.Shift1UpdateLeavesStaleTotals`).
- **The success notice counts the preview.** The importer's success notice
  counts the preview rows, so it never says more than five
  (`ExcelImporter.NoticeCountsPreview`).

## Model

| member | source | states |
|---|---|---|
| Calculations.CTP1 | src/hooks/usePCPCalculations.ts:5-8 | 0 for a zero plan; otherwise the produced-to-planned percentage, rounded to the nearest cent; never negative for a positive plan and non-negative production |
| Calculations.CTP2 | src/hooks/usePCPCalculations.ts:10-13 | the same for the second shift |
| Calculations.PlanoDiarioCx | src/hooks/usePCPCalculations.ts:15-19 | 0 when a box holds no kg; otherwise the planned kg of both shifts over the kg per box, rounded to cents |
| Calculations.BatchReceitaUn | src/hooks/usePCPCalculations.ts:21-24 | 0 for an empty recipe batch; otherwise the planned kg over the batch weight, rounded to cents |
| Calculations.KGTD | src/hooks/usePCPCalculations.ts:26-28 | the cent value nearest to the two shifts' produced kg |
| Calculations.CXSTD | src/hooks/usePCPCalculations.ts:30-32 | the cent value nearest to the two shifts' produced boxes |
| Calculations.DiferencaPrKg | src/hooks/usePCPCalculations.ts:34-36 | the cent value nearest to the total minus the plan of both shifts |
| Calculations.CTPTD | src/hooks/usePCPCalculations.ts:38-42 | 0 when both plans sum to zero; otherwise the total as a rounded percentage of the summed plan |
| Calculations.Default | src/hooks/usePCPCalculations.ts:45-56 | a destructured input keeps its stored value, even a falsy one, and is 0 only when undefined |
| Calculations.Inputs | src/hooks/usePCPCalculations.ts:45-56 | exactly the nine input keys, each with its defaulted value |
| Calculations.Derivations | src/hooks/usePCPCalculations.ts:58-85 | exactly the nine derived keys, each the metric of the inputs; `cxRespectiva` repeats the daily plan |
| Calculations.ProcessFullCalculations | src/hooks/usePCPCalculations.ts:44-88 | the output has the input's keys plus all input and derived keys; inputs are defaulted; every other input field is kept as given; a derived key absent from the input holds its fresh value; an input without derived keys yields a consistent record |
| Calculations.DerivedFromInputsOnly | src/hooks/usePCPCalculations.ts:58-65 | two records that agree on the nine destructured inputs derive the same quantities |
| Calculations.ProcessFixpoint | src/hooks/usePCPCalculations.ts:67-87 | a record already holding every input and derived key is returned unchanged, stale values included |
| Calculations.ProcessKeepsKeys | src/hooks/usePCPCalculations.ts:67-87 | such a record keeps exactly its keys |
| Calculations.ProcessKeepsValue | src/hooks/usePCPCalculations.ts:67-87 | such a record keeps each of its fields |
| Calculations.ProcessIdempotent | src/hooks/usePCPCalculations.ts:44-88 | deriving twice gives the same record as deriving once |
| Calculations.FreshDerivation | src/hooks/usePCPCalculations.ts:58-85 | for an input without derived keys, each derived output is its formula on the defaulted inputs |
| Calculations.ConsistentMetrics | src/hooks/usePCPCalculations.ts:58-65 | every derived field of a consistent record, in terms of that record's own quantities |
| Calculations.FirstShiftOnly | src/hooks/usePCPCalculations.ts:60-62 | with no second shift, CTP2 is 0 and the total is the rounded first-shift kg |
| Calculations.ConsistentTotals | src/hooks/usePCPCalculations.ts:62-65 | the difference and combined efficiency use the rounded total, not the raw sum |
| Calculations.InconsistentCtp2 | src/hooks/usePCPCalculations.ts:61 | a record whose stored CTP2 of 0 disagrees with its quantities is not consistent |
| Calculations.TotalsCommute | src/hooks/usePCPCalculations.ts:26-32 | the totals do not depend on which shift comes first |
| Calculations.MetricExamples | src/hooks/usePCPCalculations.ts:5-42 | worked values, including the zero-denominator guards and a negative difference |
| Calculations.DeltaUsesRoundedTotal | src/hooks/usePCPCalculations.ts:62-64 | the difference of a rounded total can differ from the rounded raw difference |
| Rounding.Round2 | src/hooks/usePCPCalculations.ts:27 | the result is the nearest cent value, ties going up |
| Rounding.RoundsToUnique | src/hooks/usePCPCalculations.ts:27 | at most one cent value is nearest, so the rounding is fully specified |
| Rounding.CentsDifference | src/hooks/usePCPCalculations.ts:35 | the difference of two cent values is a cent value |
| Rounding.Round2OfCents | src/hooks/usePCPCalculations.ts:27 | a cent value rounds to itself |
| Rounding.Round2Idempotent | src/hooks/usePCPCalculations.ts:27 | rounding twice is rounding once |
| Rounding.Round2Monotonic | src/hooks/usePCPCalculations.ts:27 | rounding preserves order |
| Rounding.Round2NonNegative | src/hooks/usePCPCalculations.ts:27 | a non-negative value never rounds below zero |
| Rounding.Round2HalvesUp | src/hooks/usePCPCalculations.ts:27 | half a cent rounds up on both sides of zero |
| Types.RecordRoundTrip | src/types/pcp.ts:2-29 | storing a production record and reading it back gives the same record |
| Types.PartKeys | src/types/pcp.ts:2-29 | the text, input and derived fields are disjoint key sets, none of them `id` |
| Types.TextLookups | src/types/pcp.ts:4-16 | the stored document holds each text field under its name |
| Types.InputLookups | src/types/pcp.ts:8-21 | the stored document holds each input quantity under its name |
| Types.DerivedLookups | src/types/pcp.ts:11-26 | the stored document holds each derived quantity under its name |
| Types.IdLookup | src/types/pcp.ts:3 | the stored document holds the id exactly when the record has one |
| Types.ToRecord | src/types/pcp.ts:2-29 | the stored document holds every text, input and derived field and no other key but `id`, which it holds, as the record's id text, exactly when the record has one |
| Types.FromRecord | src/types/pcp.ts:2-29 | a document reads back as a production record exactly when every text field holds a text and every quantity a number |
| Types.StoredRecordFixpoint | src/hooks/usePCPCalculations.ts:44-88 | deriving a complete stored production record changes nothing |
| Values.Lookup | src/pages/Resultados.tsx:63-78 | a field is present exactly when it is defined, and then holds the stored value |
| Values.FirstTruthy | src/pages/PrimeiroTurno.tsx:36-47 | the first truthy alias wins, and the default applies only when none is truthy |
| Values.Field | src/pages/Dashboard.tsx:22 | `x \|\| 0`: undefined reads as 0 and a stored number as itself |
| Values.TextField | src/pages/Dashboard.tsx:39 | a stored text reads as itself |
| ShiftRows.TextCell | src/pages/PrimeiroTurno.tsx:36-45 | always a text: `String()` of the first truthy alias, a later alias winning when the earlier ones are falsy, or the empty text when no alias is truthy |
| ShiftRows.NumberCell | src/pages/PrimeiroTurno.tsx:40-47 | always a number: `Number()` of the first truthy alias, a later alias winning when the earlier ones are falsy, or 0 when no alias is truthy |
| ShiftRows.RowCode | src/pages/PrimeiroTurno.tsx:36 | `String()` of CÓDIGO when truthy, else of CODIGO when truthy, else the empty code |
| ShiftRows.PackagingCell | src/pages/PrimeiroTurno.tsx:40-44 | the packaging quantities are numbers |
| ShiftRows.ParsedItem | src/pages/PrimeiroTurno.tsx:35-50 | the parsed row has exactly the text fields and the nine quantities |
| ShiftRows.ProcessParsed | src/pages/PrimeiroTurno.tsx:53 | deriving a parsed row keeps its texts and quantities and gives a consistent record |
| ShiftRows.SummaryOf | src/pages/PrimeiroTurno.tsx:127-159 | the cards count the table's records, sum their kg, and give their mean efficiency (0 for none) |
| ShiftRows.MeanWithinRange | src/pages/PrimeiroTurno.tsx:156-158 | the mean efficiency card lies between the lowest and highest efficiency shown |
| Store.FindByCode | src/pages/PrimeiroTurno.tsx:56 | the first listed item with the code, or none when no item has it |
| Store.IdOf | src/pages/PrimeiroTurno.tsx:67 | an item's id exactly when it is a non-empty text |
| Store.WriteFor | src/pages/PrimeiroTurno.tsx:55-70 | a row's write for its code: an add of the row's record exactly when no listed item has the code; otherwise an update, under its id, of the first item with the code merged with the row, or a missing-id failure when that item has no id |
| Store.Listed | src/hooks/usePCPData.ts:19-24 | a listed item has the document's fields, with the document id under `id` unless the data has one |
| Store.Attempt | src/pages/PrimeiroTurno.tsx:71-73 | a row succeeds exactly when its write exists and the store accepts it; a refusal records the refused write |
| Store.Attempts | src/pages/PrimeiroTurno.tsx:33-74 | one outcome per row |
| Store.AttemptsRows | src/pages/PrimeiroTurno.tsx:33-74 | each row's outcome is its own write's, whatever the earlier rows did |
| Store.Apply | src/hooks/usePCPData.ts:62-104 | an add inserts the record under a fresh id; an update of a stored document merges the written fields into it and keeps the set of documents; an update of a missing document is refused with the refused write; every other document is untouched |
| Store.AttemptAgainstStore | src/hooks/usePCPData.ts:85-104 | a row's attempt against a store that refuses only updates of missing documents succeeds exactly when applying its write succeeds, and fails with the same error |
| PrimeiroTurno.Shift1Cell | src/pages/PrimeiroTurno.tsx:40-49 | every quantity of a first-shift row is a number |
| PrimeiroTurno.Shift1Item | src/pages/PrimeiroTurno.tsx:35-50 | the parsed row has exactly the text fields and the nine quantities, every quantity a number and the second shift zero |
| PrimeiroTurno.Shift1Write | src/pages/PrimeiroTurno.tsx:53-70 | a code nobody lists is added as the row's derived record; otherwise the first listed record with the code is updated under its id with the row's record, which keeps that record's second shift and is derived again; the row fails when that record has no id |
| PrimeiroTurno.KeepSecondShift | src/pages/PrimeiroTurno.tsx:60-65 | the second-shift quantities come from the listed record; every other field comes from the row's derivation |
| PrimeiroTurno.ImportShift1 | src/pages/PrimeiroTurno.tsx:28-77 | one outcome per imported row |
| PrimeiroTurno.Shift1Rows | src/pages/PrimeiroTurno.tsx:20 | the table shows exactly the listed records with a first-shift plan, in listing order; it and the records without one add up to the listing |
| PrimeiroTurno.Shift1Summary | src/pages/PrimeiroTurno.tsx:120-159 | the cards count the table's records, sum their kg, and give their mean CTP1 |
| PrimeiroTurno.Shift1SummaryOfAllPlanned | src/pages/PrimeiroTurno.tsx:20 | when every record has a first-shift plan, the cards cover the whole listing |
| PrimeiroTurno.ImportShift1Rows | src/pages/PrimeiroTurno.tsx:33-74 | each row's outcome depends only on that row and the listing at the start |
| PrimeiroTurno.Shift1Processed | src/pages/PrimeiroTurno.tsx:35-53 | the row's record has its code, its quantities and fresh, consistent derived fields |
| PrimeiroTurno.Shift1AddsNewCode | src/pages/PrimeiroTurno.tsx:68-70 | a code not yet listed is added as the row's own record |
| PrimeiroTurno.Shift1FreshInputs | src/pages/PrimeiroTurno.tsx:35-50 | the row's record has the row's plan and kg, and a zero second shift |
| PrimeiroTurno.Shift1FreshDerived | src/pages/PrimeiroTurno.tsx:42-53 | its CTP2 is 0 and its total is the rounded first-shift kg |
| PrimeiroTurno.Shift1KeepsSecondShift | src/pages/PrimeiroTurno.tsx:58-67 | a listed code with an id is updated in place, keeping the listed second shift and taking the row's first shift |
| PrimeiroTurno.Shift1NeedsListedId | src/pages/PrimeiroTurno.tsx:67 | a listed record without an id makes its row fail |
| PrimeiroTurno.RowWithoutCodeIsWritten | src/pages/PrimeiroTurno.tsx:36 | a row without a code is added under the empty code |
| PrimeiroTurno.RepeatedNewCodeAddsTwice | src/pages/PrimeiroTurno.tsx:56 | two rows with the same new code are both added |
| PrimeiroTurno.NewCodeRowAdded | src/pages/PrimeiroTurno.tsx:68-70 | an accepted row with a new code is added |
| PrimeiroTurno.Shift1UpdateLeavesStaleTotals | src/pages/PrimeiroTurno.tsx:60-66 | after the merge the written record keeps the listed kg2 but a CTP2 of 0, so it is inconsistent |
| PrimeiroTurno.Shift1StaleExample | src/pages/PrimeiroTurno.tsx:60-66 | a concrete merge whose stored total omits the second shift's 95 kg |
| SegundoTurno.Carried | src/pages/SegundoTurno.tsx:50 | the listed value when truthy, and 0 otherwise |
| SegundoTurno.Existing | src/pages/SegundoTurno.tsx:38 | the first listed record under the row's code, if any |
| SegundoTurno.Shift2Cell | src/pages/SegundoTurno.tsx:44-58 | a first-shift quantity is the listed record's when truthy and 0 otherwise; every other quantity is a number, kg2 and cx2 falling back on the KG and CXS columns |
| SegundoTurno.LacksFirstShift | src/pages/SegundoTurno.tsx:38-42 | a code nobody lists lacks a first shift; a listed one lacks it exactly when the first record with the code has a plan of exactly the number 0 |
| SegundoTurno.Shift2Write | src/pages/SegundoTurno.tsx:61-67 | a code nobody lists is added as the row's record with an empty first shift; otherwise the first listed record with the code is updated under its id with the merged record; the row fails when that record has no id |
| SegundoTurno.Notices | src/pages/SegundoTurno.tsx:40-42 | one notice per row lacking a first shift, in row order, and nothing else |
| SegundoTurno.AlertLines | src/pages/SegundoTurno.tsx:114-118 | the first three notices as bullets, then the count of the others when there are more than three |
| SegundoTurno.Outcomes | src/pages/SegundoTurno.tsx:33-71 | one outcome per row |
| SegundoTurno.ImportShift2 | src/pages/SegundoTurno.tsx:33-71 | one outcome per row, each the outcome of that row's own write against the starting listing; one notice per row lacking a first shift, in row order |
| SegundoTurno.Shift2Processed | src/pages/SegundoTurno.tsx:44-61 | the written record has the row's code, the merged quantities and consistent derived fields |
| SegundoTurno.Shift2RecordFields | src/pages/SegundoTurno.tsx:44-61 | the first shift comes from the listed record and the second shift from the row |
| SegundoTurno.Shift2Cells | src/pages/SegundoTurno.tsx:50-58 | which source each merged quantity is read from |
| SegundoTurno.Shift2UpdatesListed | src/pages/SegundoTurno.tsx:63-64 | a listed code with an id is updated with the merged record |
| SegundoTurno.Shift2AddsNewCode | src/pages/SegundoTurno.tsx:65-66 | a new code is added with an empty first shift and gets a notice |
| SegundoTurno.NoticedRowIsWritten | src/pages/SegundoTurno.tsx:40-67 | a notice never stops the write; only a missing id does |
| SegundoTurno.UndefinedFirstShiftIsNotNoticed | src/pages/SegundoTurno.tsx:40 | a listed record with an undefined plan gets no notice, yet is written with a plan of 0 |
| SegundoTurno.ShiftsCombine | src/pages/SegundoTurno.tsx:44-64 | a concrete merge of a listed first shift with a second-shift row, with its total, efficiency and difference |
| SegundoTurno.Shift2Rows | src/pages/SegundoTurno.tsx:20 | the table shows exactly the listed records with a second-shift plan, in listing order; it and the records without one add up to the listing |
| SegundoTurno.Shift2Summary | src/pages/SegundoTurno.tsx:142-181 | the cards count the table's records, sum their kg2, and give their mean CTP2 |
| SegundoTurno.Shift2SummaryOfAllPlanned | src/pages/SegundoTurno.tsx:20 | when every record has a second-shift plan, the cards cover the whole listing |
| SegundoTurno.ComparativeRows | src/pages/SegundoTurno.tsx:21 | the comparison shows exactly the records planned in both shifts, in listing order; it and the other records add up to the listing |
| SegundoTurno.ComparedAreSecondShiftRows | src/pages/SegundoTurno.tsx:20-21 | every compared record is also in the second-shift table |
| SegundoTurno.Divergence | src/pages/SegundoTurno.tsx:81-85 | the gap as a percentage of the two amounts' mean, and 0 when that mean is not positive |
| SegundoTurno.DivergenceSymmetric | src/pages/SegundoTurno.tsx:81-85 | the divergence does not depend on the order of the shifts |
| SegundoTurno.DivergenceBounds | src/pages/SegundoTurno.tsx:81-85 | for non-negative amounts it lies between 0 and 200; it is 0 exactly for equal amounts and 200 exactly when one amount is 0 |
| SegundoTurno.DivergenceExample | src/pages/SegundoTurno.tsx:81-85 | 100 against 50 diverges by 200/3 |
| SegundoTurno.DivergenceVariant | src/pages/SegundoTurno.tsx:275 | default below 10, destructive from 25 on |
| SegundoTurno.DivergenceStatus | src/pages/SegundoTurno.tsx:280-281 | "Normal" exactly below 10 |
| SegundoTurno.Compare | src/pages/SegundoTurno.tsx:260-281 | the code, the difference kg2 − kg, the divergence of the two kg, and the badge and status graded from that divergence at 10 and 25 |
| SegundoTurno.DivergenceVariantAntitone | src/pages/SegundoTurno.tsx:275 | a larger gap never earns a better badge |
| Badges.Grade | src/pages/PrimeiroTurno.tsx:198 | default from the high threshold, secondary from the low one, destructive below both |
| Badges.GradeMonotonic | src/pages/PrimeiroTurno.tsx:198 | a higher value never earns a worse badge |
| Badges.GoalLabel | src/pages/PrimeiroTurno.tsx:203-204 | "Meta atingida" exactly when production reaches the plan |
| Processamento.Consolidated | src/pages/Processamento.tsx:19 | exactly the listed records with a plan in either shift, in listing order; they and the unplanned records add up to the listing |
| Processamento.IsPlanned | src/pages/Processamento.tsx:19 | an unplanned record has no positive summed plan; with non-negative shift plans, a record is planned exactly when its summed plan is positive |
| Processamento.TotalsOf | src/pages/Processamento.tsx:23-35 | zero totals for no records; for one record, its kg, boxes, summed plan, difference and combined efficiency |
| Processamento.TotalsAppend | src/pages/Processamento.tsx:23-35 | the five totals of two batches add up |
| Processamento.DifferenceOfTotals | src/pages/Processamento.tsx:23-35 | for consistent records with cent plans, the summed difference is the summed total minus the summed plan |
| Processamento.ItemDifference | src/pages/Processamento.tsx:27 | the same for one record |
| Processamento.OverallEfficiency | src/pages/Processamento.tsx:37 | the mean combined efficiency, 0 for no records |
| Processamento.DifferencePercent | src/pages/Processamento.tsx:38 | the summed difference as a percentage of a positive plan, 0 otherwise |
| Processamento.Progress | src/pages/Processamento.tsx:136 | the mean efficiency when it is below 100, otherwise 100 |
| Processamento.ProgressBounds | src/pages/Processamento.tsx:136 | with non-negative efficiencies the bar stays between 0 and 100 |
| Processamento.TableRows | src/pages/Processamento.tsx:196 | the first fifteen consolidated records in order, or all of them when there are fewer |
| Processamento.RunUntilRefused | src/pages/Processamento.tsx:43-67 | the accepted writes are a prefix of the planned ones; the first refusal stops the pass |
| Processamento.Recompute | src/pages/Processamento.tsx:40-71 | the whole planned sequence of writes, or an accepted prefix followed by the refused write |
| Processamento.ComparedFieldAgrees | src/pages/Processamento.tsx:50-56 | a compared field matches its fresh derivation exactly when it is stored |
| Processamento.NeedsUpdate | src/pages/Processamento.tsx:50-56 | a record needs an update exactly when one of the six compared fields is missing |
| Processamento.RecomputeStep | src/pages/Processamento.tsx:47-59 | a record is rewritten exactly when a compared field is missing and it has an id, so a stale stored value is never repaired; the write is the record's fresh derivation under its id, consistent when the record held no derived field |
| Processamento.RecomputeSettles | src/pages/Processamento.tsx:46-62 | once every record is derived, a further pass writes nothing |
| Processamento.PlannedWritesFromListing | src/pages/Processamento.tsx:58-59 | every planned write rewrites a listed record that has an id |
| ExcelImporter.CellAt | src/components/ExcelImporter.tsx:55-56 | a present cell's value, and the empty text for a missing cell |
| ExcelImporter.RowData | src/components/ExcelImporter.tsx:53-57 | the mapped record has exactly the keys the header row names |
| ExcelImporter.RowDataLastWins | src/components/ExcelImporter.tsx:54-57 | of two columns with the same header the later one wins |
| ExcelImporter.MappedRow | src/components/ExcelImporter.tsx:52-59 | the header-keyed cells plus the 1-based sheet row number |
| ExcelImporter.ProcessSheet | src/components/ExcelImporter.tsx:44-66 | fails with the header message exactly for fewer than two rows; the preview is the first five records |
| ExcelImporter.MappedRowNonBlank | src/components/ExcelImporter.tsx:60-63 | the row number makes every record non-blank |
| ExcelImporter.ProcessSheetRows | src/components/ExcelImporter.tsx:48-63 | one record per data row, in sheet order: the blank-row filter drops nothing |
| ExcelImporter.BlankRowKept | src/components/ExcelImporter.tsx:55-63 | an all-empty row becomes a record of empty texts |
| ExcelImporter.PreviewColumns | src/components/ExcelImporter.tsx:195 | exactly the first preview record's keys without the row number; no columns for an empty preview |
| ExcelImporter.PreviewShowsHeaders | src/components/ExcelImporter.tsx:195 | the preview shows exactly the header keys |
| ExcelImporter.NoticeCountsPreview | src/components/ExcelImporter.tsx:174 | with five or more data rows the notice reports five rows |
| ExcelImporter.ErrorNotice | src/components/ExcelImporter.tsx:183 | the fixed "Erro na importação: " prefix followed by the whole thrown message |
| ExcelImporter.ImportNotice | src/components/ExcelImporter.tsx:170-186 | the error prefix appears exactly for a failed import, and the message follows it unchanged |
| ExcelImporter.DroppedFile | src/components/ExcelImporter.tsx:97-103 | the first dropped spreadsheet, or none when no file is one |
| ExcelImporter.IsSpreadsheet | src/components/ExcelImporter.tsx:98-103 | an Excel file name or an Excel type each suffices, and a file with neither is refused |
| ExcelImporter.ChosenFile | src/components/ExcelImporter.tsx:110-115 | the first chosen file, with no type test |
| ExcelImporter.DropAgreesWithChoice | src/components/ExcelImporter.tsx:97-115 | dropping and choosing one file agree exactly when it is a spreadsheet |
| ExcelImporter.ExtensionSuffices | src/components/ExcelImporter.tsx:101-102 | an Excel file name is accepted whatever type the browser reports |
| Dashboard.DashboardMetrics | src/pages/Dashboard.tsx:12-32 | the record count, the summed total and plan, and the total as a percentage of a positive plan |
| Dashboard.TotalIncludesUnplanned | src/pages/Dashboard.tsx:22 | the dashboard total is the consolidated total plus what unplanned records hold |
| Dashboard.EfficiencyIsNotMean | src/pages/Dashboard.tsx:24 | the efficiency weighs products by their plan and is not the mean CTPTD |
| Dashboard.EfficiencyBars | src/pages/Dashboard.tsx:35-43 | the first ten records, labelled by the first eight characters of their code, or the whole code when it is shorter |
| Dashboard.ShiftPoints | src/pages/Dashboard.tsx:46-55 | the first ten records' kg in each shift and their sum, labelled like the efficiency bars |
| Dashboard.ClassOf | src/pages/Dashboard.tsx:62 | the classification, or "N/A" when it is falsy |
| Dashboard.Accumulate | src/pages/Dashboard.tsx:63 | the named entry grows by the added amount, and at most one entry is appended |
| Dashboard.Distribution | src/pages/Dashboard.tsx:61-65 | at most one entry per record, and at least one when there are records |
| Dashboard.AccumulateSum | src/pages/Dashboard.tsx:63 | adding to one entry adds to the sum of all entries |
| Dashboard.AccumulateValue | src/pages/Dashboard.tsx:63 | adding to one entry changes that entry and no other |
| Dashboard.AccumulateShape | src/pages/Dashboard.tsx:61-65 | an existing name keeps its place; a new name is appended |
| Dashboard.AccumulateNames | src/pages/Dashboard.tsx:61-65 | names stay distinct, and the new name joins them |
| Dashboard.DistributionValue | src/pages/Dashboard.tsx:61-65 | each entry is the summed total of its classification |
| Dashboard.DistributionSum | src/pages/Dashboard.tsx:61-65 | the entries add up to the dashboard total |
| Dashboard.DistributionNames | src/pages/Dashboard.tsx:61-67 | one entry per classification the records carry |
| Dashboard.Share | src/pages/Dashboard.tsx:70 | an entry's share of a positive total, 0 otherwise |
| Dashboard.SharesSumTo100 | src/pages/Dashboard.tsx:67-71 | with some production the shares add up to 100 |
| Dashboard.DashboardLabel | src/pages/Dashboard.tsx:114-119 | the label text names the same grade as the badge |
| Dashboard.StatusList | src/pages/Dashboard.tsx:272-293 | the first five records, graded from 95 and 85, with a check mark exactly for the default grade |
| Resultados.Filtered | src/pages/Resultados.tsx:21-29 | every record for "todos", otherwise exactly the records of that classification |
| Resultados.FilteredInOrder | src/pages/Resultados.tsx:21-29 | the filter keeps the listing order |
| Resultados.Categories | src/pages/Resultados.tsx:31 | the distinct truthy classifications, each once |
| Resultados.CategoryOf | src/pages/Resultados.tsx:42-49 | a category's summed total over its filtered records, and exactly the number of those records |
| Resultados.CategoryData | src/pages/Resultados.tsx:42-49 | one row per category of the whole listing, over the filtered records |
| Resultados.CategoryTotalMatchesDashboard | src/pages/Resultados.tsx:43-46 | a category's total equals the dashboard's total for that classification |
| Resultados.CategoryMatchesDistribution | src/pages/Resultados.tsx:42-49 | with every record selected, a category's total is its dashboard distribution entry |
| Resultados.MetricsOf | src/pages/Resultados.tsx:54-60 | the sums, the mean CTPTD (0 for none), and the count of records that reached the goal |
| Resultados.SuccessRate | src/pages/Resultados.tsx:183 | goals reached as a percentage of the records, between 0 and 100 |
| Resultados.Participation | src/pages/Resultados.tsx:284 | a category's share of a positive filtered total, 0 otherwise |
| Resultados.GoalVariant | src/pages/Resultados.tsx:242 | default exactly when the efficiency badge is default, and never secondary |
| Resultados.GoalCardMatchesLabels | src/pages/Resultados.tsx:58 | the goal card counts exactly the rows labelled "Meta atingida" |
| Resultados.TurnoComparison | src/pages/Resultados.tsx:34-40 | the shift comparison of the first ten filtered records in order, or of all of them when there are fewer |
| Resultados.ExportRow | src/pages/Resultados.tsx:63-78 | fourteen columns, with headers in order, each copying its field |
| Resultados.ExportHeadersDistinct | src/pages/Resultados.tsx:64-77 | no header is repeated |
| Resultados.ExportReadsBack | src/pages/Resultados.tsx:63-78 | reading an exported row back by header gives each copied field |
| Resultados.ExportRows | src/pages/Resultados.tsx:63-78 | one exported row per filtered record, in order |
| Resultados.DatePart | src/pages/Resultados.tsx:93 | the text before the first `T` |
| Resultados.ExportFileName | src/pages/Resultados.tsx:93 | "Resultados_PCP_", the instant's text up to its first `T`, and ".xlsx" |
| Sistema.OrDefault | src/pages/Sistema.tsx:32-35 | a missing or zero value gives the fallback |
| Sistema.DefaultValues | src/pages/Sistema.tsx:29-37 | each stored target, or 1000 / 30000 / 1.0 / 5 when it is missing or zero |
| Sistema.Issues | src/pages/Sistema.tsx:17-22 | each field's message appears exactly when that field fails its check; no message exactly when the values satisfy the schema |
| Sistema.DefaultsValid | src/pages/Sistema.tsx:31-36 | the fallback values satisfy the schema |
| Sistema.ZeroTargetFallsBack | src/pages/Sistema.tsx:32-33 | a stored target of zero is replaced by its fallback |
| Sistema.Payload | src/pages/Sistema.tsx:41-48 | the two targets at the top, the two parameters nested |
| Sistema.PayloadReadsBack | src/pages/Sistema.tsx:29-48 | the defaults expression reads the payload saved for valid values back as exactly those values |
| Sistema.WriteMetas | src/hooks/usePCPData.ts:129-142 | an update exactly when the listed targets have a non-empty id; the defaults expression reads the written document back as the submitted values |
| Sistema.Submit | src/pages/Sistema.tsx:39-52 | refused exactly for invalid values; written exactly for valid values the store accepts |
| Produtos.Issues | src/pages/Produtos.tsx:19-29 | each field's message appears exactly when that field fails its check, and no message appears twice |
| Produtos.Validate | src/pages/Produtos.tsx:36-37 | the values unchanged, or the non-empty list of messages |
| Produtos.ValidateIff | src/pages/Produtos.tsx:19-29 | accepted exactly when the values satisfy the schema |
| Produtos.ValidIffNoFailure | src/pages/Produtos.tsx:19-29 | the schema holds exactly when none of the eight field checks fails |
| Produtos.DefaultFormRefused | src/pages/Produtos.tsx:38-48 | the untouched form fails on every field except the units per box |
| Produtos.Submit | src/pages/Produtos.tsx:57-65 | saved exactly for valid values the store accepts; refused exactly for invalid ones |
| Produtos.Search | src/pages/Produtos.tsx:51-55 | a listed product is found exactly when it matches the term |
| Produtos.Matches | src/pages/Produtos.tsx:52-54 | a product matches exactly when the lower-cased term occurs in its lower-cased code, description or machine; the empty term matches every product |
| Produtos.EmptySearchKeepsAll | src/pages/Produtos.tsx:51-55 | an empty search keeps the catalogue |
| Produtos.SearchInOrder | src/pages/Produtos.tsx:51-55 | the search keeps the catalogue order |
| Produtos.OptionList | src/pages/Produtos.tsx:67-69 | the distinct non-empty values, each once |
| Produtos.Machines | src/pages/Produtos.tsx:67 | every non-empty machine once, and nothing else |
| Produtos.Packagings | src/pages/Produtos.tsx:68 | every non-empty packaging once, and nothing else |
| Produtos.Classifications | src/pages/Produtos.tsx:69 | every non-empty classification once, and nothing else |
| Produtos.ClassOptionRepeats | src/pages/Produtos.tsx:120-125 | a product classified "A" makes the selector offer "A" twice |
| Produtos.ActiveCount | src/pages/Produtos.tsx:320 | at most the catalogue size, and all of it when every product is active |
| Produtos.ActiveAndInactive | src/pages/Produtos.tsx:320 | active and inactive products together make the catalogue |
| Produtos.ClassVariant | src/pages/Produtos.tsx:363-368 | "A" default, "B" secondary, anything else an outline |
| Produtos.StatusLabel | src/pages/Produtos.tsx:374-375 | "Ativo" exactly for active products |
| AppSidebar.NavClassName | src/components/AppSidebar.tsx:89-93 | the highlighted classes exactly when the link is active |
| AppSidebar.IsActive | src/components/AppSidebar.tsx:84-87 | a link is active on its own page; the root link only at the root; any other link exactly when the current path extends its url |
| AppSidebar.NavigationShape | src/components/AppSidebar.tsx:31-74 | seven links, the dashboard first, each url once |
| AppSidebar.NoUrlBeginsAnother | src/components/AppSidebar.tsx:31-74 | apart from the root, no url begins another |
| AppSidebar.AtMostOneActive | src/components/AppSidebar.tsx:84-87 | whatever the path, at most one link is highlighted |
| AppSidebar.LookAlikePathActive | src/components/AppSidebar.tsx:86 | a path that merely begins with a url highlights that link |
| Text.IncludesIff | src/pages/Produtos.tsx:52-54 | the scan finds the term exactly when it occurs |
| Text.Lower | src/pages/Produtos.tsx:52 | same length, each character lower-cased |
| Seqs.Distinct | src/pages/Resultados.tsx:31 | each value once, exactly the values of the input, in the input's order |
| Seqs.Take | src/pages/Dashboard.tsx:38 | the first n elements, or all of them |

## Left out

- The document store is not modelled as I/O: its listeners, ordering queries, timestamps and error toasts are left out. Writes are values, and a refusal is a parameter.
- React state and effects, the 500 ms delay before the importer hands over its rows, and the 2 s auto-recompute timer are left out; the recompute pass is modelled as run once.
- XLSX decoding and writing are left out, along with column widths and `file.arrayBuffer`. The importer starts from the decoded rows, and the export stops at the rows it would write.
- Floating point is left out: numbers are exact reals, and NaN and IEEE rounding are not modelled. `Number()` of a text reads as 0.
- `toFixed` and `toLocaleString` formatting are left out.
- Text.NatText: only whole numbers are printed exactly. `String()` of a fraction uses a fuel-limited digit expansion.
- Text.Lower: lower-cases ASCII and Latin-1 letters only, not the rest of Unicode.
- Object.entries ordering for integer-like keys is not modelled: the classification distribution lists entries in insertion order.
- Dashboard.Distribution and ExcelImporter.RowData: keys that name members of `Object.prototype` are treated as ordinary keys. In the source, a classification or header such as "constructor", "toString", "valueOf" or "hasOwnProperty" makes `acc[k] || 0` read the inherited function, so the sum becomes a text and the share NaN (src/pages/Dashboard.tsx:63); an assignment to "__proto__" is silently dropped (src/pages/Dashboard.tsx:63, src/components/ExcelImporter.tsx:56).
- ExcelImporter.PreviewColumns: the result is a set, so the column order of the preview header (the `Object.keys` order of the first record, src/components/ExcelImporter.tsx:195) is not modelled.
- Values.Field: raw reads such as `item.kgtd` (NaN when undefined in the source) are modelled as `item.kgtd || 0`.
- Store.IdOf: a truthy id that is not a string is treated as absent.
- ShiftRows.RowCode: a row with no code column reads as the empty code.
- Dashboard.Code: a record whose `codigo` is missing or not a text is labelled by the empty code; the source's `codigo.slice` throws there and the dashboard fails to render.
- Sistema.DefaultValues: the form captures its defaults once, when the page mounts, before the targets arrive from the store; the model states what the expression gives for the targets it is handed, not that the open form shows stored targets.
- The results page's period selector filters nothing in the source, and is not modelled.
- The mock system-log and user tables of the system page are left out, along with its theme and notification toggles.
- Charts, the login page, the application layout and routing, the collapsed-sidebar rendering and logout are left out.

=== FILE: app_sidebar.dfy ===
/**
 * The navigation sidebar (`AppSidebar`): the seven page links, which of
 * them is highlighted for the current path, and the class it gets.
 */
module AppSidebar {
  import Text

  /** One navigation link. */
  datatype NavItem = NavItem(title: string, url: string, description: string)

  /** `navigationItems`, in display order. */
  const NavigationItems: seq<NavItem> := [
    NavItem("Dashboard", "/", "Visão geral da produção"),
    NavItem("1º Turno", "/primeiro-turno", "Gestão do primeiro turno"),
    NavItem("2º Turno", "/segundo-turno", "Gestão do segundo turno"),
    NavItem("Processamento", "/processamento", "Cálculos automáticos"),
    NavItem("Resultados", "/resultados", "Relatórios analíticos"),
    NavItem("Produtos", "/produtos", "Cadastro de produtos"),
    NavItem("Sistema", "/sistema", "Configurações")
  ]

  /** The page links' urls. */
  const Urls: seq<string> := ["/", "/primeiro-turno", "/segundo-turno", "/processamento", "/resultados", "/produtos", "/sistema"]

  /** The root link is active only on the root path; any other link on every path it starts. */
  function IsActive(path: string, currentPath: string): (b: bool)
    ensures path == currentPath ==> b
    ensures path == "/" ==> (b <==> currentPath == "/")
    ensures path != "/" ==> (b <==> exists rest: string :: currentPath == path + rest)
  {
    if path == "/" then currentPath == "/"
    else if Text.StartsWith(currentPath, path) then
      assert currentPath == path + currentPath[|path|..];
      true
    else false
  }

  /** The classes of the highlighted link, and of every other link. */
  const ActiveClass: string := "bg-primary text-primary-foreground font-medium shadow-sm"
  const InactiveClass: string := "hover:bg-accent hover:text-accent-foreground transition-smooth"

  /** `getNavClassName`. */
  function NavClassName(path: string, currentPath: string): (c: string)
    ensures c == ActiveClass <==> IsActive(path, currentPath)
    ensures c == InactiveClass <==> !IsActive(path, currentPath)
  {
    if IsActive(path, currentPath) then ActiveClass else InactiveClass
  }

  /** Seven links, the dashboard first, each url once. */
  lemma NavigationShape()
    ensures |NavigationItems| == 7
    ensures NavigationItems[0].url == "/"
    ensures forall i | 0 <= i < 7 :: NavigationItems[i].url == Urls[i]
    ensures forall i, j | 0 <= i < j < 7 :: Urls[i] != Urls[j]
  {
  }

  /** Apart from the root, no link's url begins another's. */
  lemma NoUrlBeginsAnother()
    ensures forall i, j | 1 <= i < 7 && 1 <= j < 7 && i != j :: !Text.StartsWith(Urls[j], Urls[i])
  {
    forall i, j | 1 <= i < 7 && 1 <= j < 7 && i != j ensures !Text.StartsWith(Urls[j], Urls[i]) {
      var k := if Urls[i][1] != Urls[j][1] then 1 else if Urls[i][2] != Urls[j][2] then 2
               else if Urls[i][3] != Urls[j][3] then 3 else 4;
      assert Urls[i][k] != Urls[j][k];
      DifferAt(Urls[i], Urls[j], k);
    }
  }

  /** A text that differs from `a` at a position of both does not begin with `a`. */
  lemma DifferAt(a: string, b: string, k: nat)
    requires k < |a| && k < |b| && a[k] != b[k]
    ensures !Text.StartsWith(b, a)
  {
  }

  /** Two prefixes of one path: the shorter begins the longer. */
  lemma PrefixesNest(s: string, a: string, b: string)
    requires Text.StartsWith(s, a) && Text.StartsWith(s, b) && |a| <= |b|
    ensures Text.StartsWith(b, a)
  {
    assert b[..|a|] == s[..|b|][..|a|];
  }

  /** Whatever the current path, at most one link is highlighted. */
  lemma AtMostOneActive(currentPath: string, i: nat, j: nat)
    requires i < 7 && j < 7
    requires IsActive(Urls[i], currentPath) && IsActive(Urls[j], currentPath)
    ensures i == j
  {
    if i != j && i != 0 && j != 0 {
      NoUrlBeginsAnother();
      if |Urls[i]| <= |Urls[j]| {
        PrefixesNest(currentPath, Urls[i], Urls[j]);
      } else {
        PrefixesNest(currentPath, Urls[j], Urls[i]);
      }
    }
  }

  /** A path that merely begins with a link's url, such as `/produtosX`, highlights that link. */
  lemma LookAlikePathActive()
    ensures IsActive("/produtos", "/produtosX")
    ensures NavClassName("/produtos", "/produtosX") == ActiveClass
  {
    assert "/produtosX"[..|"/produtos"|] == "/produtos";
  }
}

=== FILE: badges.dfy ===
/**
 * The status badges the pages put next to an efficiency: a colour variant
 * chosen by two thresholds, and the "target reached" label.
 */
module Badges {
  datatype Variant = Default | Secondary | Destructive

  /** How good a variant is: the default badge is the best, the destructive one the worst. */
  function Rank(v: Variant): nat {
    match v
    case Default => 2
    case Secondary => 1
    case Destructive => 0
  }

  /** `x >= high ? "default" : x >= low ? "secondary" : "destructive"`. */
  function Grade(x: real, high: real, low: real): (v: Variant)
    ensures v == Default <==> x >= high
    ensures v == Secondary <==> low <= x < high
    ensures v == Destructive <==> x < high && x < low
  {
    if x >= high then Default else if x >= low then Secondary else Destructive
  }

  /** The per-shift and combined efficiency badge of the shift, processing and results tables. */
  function EfficiencyVariant(x: real): Variant {
    Grade(x, 100.0, 80.0)
  }

  /** The efficiency badge of the dashboard. */
  function DashboardVariant(x: real): Variant {
    Grade(x, 95.0, 85.0)
  }

  /** A higher value never earns a worse badge. */
  lemma GradeMonotonic(x: real, y: real, high: real, low: real)
    requires x <= y
    ensures Rank(Grade(x, high, low)) <= Rank(Grade(y, high, low))
  {
  }

  /** `produced >= planned ? "Meta atingida" : "Abaixo da meta"`. */
  function GoalLabel(produced: real, planned: real): (text: string)
    ensures text == "Meta atingida" <==> produced >= planned
    ensures text == "Abaixo da meta" <==> produced < planned
  {
    if produced >= planned then "Meta atingida" else "Abaixo da meta"
  }
}

=== FILE: calculations.dfy ===
/**
 * The metric functions and the record derivation of `usePCPCalculations`.
 * Each metric rounds its own result to cents; the combined delta and the
 * combined efficiency are computed from the already-rounded total kg.
 */
module Calculations {
  import opened Rounding
  import opened Values

  /** Shift-1 efficiency (CTP1): produced kg as a percentage of the shift-1 target. */
  function CTP1(kg: real, turno1: real): (r: real)
    ensures turno1 == 0.0 ==> r == 0.0
    ensures turno1 != 0.0 ==> RoundsTo(kg / turno1 * 100.0, r)
    ensures kg >= 0.0 && turno1 > 0.0 ==> r >= 0.0
  {
    if turno1 == 0.0 then 0.0
    else Round2NonNegativeIf(kg / turno1 * 100.0); Round2(kg / turno1 * 100.0)
  }

  /** Shift-2 efficiency (CTP2). */
  function CTP2(kg2: real, turno2: real): (r: real)
    ensures turno2 == 0.0 ==> r == 0.0
    ensures turno2 != 0.0 ==> RoundsTo(kg2 / turno2 * 100.0, r)
    ensures kg2 >= 0.0 && turno2 > 0.0 ==> r >= 0.0
  {
    if turno2 == 0.0 then 0.0
    else Round2NonNegativeIf(kg2 / turno2 * 100.0); Round2(kg2 / turno2 * 100.0)
  }

  /** Daily plan in boxes: planned kg over the kg held by one box. */
  function PlanoDiarioCx(turno1: real, turno2: real, pesoLiqUnitKg: real, unCx: real): (r: real)
    ensures pesoLiqUnitKg * unCx == 0.0 ==> r == 0.0
    ensures pesoLiqUnitKg * unCx != 0.0 ==> RoundsTo((turno1 + turno2) / (pesoLiqUnitKg * unCx), r)
  {
    var denominator := pesoLiqUnitKg * unCx;
    if denominator == 0.0 then 0.0 else Round2((turno1 + turno2) / denominator)
  }

  /** Recipe batches needed for the planned kg. */
  function BatchReceitaUn(turno1: real, turno2: real, batchReceitaKg: real): (r: real)
    ensures batchReceitaKg == 0.0 ==> r == 0.0
    ensures batchReceitaKg != 0.0 ==> RoundsTo((turno1 + turno2) / batchReceitaKg, r)
  {
    if batchReceitaKg == 0.0 then 0.0 else Round2((turno1 + turno2) / batchReceitaKg)
  }

  /** Total produced kg over both shifts (KGTD). */
  function KGTD(kg: real, kg2: real): (r: real)
    ensures RoundsTo(kg + kg2, r)
  {
    Round2(kg + kg2)
  }

  /** Total produced boxes over both shifts (CXSTD). */
  function CXSTD(cxs: real, cx2: real): (r: real)
    ensures RoundsTo(cxs + cx2, r)
  {
    Round2(cxs + cx2)
  }

  /** Produced minus planned kg; negative when production fell short. */
  function DiferencaPrKg(kgtd: real, turno1: real, turno2: real): (r: real)
    ensures RoundsTo(kgtd - (turno1 + turno2), r)
  {
    Round2(kgtd - (turno1 + turno2))
  }

  /** Combined efficiency (CTPTD): total kg as a percentage of both targets. */
  function CTPTD(kgtd: real, turno1: real, turno2: real): (r: real)
    ensures turno1 + turno2 == 0.0 ==> r == 0.0
    ensures turno1 + turno2 != 0.0 ==> RoundsTo(kgtd / (turno1 + turno2) * 100.0, r)
    ensures kgtd >= 0.0 && turno1 + turno2 > 0.0 ==> r >= 0.0
  {
    var totalTurnos := turno1 + turno2;
    if totalTurnos == 0.0 then 0.0
    else Round2NonNegativeIf(kgtd / totalTurnos * 100.0); Round2(kgtd / totalTurnos * 100.0)
  }

  lemma Round2NonNegativeIf(x: real)
    ensures x >= 0.0 ==> Round2(x) >= 0.0
  {
    if x >= 0.0 {
      Round2NonNegative(x);
    }
  }

  /** The nine numeric inputs `processFullCalculations` destructures with default 0. */
  const InputKeys: set<string> :=
    {"turno1", "turno2", "kg", "kg2", "cxs", "cx2", "pesoLiqUnitKg", "unCx", "batchReceitaKg"}

  /** The fields `processFullCalculations` derives. */
  const DerivedKeys: set<string> :=
    {"planoDiarioCx", "batchReceitaUn", "ctp1", "ctp2", "kgtd", "cxstd", "diferencaPrKg", "ctptd", "cxRespectiva"}

  lemma KeySetsDisjoint()
    ensures InputKeys !! DerivedKeys
  {
  }

  /** A destructured input: its value when present (even if falsy), 0 when undefined. */
  function Default(data: Record, k: string): (v: Value)
    ensures k !in data ==> v == Num(0.0)
    ensures k in data ==> v == data[k]
  {
    if k in data then data[k] else Num(0.0)
  }

  /** The nine numeric inputs of a record, as the metric functions read them. */
  datatype Quantities = Quantities(
    turno1: real, turno2: real, kg: real, kg2: real, cxs: real, cx2: real,
    pesoLiqUnitKg: real, unCx: real, batchReceitaKg: real)

  function QuantitiesOf(r: Record): Quantities {
    Quantities(
      Field(r, "turno1"), Field(r, "turno2"), Field(r, "kg"), Field(r, "kg2"),
      Field(r, "cxs"), Field(r, "cx2"), Field(r, "pesoLiqUnitKg"), Field(r, "unCx"),
      Field(r, "batchReceitaKg"))
  }

  /**
   * What derived field `k` should hold for the quantities `q`.
   * The delta and the combined efficiency use the rounded total kg.
   */
  function DerivedValue(q: Quantities, k: string): real
    requires k in DerivedKeys
  {
    var kgtd := KGTD(q.kg, q.kg2);
    match k
    case "planoDiarioCx" => PlanoDiarioCx(q.turno1, q.turno2, q.pesoLiqUnitKg, q.unCx)
    case "cxRespectiva" => PlanoDiarioCx(q.turno1, q.turno2, q.pesoLiqUnitKg, q.unCx)
    case "batchReceitaUn" => BatchReceitaUn(q.turno1, q.turno2, q.batchReceitaKg)
    case "ctp1" => CTP1(q.kg, q.turno1)
    case "ctp2" => CTP2(q.kg2, q.turno2)
    case "kgtd" => kgtd
    case "cxstd" => CXSTD(q.cxs, q.cx2)
    case "diferencaPrKg" => DiferencaPrKg(kgtd, q.turno1, q.turno2)
    case "ctptd" => CTPTD(kgtd, q.turno1, q.turno2)
  }

  /** What derived field `k` should hold given the input fields of `r`. */
  function Derived(r: Record, k: string): real
    requires k in DerivedKeys
  {
    DerivedValue(QuantitiesOf(r), k)
  }

  /** The derived fields depend on the nine inputs and nothing else. */
  lemma DerivedFromInputsOnly(a: Record, b: Record)
    requires forall k | k in InputKeys :: Default(a, k) == Default(b, k)
    ensures QuantitiesOf(a) == QuantitiesOf(b)
  {
    var names := ["turno1", "turno2", "kg", "kg2", "cxs", "cx2", "pesoLiqUnitKg", "unCx", "batchReceitaKg"];
    forall i | 0 <= i < |names|
      ensures Field(a, names[i]) == Field(b, names[i])
    {
      assert names[i] in InputKeys;
      FieldAgrees(a, b, names[i]);
    }
    assert Field(a, names[0]) == Field(b, names[0]) && Field(a, names[1]) == Field(b, names[1]);
    assert Field(a, names[2]) == Field(b, names[2]) && Field(a, names[3]) == Field(b, names[3]);
    assert Field(a, names[4]) == Field(b, names[4]) && Field(a, names[5]) == Field(b, names[5]);
    assert Field(a, names[6]) == Field(b, names[6]) && Field(a, names[7]) == Field(b, names[7]);
    assert Field(a, names[8]) == Field(b, names[8]);
  }

  /** Two records with the same destructured input read the same number from it. */
  lemma FieldAgrees(a: Record, b: Record, k: string)
    requires Default(a, k) == Default(b, k)
    ensures Field(a, k) == Field(b, k)
  {
  }

  /** Every derived field is present and agrees with the record's own inputs. */
  ghost predicate Consistent(r: Record) {
    forall k | k in DerivedKeys :: k in r && r[k] == Num(Derived(r, k))
  }

  /** The nine destructured inputs, each with its default. */
  function Inputs(data: Record): (m: Record)
    ensures m.Keys == InputKeys
    ensures forall k | k in InputKeys :: m[k] == Default(data, k)
  {
    map k | k in InputKeys :: Default(data, k)
  }

  /**
   * The derived fields, in the source's order of evaluation: the delta and
   * the combined efficiency reuse the rounded `kgtd`, and `cxRespectiva`
   * repeats `planoDiarioCx`.
   */
  function Derivations(inputs: Record): (d: Record)
    ensures d.Keys == DerivedKeys
    ensures forall k | k in DerivedKeys :: d[k] == Num(Derived(inputs, k))
  {
    var turno1 := Field(inputs, "turno1");
    var turno2 := Field(inputs, "turno2");
    var kg := Field(inputs, "kg");
    var kg2 := Field(inputs, "kg2");
    var planoDiarioCx := PlanoDiarioCx(turno1, turno2, Field(inputs, "pesoLiqUnitKg"), Field(inputs, "unCx"));
    var batchReceitaUn := BatchReceitaUn(turno1, turno2, Field(inputs, "batchReceitaKg"));
    var ctp1 := CTP1(kg, turno1);
    var ctp2 := CTP2(kg2, turno2);
    var kgtd := KGTD(kg, kg2);
    var cxstd := CXSTD(Field(inputs, "cxs"), Field(inputs, "cx2"));
    var diferencaPrKg := DiferencaPrKg(kgtd, turno1, turno2);
    var ctptd := CTPTD(kgtd, turno1, turno2);
    map[
      "planoDiarioCx" := Num(planoDiarioCx), "batchReceitaUn" := Num(batchReceitaUn),
      "ctp1" := Num(ctp1), "ctp2" := Num(ctp2), "kgtd" := Num(kgtd), "cxstd" := Num(cxstd),
      "diferencaPrKg" := Num(diferencaPrKg), "ctptd" := Num(ctptd),
      "cxRespectiva" := Num(planoDiarioCx)
    ]
  }

  /**
   * `processFullCalculations`: the nine inputs with their defaults, the
   * freshly derived fields, and then every other input field (`...rest`),
   * which is spread last and so overrides a derived field of the same name.
   */
  function ProcessFullCalculations(data: Record): (r: Record)
    ensures r.Keys == data.Keys + InputKeys + DerivedKeys
    ensures forall k | k in InputKeys :: r[k] == Default(data, k)
    ensures forall k | k in data && k !in InputKeys :: r[k] == data[k]
    ensures forall k | k in DerivedKeys && k !in data :: r[k] == Num(Derived(r, k))
    ensures data.Keys !! DerivedKeys ==> Consistent(r)
  {
    var inputs := Inputs(data);
    var rest := data - InputKeys;
    var r := inputs + Derivations(inputs) + rest;
    SpreadParts(inputs, Derivations(inputs), rest);
    DerivedFromInputsOnly(r, inputs);
    r
  }

  /** Where each field of `{ ...inputs, ...derived, ...rest }` comes from. */
  lemma SpreadParts(inputs: Record, derived: Record, rest: Record)
    requires inputs.Keys == InputKeys && derived.Keys == DerivedKeys && rest.Keys !! InputKeys
    ensures (inputs + derived + rest).Keys == InputKeys + DerivedKeys + rest.Keys
    ensures forall k | k in InputKeys :: (inputs + derived + rest)[k] == inputs[k]
    ensures forall k | k in rest :: (inputs + derived + rest)[k] == rest[k]
    ensures forall k | k in DerivedKeys && k !in rest :: (inputs + derived + rest)[k] == derived[k]
  {
    KeySetsDisjoint();
  }

  /**
   * A record that already carries every input and every derived field comes
   * back unchanged: the spread of `rest` restores each stored derived value.
   */
  lemma ProcessFixpoint(r: Record)
    requires InputKeys + DerivedKeys <= r.Keys
    ensures ProcessFullCalculations(r) == r
  {
    var p := ProcessFullCalculations(r);
    ProcessKeepsKeys(r);
    forall k | k in r
      ensures p[k] == r[k]
    {
      ProcessKeepsValue(r, k);
    }
  }

  lemma ProcessKeepsKeys(r: Record)
    requires InputKeys + DerivedKeys <= r.Keys
    ensures ProcessFullCalculations(r).Keys == r.Keys
  {
  }

  lemma ProcessKeepsValue(r: Record, k: string)
    requires InputKeys + DerivedKeys <= r.Keys
    requires k in r
    ensures ProcessFullCalculations(r)[k] == r[k]
  {
    if k in InputKeys {
    }
  }

  /** Deriving twice is deriving once. */
  lemma ProcessIdempotent(data: Record)
    ensures ProcessFullCalculations(ProcessFullCalculations(data)) == ProcessFullCalculations(data)
  {
    ProcessFixpoint(ProcessFullCalculations(data));
  }

  /** For an input without derived fields, each derived output is its metric on the defaulted inputs. */
  lemma FreshDerivation(data: Record)
    requires data.Keys !! DerivedKeys
    ensures var r := ProcessFullCalculations(data);
      var q := QuantitiesOf(r);
      && r["ctp1"] == Num(CTP1(q.kg, q.turno1))
      && r["ctp2"] == Num(CTP2(q.kg2, q.turno2))
      && r["kgtd"] == Num(KGTD(q.kg, q.kg2))
      && r["cxstd"] == Num(CXSTD(q.cxs, q.cx2))
      && r["diferencaPrKg"] == Num(DiferencaPrKg(KGTD(q.kg, q.kg2), q.turno1, q.turno2))
      && r["ctptd"] == Num(CTPTD(KGTD(q.kg, q.kg2), q.turno1, q.turno2))
      && r["planoDiarioCx"] == Num(PlanoDiarioCx(q.turno1, q.turno2, q.pesoLiqUnitKg, q.unCx))
      && r["batchReceitaUn"] == Num(BatchReceitaUn(q.turno1, q.turno2, q.batchReceitaKg))
      && r["cxRespectiva"] == r["planoDiarioCx"]
  {
    var r := ProcessFullCalculations(data);
    ConsistentMetrics(r);
  }

  /** Every derived field of a consistent record, in terms of its quantities. */
  lemma ConsistentMetrics(r: Record)
    requires Consistent(r)
    ensures var q := QuantitiesOf(r);
      && r["ctp1"] == Num(CTP1(q.kg, q.turno1))
      && r["ctp2"] == Num(CTP2(q.kg2, q.turno2))
      && r["kgtd"] == Num(KGTD(q.kg, q.kg2))
      && r["cxstd"] == Num(CXSTD(q.cxs, q.cx2))
      && r["diferencaPrKg"] == Num(DiferencaPrKg(KGTD(q.kg, q.kg2), q.turno1, q.turno2))
      && r["ctptd"] == Num(CTPTD(KGTD(q.kg, q.kg2), q.turno1, q.turno2))
      && r["planoDiarioCx"] == Num(PlanoDiarioCx(q.turno1, q.turno2, q.pesoLiqUnitKg, q.unCx))
      && r["batchReceitaUn"] == Num(BatchReceitaUn(q.turno1, q.turno2, q.batchReceitaKg))
      && r["cxRespectiva"] == r["planoDiarioCx"]
  {
    assert "ctp1" in DerivedKeys && "ctp2" in DerivedKeys && "kgtd" in DerivedKeys;
    assert "cxstd" in DerivedKeys && "diferencaPrKg" in DerivedKeys && "ctptd" in DerivedKeys;
    assert "planoDiarioCx" in DerivedKeys && "batchReceitaUn" in DerivedKeys && "cxRespectiva" in DerivedKeys;
  }

  /**
   * A consistent record planning and producing nothing in the second shift:
   * no second-shift efficiency, and the total is the first shift's kg.
   */
  lemma FirstShiftOnly(r: Record)
    requires Consistent(r)
    requires Field(r, "kg2") == 0.0 && Field(r, "turno2") == 0.0
    ensures r["ctp2"] == Num(0.0)
    ensures r["kgtd"] == Num(Rounding.Round2(Field(r, "kg")))
  {
    assert "ctp2" in DerivedKeys && "kgtd" in DerivedKeys;
    assert Derived(r, "ctp2") == CTP2(0.0, 0.0);
    assert Derived(r, "kgtd") == KGTD(Field(r, "kg"), 0.0);
  }

  /** The totals of a consistent record, in terms of its shift quantities. */
  lemma ConsistentTotals(r: Record)
    requires Consistent(r)
    ensures r["kgtd"] == Num(KGTD(Field(r, "kg"), Field(r, "kg2")))
    ensures r["ctptd"] == Num(CTPTD(KGTD(Field(r, "kg"), Field(r, "kg2")), Field(r, "turno1"), Field(r, "turno2")))
    ensures r["diferencaPrKg"] == Num(DiferencaPrKg(KGTD(Field(r, "kg"), Field(r, "kg2")), Field(r, "turno1"), Field(r, "turno2")))
  {
    assert "kgtd" in DerivedKeys && "ctptd" in DerivedKeys && "diferencaPrKg" in DerivedKeys;
  }

  /** A record whose stored second-shift efficiency disagrees with its quantities is not consistent. */
  lemma InconsistentCtp2(r: Record)
    requires "ctp2" in r && r["ctp2"] == Num(0.0)
    requires CTP2(Field(r, "kg2"), Field(r, "turno2")) != 0.0
    ensures !Consistent(r)
  {
    assert Derived(r, "ctp2") == CTP2(Field(r, "kg2"), Field(r, "turno2"));
  }

  /** Total kg and total boxes do not depend on the order of the shifts. */
  lemma TotalsCommute(a: real, b: real)
    ensures KGTD(a, b) == KGTD(b, a) == Round2(a + b)
    ensures CXSTD(a, b) == CXSTD(b, a) == Round2(a + b)
  {
    RoundsToUnique(a + b, KGTD(a, b), Round2(a + b));
    RoundsToUnique(a + b, CXSTD(a, b), Round2(a + b));
  }

  /** Worked examples: CTP1(50, 200) = 25 and the plan of 200 kg in boxes of 10 x 0.5 kg is 40 boxes. */
  lemma MetricExamples()
    ensures CTP1(50.0, 200.0) == 25.0
    ensures CTP1(50.0, 0.0) == 0.0 && CTP1(0.0, 200.0) == 0.0
    ensures PlanoDiarioCx(100.0, 100.0, 0.5, 10.0) == 40.0
    ensures PlanoDiarioCx(100.0, 100.0, 0.0, 10.0) == 0.0
    ensures BatchReceitaUn(100.0, 100.0, 0.0) == 0.0
    ensures CTPTD(185.0, 0.0, 0.0) == 0.0
    ensures DiferencaPrKg(185.0, 100.0, 100.0) == -15.0
  {
    Round2OfCents(25.0);
    Round2OfCents(40.0);
    Round2OfCents(0.0);
    Round2OfCents(-15.0);
  }

  /**
   * The delta is taken from the rounded total, not from the raw sum: with
   * 0.006 kg produced against a 0.004 kg target the total rounds to 0.01 and
   * the stored delta is 0.01, where the raw difference would round to 0.
   */
  lemma DeltaUsesRoundedTotal()
    ensures KGTD(0.006, 0.0) == 0.01
    ensures DiferencaPrKg(KGTD(0.006, 0.0), 0.004, 0.0) == 0.01
    ensures Round2(0.006 - 0.004) == 0.0
  {
    Round2OfCents(0.01);
  }
}

=== FILE: dashboard.dfy ===
/**
 * The dashboard (`Dashboard`): four headline metrics over every stored
 * record, two ten-product charts, the production share of each
 * classification, and the five-product status list.
 */
module Dashboard {
  import opened Values
  import Seqs
  import Badges
  import Processamento

  /** The headline metrics. */
  datatype Metrics = Metrics(totalProducao: real, eficienciaMedia: real, metaDiaria: real, produtosProduzidos: nat)

  /**
   * `metrics`: total production and plan summed over every record with
   * missing values as 0, and the efficiency as the ratio of the two sums.
   */
  function DashboardMetrics(items: seq<Record>): (m: Metrics)
    ensures |items| == 0 ==> m == Metrics(0.0, 0.0, 0.0, 0)
    ensures m.produtosProduzidos == |items|
    ensures m.totalProducao == Seqs.Sum(items, Processamento.Kgtd)
    ensures m.metaDiaria == Seqs.Sum(items, Processamento.Planned)
    ensures m.metaDiaria > 0.0 ==> m.eficienciaMedia * m.metaDiaria == m.totalProducao * 100.0
    ensures m.metaDiaria <= 0.0 ==> m.eficienciaMedia == 0.0
  {
    if |items| == 0 then Metrics(0.0, 0.0, 0.0, 0)
    else
      var total := Seqs.Sum(items, Processamento.Kgtd);
      var planned := Seqs.Sum(items, Processamento.Planned);
      Metrics(total, if planned > 0.0 then total / planned * 100.0 else 0.0, planned, |items|)
  }

  /** The dashboard total is the consolidated total plus what unplanned records hold. */
  lemma TotalIncludesUnplanned(items: seq<Record>)
    ensures DashboardMetrics(items).totalProducao ==
            Processamento.TotalsOf(Processamento.Consolidated(items)).kgtd +
            Seqs.Sum(Seqs.Filter(items, Processamento.IsUnplanned), Processamento.Kgtd)
  {
    Seqs.SumFilterSplit(items, Processamento.IsPlanned, Processamento.IsUnplanned, Processamento.Kgtd);
  }

  /** Two records whose mean efficiency is 50 but whose summed efficiency is 25. */
  const RatioExample: seq<Record> := [
    map["kgtd" := Num(100.0), "turno1" := Num(100.0), "ctptd" := Num(100.0)],
    map["kgtd" := Num(0.0), "turno1" := Num(300.0), "ctptd" := Num(0.0)]
  ]

  /** The dashboard efficiency weighs products by plan: it is not the mean `ctptd`. */
  lemma EfficiencyIsNotMean()
    ensures DashboardMetrics(RatioExample).eficienciaMedia == 25.0
    ensures Seqs.Sum(RatioExample, Processamento.Ctptd) / |RatioExample| as real == 50.0
  {
    var a := RatioExample[0];
    var b := RatioExample[1];
    assert RatioExample[..1] == [a] && RatioExample[..1][..0] == [];
    assert Seqs.Sum(RatioExample, Processamento.Kgtd) == 100.0;
    assert Seqs.Sum(RatioExample, Processamento.Planned) == 400.0;
    assert Seqs.Sum(RatioExample, Processamento.Ctptd) == 100.0;
  }

  /** `codigo` as text. */
  function Code(item: Record): string {
    if "codigo" in item && item["codigo"].Str? then item["codigo"].s else ""
  }

  /** One bar of the efficiency chart. */
  datatype EfficiencyBar = EfficiencyBar(produto: string, eficiencia: real, meta: real)

  /** `eficienciaData`: the first ten records, labelled by the first eight characters of their code. */
  function EfficiencyBars(items: seq<Record>): (bars: seq<EfficiencyBar>)
    ensures |bars| == if |items| < 10 then |items| else 10
    ensures forall i | 0 <= i < |bars| ::
              bars[i].produto <= Code(items[i]) &&
              |bars[i].produto| == if |Code(items[i])| < 8 then |Code(items[i])| else 8
    ensures forall i | 0 <= i < |bars| :: bars[i].eficiencia == Field(items[i], "ctptd") && bars[i].meta == 100.0
  {
    var first := Seqs.Take(items, 10);
    Seqs.Map(first, (item: Record) => EfficiencyBar(Seqs.Take(Code(item), 8), Field(item, "ctptd"), 100.0))
  }

  /** One point of the production-by-shift chart. */
  datatype ShiftPoint = ShiftPoint(produto: string, turno1: real, turno2: real, total: real)

  /** `producaoTurnoData`: the first ten records' produced weight in each shift. */
  function ShiftPoints(items: seq<Record>): (points: seq<ShiftPoint>)
    ensures |points| == if |items| < 10 then |items| else 10
    ensures forall i | 0 <= i < |points| ::
              points[i].produto <= Code(items[i]) &&
              |points[i].produto| == (if |Code(items[i])| < 8 then |Code(items[i])| else 8) &&
              points[i].turno1 == Field(items[i], "kg") && points[i].turno2 == Field(items[i], "kg2")
    ensures forall i | 0 <= i < |points| :: points[i].total == points[i].turno1 + points[i].turno2
  {
    var first := Seqs.Take(items, 10);
    Seqs.Map(first, (item: Record) =>
      ShiftPoint(Seqs.Take(Code(item), 8), Field(item, "kg"), Field(item, "kg2"), Field(item, "kg") + Field(item, "kg2")))
  }

  /** `item.classificacao || 'N/A'`, as the property key it becomes. */
  function ClassOf(item: Record): (c: string)
    ensures !TruthyAt(item, "classificacao") ==> c == "N/A"
    ensures TruthyAt(item, "classificacao") && item["classificacao"].Str? ==> c == item["classificacao"].s
  {
    if TruthyAt(item, "classificacao") then Show(item["classificacao"]) else "N/A"
  }

  /** One entry of the classification distribution, in insertion order. */
  datatype Slice = Slice(name: string, value: real)

  /**
   * `acc[c] = (acc[c] || 0) + x` on the entries of `acc`: entry `c` grows by
   * `x`, and at most one entry is added.
   */
  function Accumulate(groups: seq<Slice>, c: string, x: real): (r: seq<Slice>)
    ensures ValueOf(r, c) == ValueOf(groups, c) + x
    ensures |groups| <= |r| <= |groups| + 1
    decreases |groups|
  {
    if |groups| == 0 then [Slice(c, x)]
    else if groups[0].name == c then
      var r := [Slice(c, groups[0].value + x)] + groups[1..];
      assert r[0].name == c;
      r
    else
      var rest := Accumulate(groups[1..], c, x);
      assert ([groups[0]] + rest)[1..] == rest;
      [groups[0]] + rest
  }

  /** The value of entry `c`, 0 when there is none. */
  function ValueOf(groups: seq<Slice>, c: string): real
    decreases |groups|
  {
    if |groups| == 0 then 0.0
    else if groups[0].name == c then groups[0].value
    else ValueOf(groups[1..], c)
  }

  /** The sum of every entry's value. */
  function SliceSum(groups: seq<Slice>): real
    decreases |groups|
  {
    if |groups| == 0 then 0.0 else groups[0].value + SliceSum(groups[1..])
  }

  /** The entry names. */
  function NameSet(groups: seq<Slice>): set<string> {
    set g | g in groups :: g.name
  }

  /** No name labels two entries. */
  predicate DistinctNames(groups: seq<Slice>) {
    forall i, j | 0 <= i < j < |groups| :: groups[i].name != groups[j].name
  }

  /** Adding to an entry adds to the sum of all entries. */
  lemma {:induction false} AccumulateSum(groups: seq<Slice>, c: string, x: real)
    ensures SliceSum(Accumulate(groups, c, x)) == SliceSum(groups) + x
    decreases |groups|
  {
    if |groups| > 0 && groups[0].name != c {
      AccumulateSum(groups[1..], c, x);
    } else if |groups| > 0 {
      assert ([Slice(c, groups[0].value + x)] + groups[1..])[1..] == groups[1..];
    }
  }

  /** Adding to entry `c` changes that entry's value by `x` and no other. */
  lemma {:induction false} AccumulateValue(groups: seq<Slice>, c: string, x: real, d: string)
    ensures ValueOf(Accumulate(groups, c, x), d) == ValueOf(groups, d) + (if d == c then x else 0.0)
    decreases |groups|
  {
    if |groups| > 0 && groups[0].name != c {
      AccumulateValue(groups[1..], c, x, d);
      assert (([groups[0]] + Accumulate(groups[1..], c, x))[1..]) == Accumulate(groups[1..], c, x);
    } else if |groups| > 0 {
      assert ([Slice(c, groups[0].value + x)] + groups[1..])[1..] == groups[1..];
    }
  }

  /** Adding to a present name keeps the names in place; adding a new name appends an entry. */
  lemma {:induction false} AccumulateShape(groups: seq<Slice>, c: string, x: real)
    ensures c in NameSet(groups) ==>
              |Accumulate(groups, c, x)| == |groups| &&
              forall i | 0 <= i < |groups| :: Accumulate(groups, c, x)[i].name == groups[i].name
    ensures c !in NameSet(groups) ==> Accumulate(groups, c, x) == groups + [Slice(c, x)]
    decreases |groups|
  {
    if |groups| > 0 {
      assert groups == [groups[0]] + groups[1..];
      assert NameSet(groups) == {groups[0].name} + NameSet(groups[1..]);
      if groups[0].name != c {
        AccumulateShape(groups[1..], c, x);
      }
    }
  }

  /** The names after adding to `c` are the names before and `c`, still each on one entry. */
  lemma AccumulateNames(groups: seq<Slice>, c: string, x: real)
    requires DistinctNames(groups)
    ensures DistinctNames(Accumulate(groups, c, x))
    ensures NameSet(Accumulate(groups, c, x)) == NameSet(groups) + {c}
  {
    var r := Accumulate(groups, c, x);
    AccumulateShape(groups, c, x);
    if c in NameSet(groups) {
      forall n | n in NameSet(r) ensures n in NameSet(groups) {
        var g :| g in r && g.name == n;
        var i :| 0 <= i < |r| && r[i] == g;
        assert groups[i].name == n;
      }
      forall n | n in NameSet(groups) ensures n in NameSet(r) {
        var g :| g in groups && g.name == n;
        var i :| 0 <= i < |groups| && groups[i] == g;
        assert r[i] in r;
      }
    } else {
      assert NameSet(r) == NameSet(groups) + {c};
      forall i, j | 0 <= i < j < |r| ensures r[i].name != r[j].name {
        if j == |groups| {
          assert groups[i] in groups;
        }
      }
    }
  }

  /**
   * `distribuicao`: the per-classification sums of `kgtd`, in
   * first-appearance order; never more entries than records, and at least
   * one when there is a record.
   */
  function Distribution(items: seq<Record>): (r: seq<Slice>)
    ensures |r| <= |items|
    ensures |items| > 0 ==> |r| > 0
    decreases |items|
  {
    if |items| == 0 then []
    else
      var last := items[|items| - 1];
      Accumulate(Distribution(items[..|items| - 1]), ClassOf(last), Processamento.Kgtd(last))
  }

  /** The reference: the summed `kgtd` of the records classified `c`. */
  function ClassTotal(items: seq<Record>, c: string): real
    decreases |items|
  {
    if |items| == 0 then 0.0
    else
      var last := items[|items| - 1];
      ClassTotal(items[..|items| - 1], c) + (if ClassOf(last) == c then Processamento.Kgtd(last) else 0.0)
  }

  /** Each classification's entry is the summed production of that classification. */
  lemma {:induction false} DistributionValue(items: seq<Record>, c: string)
    ensures ValueOf(Distribution(items), c) == ClassTotal(items, c)
    decreases |items|
  {
    if |items| > 0 {
      var last := items[|items| - 1];
      DistributionValue(items[..|items| - 1], c);
      AccumulateValue(Distribution(items[..|items| - 1]), ClassOf(last), Processamento.Kgtd(last), c);
    }
  }

  /** The entries add up to the dashboard's total production. */
  lemma {:induction false} DistributionSum(items: seq<Record>)
    ensures SliceSum(Distribution(items)) == DashboardMetrics(items).totalProducao
    decreases |items|
  {
    if |items| > 0 {
      var last := items[|items| - 1];
      DistributionSum(items[..|items| - 1]);
      AccumulateSum(Distribution(items[..|items| - 1]), ClassOf(last), Processamento.Kgtd(last));
    }
  }

  /** The classifications the records carry. */
  function Classes(items: seq<Record>): set<string> {
    set item | item in items :: ClassOf(item)
  }

  /** One entry per classification: the names are distinct and are exactly the records' classifications. */
  lemma {:induction false} DistributionNames(items: seq<Record>)
    ensures DistinctNames(Distribution(items))
    ensures NameSet(Distribution(items)) == Classes(items)
    decreases |items|
  {
    if |items| > 0 {
      var init := items[..|items| - 1];
      var last := items[|items| - 1];
      DistributionNames(init);
      AccumulateNames(Distribution(init), ClassOf(last), Processamento.Kgtd(last));
      ClassesSnoc(items);
    }
  }

  lemma ClassesSnoc(items: seq<Record>)
    requires |items| > 0
    ensures Classes(items) == Classes(items[..|items| - 1]) + {ClassOf(items[|items| - 1])}
  {
    assert items == items[..|items| - 1] + [items[|items| - 1]];
  }

  /** `percentage`: an entry's share of the total production, 0 when there is none. */
  function Share(value: real, total: real): (p: real)
    ensures total > 0.0 ==> p * total == value * 100.0
    ensures total <= 0.0 ==> p == 0.0
  {
    if total > 0.0 then value / total * 100.0 else 0.0
  }

  /** The shares of all entries. */
  function ShareSum(groups: seq<Slice>, total: real): real
    decreases |groups|
  {
    if |groups| == 0 then 0.0 else Share(groups[0].value, total) + ShareSum(groups[1..], total)
  }

  lemma {:induction false} ShareSumScales(groups: seq<Slice>, total: real)
    requires total > 0.0
    ensures ShareSum(groups, total) * total == SliceSum(groups) * 100.0
    decreases |groups|
  {
    if |groups| > 0 {
      ShareSumScales(groups[1..], total);
      assert ShareSum(groups, total) * total
          == Share(groups[0].value, total) * total + ShareSum(groups[1..], total) * total;
    }
  }

  /** With some production, the classification shares add up to 100 percent. */
  lemma SharesSumTo100(items: seq<Record>)
    requires DashboardMetrics(items).totalProducao > 0.0
    ensures ShareSum(Distribution(items), DashboardMetrics(items).totalProducao) == 100.0
  {
    DistributionSum(items);
    WholeShares(Distribution(items), DashboardMetrics(items).totalProducao);
  }

  /** Entries measured against their own positive sum have shares adding up to 100. */
  lemma WholeShares(groups: seq<Slice>, total: real)
    requires total > 0.0 && SliceSum(groups) == total
    ensures ShareSum(groups, total) == 100.0
  {
    ShareSumScales(groups, total);
    var shares := ShareSum(groups, total);
    assert shares * total == 100.0 * total;
    Cancel(shares, 100.0, total);
  }

  lemma Cancel(a: real, b: real, t: real)
    requires t > 0.0 && a * t == b * t
    ensures a == b
  {
  }

  /** The efficiency badge text beside the dashboard efficiency. */
  function DashboardLabel(x: real): (text: string)
    ensures text == "Excelente" <==> Badges.DashboardVariant(x) == Badges.Default
    ensures text == "Bom" <==> Badges.DashboardVariant(x) == Badges.Secondary
    ensures text == "Abaixo" <==> Badges.DashboardVariant(x) == Badges.Destructive
  {
    if x >= 95.0 then "Excelente" else if x >= 85.0 then "Bom" else "Abaixo"
  }

  /** One line of the status list. */
  datatype Status = Status(codigo: string, variant: Badges.Variant, reached: bool)

  /** The status list: the first five records, with a check mark when `ctptd || 0` reaches 95. */
  function StatusList(items: seq<Record>): (rows: seq<Status>)
    ensures |rows| == if |items| < 5 then |items| else 5
    ensures forall i | 0 <= i < |rows| :: rows[i].codigo == Code(items[i])
    ensures forall i | 0 <= i < |rows| :: rows[i].variant == Badges.DashboardVariant(Field(items[i], "ctptd"))
    ensures forall i | 0 <= i < |rows| :: rows[i].reached <==> rows[i].variant == Badges.Default
  {
    Seqs.Map(Seqs.Take(items, 5), (item: Record) =>
      Status(Code(item), Badges.DashboardVariant(Field(item, "ctptd")), Field(item, "ctptd") >= 95.0))
  }
}

=== FILE: excel_importer.dfy ===
/**
 * The spreadsheet importer (`ExcelImporter`): a worksheet, already decoded
 * into rows of cells, becomes one record per data row keyed by the header
 * cells, tagged with its 1-based sheet row number; the component shows the
 * first five records and hands all of them to the page.
 */
module ExcelImporter {
  import opened Wrappers
  import opened Values
  import Text
  import Seqs

  /** A decoded worksheet row; `None` is an empty cell (`undefined`). */
  type Cells = seq<Option<Value>>

  /** The message thrown for a sheet without a header and a data row. */
  const TooShort: string := "Arquivo deve conter pelo menos um cabeçalho e uma linha de dados"

  /** The key under which each record remembers its sheet row. */
  const RowIndexKey: string := "_rowIndex"

  /** `row[colIndex] !== undefined ? row[colIndex] : ''`. */
  function CellAt(row: Cells, j: nat): (v: Value)
    ensures j < |row| && row[j].Some? ==> v == row[j].value
    ensures j >= |row| || row[j].None? ==> v == Str("")
  {
    if j < |row| && row[j].Some? then row[j].value else Str("")
  }

  /** The property key of header column `j`, when that header cell is not empty. */
  function HeaderKey(headers: Cells, j: nat): Option<string>
    requires j < |headers|
  {
    match headers[j]
    case Some(h) => Some(Show(h))
    case None => None
  }

  /** The keys the header row names. */
  function HeaderKeys(headers: Cells): set<string> {
    set j | 0 <= j < |headers| && headers[j].Some? :: Show(headers[j].value)
  }

  /** No later header column names the same key as column `j`. */
  predicate LastWithKey(headers: Cells, j: nat)
    requires j < |headers| && headers[j].Some?
  {
    forall j' | j < j' < |headers| :: HeaderKey(headers, j') != Some(Show(headers[j].value))
  }

  /**
   * `headers.forEach(...)`: every non-empty header cell keys the cell below
   * it, column by column.
   */
  function RowData(headers: Cells, row: Cells): (r: Record)
    ensures r.Keys == HeaderKeys(headers)
    decreases |headers|
  {
    if |headers| == 0 then map[]
    else
      var n := |headers| - 1;
      var init := RowData(headers[..n], row);
      HeaderKeysSnoc(headers);
      match headers[n]
      case None => init
      case Some(h) => init[Show(h) := CellAt(row, n)]
  }

  /** Dropping the last header column keeps the earlier columns' keys. */
  lemma HeaderKeysSnoc(headers: Cells)
    requires |headers| > 0
    ensures var n := |headers| - 1;
            HeaderKeys(headers) == HeaderKeys(headers[..n]) + (if headers[n].Some? then {Show(headers[n].value)} else {})
  {
    var n := |headers| - 1;
    assert forall j | 0 <= j < n :: headers[..n][j] == headers[j];
  }

  /** Of two columns with the same header the later one wins. */
  lemma {:induction false} RowDataLastWins(headers: Cells, row: Cells, j: nat)
    requires j < |headers| && headers[j].Some? && LastWithKey(headers, j)
    ensures Show(headers[j].value) in RowData(headers, row)
    ensures RowData(headers, row)[Show(headers[j].value)] == CellAt(row, j)
    decreases |headers|
  {
    var n := |headers| - 1;
    if j < n {
      forall j' | j < j' < n ensures HeaderKey(headers[..n], j') == HeaderKey(headers, j') {
      }
      assert HeaderKey(headers, n) != Some(Show(headers[j].value));
      RowDataLastWins(headers[..n], row, j);
    }
  }

  /** One mapped record: the header-keyed cells plus `_rowIndex`, the 1-based sheet row. */
  function MappedRow(headers: Cells, row: Cells, index: nat): (r: Record)
    ensures r.Keys == HeaderKeys(headers) + {RowIndexKey}
    ensures r[RowIndexKey] == Num((index + 2) as real)
    ensures forall j | 0 <= j < |headers| && headers[j].Some? && LastWithKey(headers, j) && Show(headers[j].value) != RowIndexKey ::
              r[Show(headers[j].value)] == CellAt(row, j)
  {
    forall j | 0 <= j < |headers| && headers[j].Some? && LastWithKey(headers, j) {
      RowDataLastWins(headers, row, j);
    }
    RowData(headers, row)[RowIndexKey := Num((index + 2) as real)]
  }

  /** The blank-row filter: some value is neither `''`, `null` nor `undefined`. */
  predicate NonBlank(r: Record) {
    exists k | k in r :: r[k] != Str("") && r[k] != Null
  }

  /** The result the component keeps: the preview and the rows handed to the page. */
  datatype Imported = Imported(preview: seq<Record>, rows: seq<Record>)

  /** `processExcelFile` after decoding: map the data rows, drop blank ones, keep a preview of five. */
  function ProcessSheet(sheet: seq<Cells>): (r: Result<Imported, string>)
    ensures |sheet| < 2 <==> r.Failure?
    ensures r.Failure? ==> r.error == TooShort
    ensures r.Success? ==> r.value.preview == Seqs.Take(r.value.rows, 5)
  {
    if |sheet| < 2 then Failure(TooShort)
    else
      var headers := sheet[0];
      var data := sheet[1..];
      var mapped := seq(|data|, i requires 0 <= i < |data| => MappedRow(headers, data[i], i));
      var rows := Seqs.Filter(mapped, NonBlank);
      Success(Imported(Seqs.Take(rows, 5), rows))
  }

  /** Every mapped record carries its numeric `_rowIndex`, so the blank-row filter drops nothing. */
  lemma MappedRowNonBlank(headers: Cells, row: Cells, index: nat)
    ensures NonBlank(MappedRow(headers, row, index))
  {
    var r := MappedRow(headers, row, index);
    assert RowIndexKey in r && r[RowIndexKey] != Str("") && r[RowIndexKey] != Null;
  }

  /**
   * A sheet with a header and data rows yields one record per data row,
   * in sheet order, blank rows included.
   */
  lemma ProcessSheetRows(sheet: seq<Cells>)
    requires |sheet| >= 2
    ensures ProcessSheet(sheet).Success?
    ensures |ProcessSheet(sheet).value.rows| == |sheet| - 1
    ensures forall i | 0 <= i < |sheet| - 1 :: ProcessSheet(sheet).value.rows[i] == MappedRow(sheet[0], sheet[i + 1], i)
  {
    var headers := sheet[0];
    var data := sheet[1..];
    var mapped := seq(|data|, i requires 0 <= i < |data| => MappedRow(headers, data[i], i));
    forall i | 0 <= i < |mapped| ensures NonBlank(mapped[i]) {
      MappedRowNonBlank(headers, data[i], i);
    }
    Seqs.FilterKeepsAll(mapped, NonBlank);
  }

  /** Every cell of the row is empty. */
  predicate AllEmpty(row: Cells) {
    forall j | 0 <= j < |row| :: row[j].None?
  }

  /** A data row with every cell empty still becomes a record, of empty strings and its row number. */
  lemma BlankRowKept(headers: Cells, row: Cells, index: nat)
    requires AllEmpty(row)
    ensures forall k | k in MappedRow(headers, row, index) && k != RowIndexKey :: MappedRow(headers, row, index)[k] == Str("")
  {
    var r := MappedRow(headers, row, index);
    forall k | k in r && k != RowIndexKey ensures r[k] == Str("") {
      var j :| 0 <= j < |headers| && headers[j].Some? && Show(headers[j].value) == k;
      LastColumnWithKey(headers, j);
    }
  }

  /** Every header key has a last column naming it. */
  lemma {:induction false} LastColumnWithKey(headers: Cells, j: nat)
    requires j < |headers| && headers[j].Some?
    ensures exists last: nat | last < |headers| && headers[last].Some? ::
              Show(headers[last].value) == Show(headers[j].value) && LastWithKey(headers, last)
    decreases |headers| - j
  {
    if !LastWithKey(headers, j) {
      var j' :| j < j' < |headers| && HeaderKey(headers, j') == Some(Show(headers[j].value));
      LastColumnWithKey(headers, j');
    }
  }

  /** The preview's columns: the first record's keys other than `_rowIndex`. */
  function PreviewColumns(preview: seq<Record>): (cols: set<string>)
    ensures RowIndexKey !in cols
    ensures |preview| > 0 ==> forall k | k in preview[0] && k != RowIndexKey :: k in cols
    ensures |preview| > 0 ==> forall k | k in cols :: k in preview[0]
    ensures |preview| == 0 ==> cols == {}
  {
    if |preview| == 0 then {} else preview[0].Keys - {RowIndexKey}
  }

  /** The preview shows exactly the header keys, `_rowIndex` hidden. */
  lemma PreviewShowsHeaders(sheet: seq<Cells>)
    requires |sheet| >= 2
    ensures PreviewColumns(ProcessSheet(sheet).value.preview) == HeaderKeys(sheet[0]) - {RowIndexKey}
  {
    ProcessSheetRows(sheet);
  }

  /** The success notice, which counts the preview rows (`previewData.length`). */
  function SuccessNotice(imported: Imported): string {
    "Arquivo importado com sucesso! " + Text.NatText(|imported.preview|) + " linhas processadas."
  }

  const ErrorPrefix: string := "Erro na importação: "

  /** The error notice: a fixed prefix, then the thrown message in full. */
  function ErrorNotice(message: string): (n: string)
    ensures Text.StartsWith(n, ErrorPrefix)
    ensures n[|ErrorPrefix|..] == message
  {
    ErrorPrefix + message
  }

  /** The notice after an attempt (`importStatus`): the error notice exactly when the attempt failed. */
  function ImportNotice(r: Result<Imported, string>): (n: string)
    ensures Text.StartsWith(n, ErrorPrefix) <==> r.Failure?
    ensures r.Failure? ==> n[|ErrorPrefix|..] == r.error
  {
    match r
    case Success(imported) =>
      var n := SuccessNotice(imported);
      assert n[0] == 'A' && ErrorPrefix[0] == 'E';
      n
    case Failure(message) => ErrorNotice(message)
  }

  /** With five or more data rows the success notice reports five rows, whatever the sheet holds. */
  lemma NoticeCountsPreview(sheet: seq<Cells>)
    requires |sheet| >= 6
    ensures ProcessSheet(sheet).Success?
    ensures SuccessNotice(ProcessSheet(sheet).value) == "Arquivo importado com sucesso! 5 linhas processadas."
  {
    ProcessSheetRows(sheet);
    FivePreviewed(ProcessSheet(sheet).value);
  }

  /** A full preview is reported as five rows. */
  lemma FivePreviewed(imported: Imported)
    requires |imported.preview| == 5
    ensures SuccessNotice(imported) == "Arquivo importado com sucesso! 5 linhas processadas."
  {
    assert Text.NatText(5) == "5";
  }

  /** A file as the browser reports it. */
  datatype File = File(name: string, mime: string)

  /** The two spreadsheet MIME types `handleDrop` accepts. */
  const SpreadsheetTypes: set<string> := {"application/vnd.openxmlformats-officedocument.spreadsheetml.sheet", "application/vnd.ms-excel"}

  /**
   * The spreadsheet test of `handleDrop`: a spreadsheet MIME type or an Excel
   * extension, each sufficient alone.
   */
  function IsSpreadsheet(f: File): (b: bool)
    ensures Text.EndsWith(f.name, ".xlsx") || Text.EndsWith(f.name, ".xls") ==> b
    ensures f.mime in SpreadsheetTypes ==> b
    ensures b ==> f.mime in SpreadsheetTypes || Text.EndsWith(f.name, ".xlsx") || Text.EndsWith(f.name, ".xls")
  {
    || f.mime == "application/vnd.openxmlformats-officedocument.spreadsheetml.sheet"
    || f.mime == "application/vnd.ms-excel"
    || Text.EndsWith(f.name, ".xlsx")
    || Text.EndsWith(f.name, ".xls")
  }

  /** `files.find(...)` in `handleDrop`: the first dropped spreadsheet, if any. */
  function DroppedFile(files: seq<File>): (o: Option<File>)
    ensures o.None? <==> forall i | 0 <= i < |files| :: !IsSpreadsheet(files[i])
    ensures o.Some? ==> exists i | 0 <= i < |files| ::
              files[i] == o.value && IsSpreadsheet(files[i]) && forall j | 0 <= j < i :: !IsSpreadsheet(files[j])
    decreases |files|
  {
    if |files| == 0 then None
    else if IsSpreadsheet(files[0]) then
      assert files[0] == files[0];
      Some(files[0])
    else
      var rest := DroppedFile(files[1..]);
      assert forall i | 1 <= i < |files| :: files[1..][i - 1] == files[i];
      if rest.Some? then
        var i :| 0 <= i < |files[1..]| && files[1..][i] == rest.value &&
                 IsSpreadsheet(files[1..][i]) && forall j | 0 <= j < i :: !IsSpreadsheet(files[1..][j]);
        assert files[i + 1] == rest.value;
        rest
      else rest
  }

  /** `handleFileInput`: the first chosen file, with no type test. */
  function ChosenFile(files: seq<File>): (o: Option<File>)
    ensures o.None? <==> |files| == 0
    ensures o.Some? ==> o.value == files[0]
  {
    if |files| == 0 then None else Some(files[0])
  }

  /** Dropping a single file and choosing it agree exactly when it is a spreadsheet. */
  lemma DropAgreesWithChoice(f: File)
    ensures DroppedFile([f]) == ChosenFile([f]) <==> IsSpreadsheet(f)
  {
  }

  /** A file named like `plan.xls` is accepted whatever type the browser reports. */
  lemma ExtensionSuffices(name: string, mime: string)
    requires Text.EndsWith(name, ".xls") || Text.EndsWith(name, ".xlsx")
    ensures DroppedFile([File(name, mime)]) == Some(File(name, mime))
  {
  }
}

=== FILE: primeiro_turno.dfy ===
/**
 * The first-shift import (`PrimeiroTurno`): each spreadsheet row becomes a
 * production record with the second-shift quantities zeroed; a record already
 * listed under the same code is updated, keeping its second-shift quantities.
 * Every row is matched against the listing as it stood when the batch began.
 */
module PrimeiroTurno {
  import opened Wrappers
  import opened Values
  import opened Calculations
  import opened Store
  import opened ShiftRows
  import Rounding
  import Seqs

  /** The quantity `k` of a first-shift row; the second-shift quantities start at zero. */
  function Shift1Cell(row: Record, k: string): (v: Value)
    requires k in InputKeys
    ensures v.Num?
  {
    match k
    case "turno1" => NumberCell(row, ["1 TURNO", "TURNO1"])
    case "kg" => NumberCell(row, ["KG"])
    case "cxs" => NumberCell(row, ["CXS"])
    case "turno2" => Num(0.0)
    case "kg2" => Num(0.0)
    case "cx2" => Num(0.0)
    case _ => PackagingCell(row, k)
  }

  /**
   * The parsed first-shift row (`pcpItem`): the descriptive fields and the
   * nine quantities, every quantity a number and the second shift at zero.
   */
  function Shift1Item(row: Record): (item: Record)
    ensures item.Keys == Types.TextKeys + InputKeys
    ensures forall k | k in InputKeys :: item[k].Num?
    ensures forall k | k in SecondShiftKeys :: item[k] == Num(0.0)
  {
    var q := map k | k in InputKeys :: Shift1Cell(row, k);
    assert forall k | k in InputKeys :: ParsedItem(row, q)[k] == q[k];
    ParsedItem(row, q)
  }

  const SecondShiftKeys: set<string> := {"turno2", "kg2", "cx2"}

  /**
   * `{ ...processedData, turno2: existingItem.turno2, kg2: ..., cx2: ... }`:
   * the existing record's second-shift quantities replace the fresh ones; one
   * the existing record lacks becomes `undefined`.
   */
  function KeepSecondShift(processed: Record, existing: Record): (u: Record)
    ensures forall k | k in SecondShiftKeys :: Default(u, k) == Default(existing, k)
    ensures forall k | k in processed && k !in SecondShiftKeys :: k in u && u[k] == processed[k]
    ensures forall k | k in u :: k in processed || k in SecondShiftKeys
  {
    map k | k in (processed.Keys - SecondShiftKeys) + (existing.Keys * SecondShiftKeys) ::
      if k in SecondShiftKeys then existing[k] else processed[k]
  }

  /**
   * What one first-shift row writes, before the store has its say: a code
   * nobody lists is added as the row's own derived record; otherwise the
   * first record listed under the code is updated with the row's record
   * keeping that record's second shift, derived again, and the row fails when
   * that record has no id.
   */
  function Shift1Write(listing: seq<Record>, row: Record): (w: Result<Action, RowError>)
    ensures (forall j | 0 <= j < |listing| :: !HasCode(listing[j], RowCode(row))) <==> w.Success? && w.value.Add?
    ensures w.Success? && w.value.Add? ==> w == Success(Add(Shift1Fresh(row)))
    ensures w.Success? && w.value.Update? ==>
              exists i | 0 <= i < |listing| ::
                && FirstWithCode(listing, RowCode(row), i) && IdOf(listing[i]) == Some(w.value.id)
                && w.value.rec == Shift1Merged(row, listing[i])
    ensures w.Failure? ==>
              w.error == MissingId && exists i | 0 <= i < |listing| :: FirstWithCode(listing, RowCode(row), i) && IdOf(listing[i]).None?
  {
    match FindByCode(listing, RowCode(row))
    case None => WriteFor(listing, RowCode(row), Shift1Fresh(row), Shift1Merge(row))
    case Some(i) =>
      assert FirstWithCode(listing, RowCode(row), i);
      WriteFor(listing, RowCode(row), Shift1Fresh(row), Shift1Merge(row))
  }

  /** The update of a listed record: the row's record keeping the listed second shift, derived again. */
  function Shift1Merged(row: Record, existing: Record): Record {
    ProcessFullCalculations(KeepSecondShift(Shift1Fresh(row), existing))
  }

  function Shift1Merge(row: Record): Record -> Record {
    (existing: Record) => Shift1Merged(row, existing)
  }

  /** `handleDataImported`: every row against the same listing; a failed row is logged and skipped. */
  function ImportShift1(listing: seq<Record>, rows: seq<Record>, rejects: Action -> bool): (out: seq<Result<Action, RowError>>)
    ensures |out| == |rows|
  {
    Attempts(rows, WriteAgainst(listing), rejects)
  }

  /** `Shift1Write` against a fixed listing. */
  function WriteAgainst(listing: seq<Record>): Record -> Result<Action, RowError> {
    (row: Record) => Shift1Write(listing, row)
  }

  /** The records shown in the first-shift table (`turno1Data`). */
  function Shift1Rows(listing: seq<Record>): (shown: seq<Record>)
    ensures forall i | 0 <= i < |shown| :: Field(shown[i], "turno1") > 0.0
    ensures forall item | item in listing :: item in shown <==> Field(item, "turno1") > 0.0
    ensures Seqs.IsSubsequence(shown, listing)
    ensures |shown| + Seqs.Count(listing, Unplanned1) == |listing|
  {
    Seqs.FilterIsSubsequence(listing, Planned1);
    Seqs.CountSplit(listing, Planned1, Unplanned1);
    Seqs.Filter(listing, Planned1)
  }

  /** `item.turno1 > 0`. */
  predicate Planned1(item: Record) {
    Field(item, "turno1") > 0.0
  }

  /** A record the first-shift table leaves out. */
  predicate Unplanned1(item: Record) {
    !Planned1(item)
  }

  /** The first-shift summary cards: the table's records, their produced kg and their mean CTP1. */
  function Shift1Summary(listing: seq<Record>): (s: Summary)
    ensures s.produtos == |Shift1Rows(listing)| <= |listing|
    ensures s.totalKg == Seqs.Sum(Shift1Rows(listing), FieldOf("kg"))
    ensures |Shift1Rows(listing)| > 0 ==> s.eficienciaMedia == Seqs.Sum(Shift1Rows(listing), FieldOf("ctp1")) / |Shift1Rows(listing)| as real
  {
    SummaryOf(Shift1Rows(listing), "kg", "ctp1")
  }

  /** When every listed record has a first-shift plan, the cards cover the whole listing. */
  lemma Shift1SummaryOfAllPlanned(listing: seq<Record>)
    requires forall i | 0 <= i < |listing| :: Planned1(listing[i])
    ensures Shift1Summary(listing).produtos == |listing|
    ensures Shift1Summary(listing).totalKg == Seqs.Sum(listing, FieldOf("kg"))
  {
    Seqs.FilterKeepsAll(listing, Planned1);
  }

  /** Each row's outcome depends on that row and the initial listing only. */
  lemma ImportShift1Rows(listing: seq<Record>, rows: seq<Record>, rejects: Action -> bool)
    ensures |ImportShift1(listing, rows, rejects)| == |rows|
    ensures forall i | 0 <= i < |rows| ::
              ImportShift1(listing, rows, rejects)[i] == Attempt(Shift1Write(listing, rows[i]), rejects)
  {
    AttemptsRows(rows, WriteAgainst(listing), rejects);
  }

  /** The record a first-shift row produces before any merge. */
  function Shift1Fresh(row: Record): Record {
    ProcessFullCalculations(Shift1Item(row))
  }

  /** The row's own record: its texts and quantities, and fresh derived fields. */
  lemma Shift1Processed(row: Record)
    ensures Shift1Fresh(row).Keys == Types.TextKeys + InputKeys + DerivedKeys
    ensures Shift1Fresh(row)["codigo"] == Str(RowCode(row))
    ensures forall k | k in InputKeys :: Shift1Fresh(row)[k] == Shift1Cell(row, k)
    ensures Consistent(Shift1Fresh(row))
  {
    var q := map k | k in InputKeys :: Shift1Cell(row, k);
    ProcessParsed(row, q);
  }

  /** A new code is added as the row's own record. */
  lemma Shift1AddsNewCode(listing: seq<Record>, row: Record)
    requires FindByCode(listing, RowCode(row)).None?
    ensures Shift1Write(listing, row) == Success(Add(Shift1Fresh(row)))
  {
  }

  /** The row's own record carries the row's code and quantities, with the second shift at zero. */
  lemma Shift1FreshInputs(row: Record)
    ensures Shift1Fresh(row)["codigo"] == Str(RowCode(row))
    ensures Shift1Fresh(row)["turno1"] == Shift1Cell(row, "turno1")
    ensures Shift1Fresh(row)["kg"] == Shift1Cell(row, "kg")
    ensures Shift1Fresh(row)["turno2"] == Num(0.0)
    ensures Shift1Fresh(row)["kg2"] == Num(0.0)
    ensures Shift1Fresh(row)["cx2"] == Num(0.0)
    ensures Consistent(Shift1Fresh(row))
  {
    Shift1Processed(row);
    Shift1Quantities(Shift1Fresh(row), row);
  }

  /** A record holding a first-shift row's quantities has the row's first shift and a zero second shift. */
  lemma Shift1Quantities(r: Record, row: Record)
    requires forall k | k in InputKeys :: k in r && r[k] == Shift1Cell(row, k)
    ensures r["turno1"] == Shift1Cell(row, "turno1") && r["kg"] == Shift1Cell(row, "kg")
    ensures r["turno2"] == Num(0.0) && r["kg2"] == Num(0.0) && r["cx2"] == Num(0.0)
  {
    assert "turno2" in InputKeys && "kg2" in InputKeys && "cx2" in InputKeys;
    assert "turno1" in InputKeys && "kg" in InputKeys;
  }

  /**
   * The derived fields of the row's own record follow from the first shift
   * alone: no second-shift efficiency, and the total is the first shift's kg.
   */
  lemma Shift1FreshDerived(row: Record)
    ensures Shift1Fresh(row)["ctp2"] == Num(0.0)
    ensures Shift1Fresh(row)["kgtd"] == Num(Rounding.Round2(Field(Shift1Fresh(row), "kg")))
  {
    Shift1FreshInputs(row);
    FirstShiftOnly(Shift1Fresh(row));
  }

  /**
   * An update keeps the listed record's second-shift quantities and takes
   * everything else from the row, but its derived fields are those of the
   * first pass, computed with the second shift at zero: the `...rest` spread
   * of the second pass carries them over.
   */
  lemma Shift1KeepsSecondShift(listing: seq<Record>, row: Record, i: nat, id: string)
    requires FindByCode(listing, RowCode(row)) == Some(i)
    requires IdOf(listing[i]) == Some(id)
    ensures Shift1Write(listing, row).Success? && Shift1Write(listing, row).value.Update?
    ensures Shift1Write(listing, row).value.id == id
    ensures var r := Shift1Write(listing, row).value.rec;
      var p := ProcessFullCalculations(Shift1Item(row));
      && (forall k | k in SecondShiftKeys :: r[k] == Default(listing[i], k))
      && (forall k | k in InputKeys - SecondShiftKeys :: r[k] == Shift1Cell(row, k))
      && (forall k | k in DerivedKeys :: r[k] == p[k])
      && r["codigo"] == Str(RowCode(row))
  {
    Shift1Processed(row);
    var p := ProcessFullCalculations(Shift1Item(row));
    WriteForFound(listing, RowCode(row), Shift1Fresh(row), Shift1Merge(row), i);
    var u := KeepSecondShift(p, listing[i]);
    var r := ProcessFullCalculations(u);
    KeySetsDisjoint();
    Types.TextKeysDisjoint();
    forall k | k in DerivedKeys
      ensures r[k] == p[k]
    {
      assert k !in SecondShiftKeys && k !in InputKeys;
    }
    forall k | k in InputKeys - SecondShiftKeys
      ensures r[k] == Shift1Cell(row, k)
    {
      assert Default(u, k) == p[k];
    }
    assert "codigo" !in SecondShiftKeys && "codigo" !in InputKeys;
  }

  /** A listed record without a document id makes its row fail. */
  lemma Shift1NeedsListedId(listing: seq<Record>, row: Record, i: nat)
    requires FindByCode(listing, RowCode(row)) == Some(i)
    requires IdOf(listing[i]).None?
    ensures Shift1Write(listing, row) == Failure(MissingId)
  {
    WriteForFound(listing, RowCode(row), Shift1Fresh(row), Shift1Merge(row), i);
  }

  /** A row without a product code is not skipped: it is written under the empty code. */
  lemma RowWithoutCodeIsWritten(listing: seq<Record>, row: Record)
    requires !TruthyAt(row, "CÓDIGO") && !TruthyAt(row, "CODIGO")
    requires forall i | 0 <= i < |listing| :: !HasCode(listing[i], "")
    ensures Shift1Write(listing, row) == Success(Add(Shift1Fresh(row)))
    ensures Shift1Fresh(row)["codigo"] == Str("")
  {
    Shift1AddsNewCode(listing, row);
    Shift1FreshInputs(row);
  }

  /**
   * Two rows with the same code that is not yet listed are both added: the
   * batch does not see its own writes.
   */
  lemma RepeatedNewCodeAddsTwice(listing: seq<Record>, rows: seq<Record>, rejects: Action -> bool, i: nat, j: nat)
    requires i < j < |rows|
    requires RowCode(rows[i]) == RowCode(rows[j])
    requires FindByCode(listing, RowCode(rows[i])).None?
    requires !rejects(Add(Shift1Fresh(rows[i]))) && !rejects(Add(Shift1Fresh(rows[j])))
    ensures ImportShift1(listing, rows, rejects)[i] == Success(Add(Shift1Fresh(rows[i])))
    ensures ImportShift1(listing, rows, rejects)[j] == Success(Add(Shift1Fresh(rows[j])))
  {
    NewCodeRowAdded(listing, rows, rejects, i);
    NewCodeRowAdded(listing, rows, rejects, j);
  }

  lemma NewCodeRowAdded(listing: seq<Record>, rows: seq<Record>, rejects: Action -> bool, i: nat)
    requires i < |rows|
    requires FindByCode(listing, RowCode(rows[i])).None?
    requires !rejects(Add(Shift1Fresh(rows[i])))
    ensures ImportShift1(listing, rows, rejects)[i] == Success(Add(Shift1Fresh(rows[i])))
  {
    ImportShift1Rows(listing, rows, rejects);
    Shift1AddsNewCode(listing, rows[i]);
  }

  /**
   * Re-importing a first shift over a record that already has a second shift
   * keeps that shift's quantities but not their effect: the written record
   * still reports no second-shift efficiency, so it disagrees with its own
   * inputs.
   */
  lemma Shift1UpdateLeavesStaleTotals(listing: seq<Record>, row: Record, i: nat, id: string, turno2: real, kg2: real)
    requires FindByCode(listing, RowCode(row)) == Some(i)
    requires IdOf(listing[i]) == Some(id)
    requires Default(listing[i], "turno2") == Num(turno2)
    requires Default(listing[i], "kg2") == Num(kg2)
    requires CTP2(kg2, turno2) != 0.0
    ensures Shift1Write(listing, row).Success?
    ensures Shift1Write(listing, row).value.rec["kg2"] == Num(kg2)
    ensures Shift1Write(listing, row).value.rec["ctp2"] == Num(0.0)
    ensures !Consistent(Shift1Write(listing, row).value.rec)
  {
    Shift1KeepsSecondShift(listing, row, i, id);
    Shift1FreshDerived(row);
    assert "kg2" in SecondShiftKeys && "turno2" in SecondShiftKeys;
    assert "ctp2" in DerivedKeys;
    var r := Shift1Write(listing, row).value.rec;
    assert QuantitiesOf(r).kg2 == kg2;
    assert QuantitiesOf(r).turno2 == turno2;
    InconsistentCtp2(r);
  }

  /** The same on a concrete listing: the stored total stays at the first shift's 90 kg. */
  lemma Shift1StaleExample()
    ensures Shift1Write(ExampleListing, ExampleRow).Success?
    ensures Shift1Write(ExampleListing, ExampleRow).value.rec["kgtd"] == Num(90.0)
    ensures !Consistent(Shift1Write(ExampleListing, ExampleRow).value.rec)
  {
    ExampleFacts();
    ExampleKg();
    Shift1UpdateLeavesStaleTotals(ExampleListing, ExampleRow, 0, "doc1", 100.0, 95.0);
    Shift1KeepsSecondShift(ExampleListing, ExampleRow, 0, "doc1");
    Shift1FreshDerived(ExampleRow);
    assert "kgtd" in DerivedKeys;
  }

  lemma ExampleFacts()
    ensures RowCode(ExampleRow) == "P1"
    ensures FindByCode(ExampleListing, "P1") == Some(0)
    ensures IdOf(ExampleListing[0]) == Some("doc1")
    ensures CTP2(95.0, 100.0) != 0.0
    ensures Default(ExampleListing[0], "turno2") == Num(100.0)
    ensures Default(ExampleListing[0], "kg2") == Num(95.0)
  {
  }

  lemma ExampleKg()
    ensures Rounding.Round2(Field(Shift1Fresh(ExampleRow), "kg")) == 90.0
  {
    assert NumberCell(ExampleRow, ["KG"]) == Num(90.0);
    Shift1FreshInputs(ExampleRow);
    Rounding.Round2OfCents(90.0);
  }

  /** A first-shift row for product P1: 100 kg planned, 90 kg produced. */
  const ExampleRow: Record := map["CÓDIGO" := Str("P1"), "1 TURNO" := Num(100.0), "KG" := Num(90.0)]

  /** A listing where P1 already has a second shift: 100 kg planned, 95 kg produced. */
  const ExampleListing: seq<Record> :=
    [map["id" := Str("doc1"), "codigo" := Str("P1"), "turno2" := Num(100.0), "kg2" := Num(95.0)]]
}

=== FILE: processamento.dfy ===
/**
 * The processing page (`Processamento`): the consolidated totals of every
 * product with a plan in either shift, and the recompute pass that rewrites
 * a stored record whose compared derived fields differ from a fresh
 * derivation.
 */
module Processamento {
  import opened Wrappers
  import opened Values
  import opened Calculations
  import opened Store
  import Rounding
  import Seqs

  /**
   * `item.turno1 > 0 || item.turno2 > 0`: a plan in either shift. With no
   * negative plan this is a positive summed plan; an unplanned record never
   * plans a positive quantity.
   */
  function IsPlanned(item: Record): (b: bool)
    ensures !b ==> Planned(item) <= 0.0
    ensures Field(item, "turno1") >= 0.0 && Field(item, "turno2") >= 0.0 ==> (b <==> Planned(item) > 0.0)
  {
    Field(item, "turno1") > 0.0 || Field(item, "turno2") > 0.0
  }

  /** A record with no plan in either shift. */
  predicate IsUnplanned(item: Record) {
    !IsPlanned(item)
  }

  /** The records with a plan in either shift (`consolidatedData`). */
  function Consolidated(listing: seq<Record>): (items: seq<Record>)
    ensures forall item | item in listing ::
              item in items <==> Field(item, "turno1") > 0.0 || Field(item, "turno2") > 0.0
    ensures |items| <= |listing|
    ensures Seqs.IsSubsequence(items, listing)
    ensures |items| + Seqs.Count(listing, IsUnplanned) == |listing|
  {
    Seqs.FilterIsSubsequence(listing, IsPlanned);
    Seqs.CountSplit(listing, IsPlanned, IsUnplanned);
    Seqs.Filter(listing, IsPlanned)
  }

  /** The accumulated totals of the processing page. */
  datatype Totals = Totals(kgtd: real, cxstd: real, planejadoKg: real, diferenca: real, eficienciaMedia: real)

  function Kgtd(item: Record): real { Field(item, "kgtd") }
  function Cxstd(item: Record): real { Field(item, "cxstd") }
  function Planned(item: Record): real { Field(item, "turno1") + Field(item, "turno2") }
  function Diferenca(item: Record): real { Field(item, "diferencaPrKg") }
  function Ctptd(item: Record): real { Field(item, "ctptd") }

  /**
   * `consolidatedData.reduce(...)`, one running sum per total: nothing for
   * no records, a record's own fields for one, and with `TotalsAppend` the
   * totals of any listing follow.
   */
  function TotalsOf(items: seq<Record>): (t: Totals)
    ensures |items| == 0 ==> t == Totals(0.0, 0.0, 0.0, 0.0, 0.0)
    ensures |items| == 1 ==>
              t == Totals(Kgtd(items[0]), Cxstd(items[0]), Planned(items[0]), Diferenca(items[0]), Ctptd(items[0]))
  {
    Totals(Seqs.Sum(items, Kgtd), Seqs.Sum(items, Cxstd), Seqs.Sum(items, Planned),
           Seqs.Sum(items, Diferenca), Seqs.Sum(items, Ctptd))
  }

  /** Totals of two batches of records add up. */
  lemma TotalsAppend(a: seq<Record>, b: seq<Record>)
    ensures TotalsOf(a + b).kgtd == TotalsOf(a).kgtd + TotalsOf(b).kgtd
    ensures TotalsOf(a + b).cxstd == TotalsOf(a).cxstd + TotalsOf(b).cxstd
    ensures TotalsOf(a + b).planejadoKg == TotalsOf(a).planejadoKg + TotalsOf(b).planejadoKg
    ensures TotalsOf(a + b).diferenca == TotalsOf(a).diferenca + TotalsOf(b).diferenca
    ensures TotalsOf(a + b).eficienciaMedia == TotalsOf(a).eficienciaMedia + TotalsOf(b).eficienciaMedia
  {
    Seqs.SumAppend(a, b, Kgtd);
    Seqs.SumAppend(a, b, Cxstd);
    Seqs.SumAppend(a, b, Planned);
    Seqs.SumAppend(a, b, Diferenca);
    Seqs.SumAppend(a, b, Ctptd);
  }

  /**
   * When every record is consistent and plans whole cents, the summed
   * difference is exactly the summed total less the summed plan.
   */
  lemma DifferenceOfTotals(items: seq<Record>)
    requires forall i | 0 <= i < |items| :: Consistent(items[i])
    requires forall i | 0 <= i < |items| :: Rounding.IsCents(Planned(items[i]))
    ensures TotalsOf(items).diferenca == TotalsOf(items).kgtd - TotalsOf(items).planejadoKg
  {
    forall i | 0 <= i < |items|
      ensures Diferenca(items[i]) == Kgtd(items[i]) - Planned(items[i])
    {
      ItemDifference(items[i]);
    }
    Seqs.SumPointwiseDifference(items, Kgtd, Planned, Diferenca);
  }

  lemma ItemDifference(r: Record)
    requires Consistent(r)
    requires Rounding.IsCents(Planned(r))
    ensures Diferenca(r) == Kgtd(r) - Planned(r)
  {
    ConsistentTotals(r);
    var kgtd := KGTD(Field(r, "kg"), Field(r, "kg2"));
    assert Kgtd(r) == kgtd;
    Rounding.CentsDifference(kgtd, Planned(r));
    Rounding.Round2OfCents(kgtd - Planned(r));
  }

  /** `eficienciaGeral`: the mean combined efficiency, 0 for no records. */
  function OverallEfficiency(items: seq<Record>): (e: real)
    ensures |items| == 0 ==> e == 0.0
    ensures |items| > 0 ==> e * |items| as real == TotalsOf(items).eficienciaMedia
  {
    if |items| > 0 then TotalsOf(items).eficienciaMedia / |items| as real else 0.0
  }

  /** `percentualDiferenca`: the summed difference as a percentage of the summed plan. */
  function DifferencePercent(t: Totals): (p: real)
    ensures t.planejadoKg <= 0.0 ==> p == 0.0
    ensures t.planejadoKg > 0.0 ==> p * t.planejadoKg == t.diferenca * 100.0
  {
    if t.planejadoKg > 0.0 then t.diferenca / t.planejadoKg * 100.0 else 0.0
  }

  /** The progress bar value: `Math.min(eficienciaGeral, 100)`. */
  function Progress(items: seq<Record>): (v: real)
    ensures v <= 100.0
    ensures OverallEfficiency(items) < 100.0 ==> v == OverallEfficiency(items)
    ensures OverallEfficiency(items) >= 100.0 ==> v == 100.0
  {
    var e := OverallEfficiency(items);
    if e < 100.0 then e else 100.0
  }

  /** With no negative efficiencies the progress bar stays between 0 and 100. */
  lemma ProgressBounds(items: seq<Record>)
    requires forall i | 0 <= i < |items| :: Ctptd(items[i]) >= 0.0
    ensures 0.0 <= Progress(items) <= 100.0
  {
    Seqs.SumNonNegative(items, Ctptd);
  }

  /** The consolidated table lists at most the first fifteen consolidated records. */
  function TableRows(listing: seq<Record>): (rows: seq<Record>)
    ensures |rows| <= 15
    ensures forall i | 0 <= i < |rows| :: rows[i] in listing
    ensures forall i | 0 <= i < |rows| :: Field(rows[i], "turno1") > 0.0 || Field(rows[i], "turno2") > 0.0
    ensures |Consolidated(listing)| <= 15 ==> rows == Consolidated(listing)
    ensures |rows| == if |Consolidated(listing)| < 15 then |Consolidated(listing)| else 15
    ensures forall i | 0 <= i < |rows| :: rows[i] == Consolidated(listing)[i]
  {
    Seqs.Take(Consolidated(listing), 15)
  }

  /** The six derived fields the recompute pass compares. */
  const ComparedKeys: set<string> := {"ctp1", "ctp2", "ctptd", "kgtd", "cxstd", "diferencaPrKg"}

  /**
   * `needsUpdate`: some compared field differs (`!==`) from a fresh
   * derivation. The `...rest` spread carries every stored derived field into
   * the fresh derivation, so this happens exactly when a compared field is
   * missing.
   */
  function NeedsUpdate(item: Record): (b: bool)
    ensures b <==> !(ComparedKeys <= item.Keys)
  {
    ComparedFieldAgrees(item, "ctp1");
    ComparedFieldAgrees(item, "ctp2");
    ComparedFieldAgrees(item, "ctptd");
    ComparedFieldAgrees(item, "kgtd");
    ComparedFieldAgrees(item, "cxstd");
    ComparedFieldAgrees(item, "diferencaPrKg");
    ComparedKeysStored(item);
    var r := ProcessFullCalculations(item);
    || Lookup(item, "ctp1") != Lookup(r, "ctp1")
    || Lookup(item, "ctp2") != Lookup(r, "ctp2")
    || Lookup(item, "ctptd") != Lookup(r, "ctptd")
    || Lookup(item, "kgtd") != Lookup(r, "kgtd")
    || Lookup(item, "cxstd") != Lookup(r, "cxstd")
    || Lookup(item, "diferencaPrKg") != Lookup(r, "diferencaPrKg")
  }

  /**
   * The write the pass issues for one listed record, if any: a record with an
   * id and a missing compared field is rewritten with its fresh derivation,
   * and a record holding every compared field is never rewritten, however
   * stale they are.
   */
  function RecomputeStep(item: Record): (o: Option<Action>)
    ensures o.Some? <==> !(ComparedKeys <= item.Keys) && IdOf(item).Some?
    ensures o.Some? ==> o.value == Update(IdOf(item).value, ProcessFullCalculations(item))
    ensures o.Some? && item.Keys !! DerivedKeys ==> Consistent(o.value.rec)
  {
    if NeedsUpdate(item) && IdOf(item).Some? then Some(Update(IdOf(item).value, ProcessFullCalculations(item)))
    else None
  }

  /** The writes of a pass over `items` in which the store refuses nothing. */
  function Issued<T>(items: seq<T>, step: T -> Option<Action>): seq<Action> {
    if |items| == 0 then []
    else
      var rest := Issued(items[..|items| - 1], step);
      match step(items[|items| - 1])
      case Some(a) => rest + [a]
      case None => rest
  }

  /** The writes the recompute pass would issue over the whole listing. */
  function PlannedWrites(listing: seq<Record>): seq<Action> {
    Issued(listing, RecomputeStep)
  }

  predicate IsPrefix<T(==)>(a: seq<T>, b: seq<T>) {
    |a| <= |b| && b[..|a|] == a
  }

  lemma {:induction false} PlannedPrefix<T>(items: seq<T>, step: T -> Option<Action>, n: nat)
    requires n <= |items|
    ensures IsPrefix(Issued(items[..n], step), Issued(items, step))
    decreases |items|
  {
    if n < |items| {
      var init := items[..|items| - 1];
      assert init[..n] == items[..n];
      PlannedPrefix(init, step, n);
    } else {
      assert items[..n] == items;
    }
  }

  lemma PlannedSnoc<T>(items: seq<T>, step: T -> Option<Action>, i: nat)
    requires i < |items|
    ensures step(items[i]).Some? ==> Issued(items[..i + 1], step) == Issued(items[..i], step) + [step(items[i]).value]
    ensures step(items[i]).None? ==> Issued(items[..i + 1], step) == Issued(items[..i], step)
  {
    assert items[..i + 1][..i] == items[..i];
    assert items[..i + 1][i] == items[i];
  }

  /**
   * Visit `items` in order and issue each one's write; the first write the
   * store refuses ends the run.
   */
  method RunUntilRefused<T>(items: seq<T>, step: T -> Option<Action>, rejects: Action -> bool)
    returns (written: seq<Action>, failure: Option<Action>)
    ensures forall a | a in written :: !rejects(a)
    ensures failure.None? ==> written == Issued(items, step)
    ensures failure.Some? ==> rejects(failure.value) && IsPrefix(written + [failure.value], Issued(items, step))
  {
    written := [];
    failure := None;
    var i := 0;
    while i < |items|
      invariant 0 <= i <= |items|
      invariant written == Issued(items[..i], step)
      invariant forall a | a in written :: !rejects(a)
    {
      PlannedSnoc(items, step, i);
      var next := step(items[i]);
      if next.Some? {
        if rejects(next.value) {
          failure := next;
          PlannedPrefix(items, step, i + 1);
          return;
        }
        written := written + [next.value];
      }
      i := i + 1;
    }
    assert items[..i] == items;
  }

  /**
   * `handleRecalculate`: the listed records are visited in order; the first
   * write the store refuses ends the pass, since one `try` wraps the loop.
   */
  method Recompute(listing: seq<Record>, rejects: Action -> bool) returns (written: seq<Action>, failure: Option<Action>)
    ensures forall a | a in written :: !rejects(a)
    ensures failure.None? ==> written == PlannedWrites(listing)
    ensures failure.Some? ==> rejects(failure.value) && IsPrefix(written + [failure.value], PlannedWrites(listing))
  {
    written, failure := RunUntilRefused(listing, RecomputeStep, rejects);
  }

  /** A compared field agrees with a fresh derivation exactly when it is stored. */
  lemma ComparedFieldAgrees(item: Record, k: string)
    requires k in ComparedKeys
    ensures Lookup(item, k) == Lookup(ProcessFullCalculations(item), k) <==> k in item
  {
    assert k in DerivedKeys && k !in InputKeys;
  }

  lemma ComparedKeysStored(m: Record)
    ensures ComparedKeys <= m.Keys <==>
      "ctp1" in m && "ctp2" in m && "ctptd" in m && "kgtd" in m && "cxstd" in m && "diferencaPrKg" in m
  {
  }

  /** Once every record has been derived, a further pass writes nothing. */
  lemma {:induction false} RecomputeSettles(listing: seq<Record>)
    requires forall i | 0 <= i < |listing| :: InputKeys + DerivedKeys <= listing[i].Keys
    ensures PlannedWrites(listing) == []
    decreases |listing|
  {
    if |listing| > 0 {
      RecomputeSettles(listing[..|listing| - 1]);
    }
  }

  /** Every issued write is the step of some visited item. */
  lemma {:induction false} IssuedFrom<T>(items: seq<T>, step: T -> Option<Action>)
    ensures forall a | a in Issued(items, step) :: exists x | x in items :: step(x) == Some(a)
    decreases |items|
  {
    if |items| > 0 {
      var init := items[..|items| - 1];
      IssuedFrom(init, step);
      forall a | a in Issued(items, step)
        ensures exists x | x in items :: step(x) == Some(a)
      {
        if a in Issued(init, step) {
          var x :| x in init && step(x) == Some(a);
          assert x in items;
        } else {
          assert step(items[|items| - 1]) == Some(a);
        }
      }
    }
  }

  /** Every planned write rewrites one listed record, which has an id, with its fresh derivation. */
  lemma PlannedWritesFromListing(listing: seq<Record>)
    ensures forall a | a in PlannedWrites(listing) ::
              exists item | item in listing ::
                IdOf(item).Some? && NeedsUpdate(item) && a == Update(IdOf(item).value, ProcessFullCalculations(item))
  {
    IssuedFrom(listing, RecomputeStep);
  }
}

=== FILE: produtos.dfy ===
/**
 * The product catalogue page (`Produtos`): the registration form's
 * validation schema, the search filter, the option lists offered by the
 * form's selectors, and the counts and badges of the catalogue table.
 */
module Produtos {
  import opened Wrappers
  import Seqs
  import Text

  /** A catalogue product (`ProdutoData` without its id and timestamps). */
  datatype Produto = Produto(
    codigo: string, descricao: string, maquina: string, embalagem: string,
    unCx: real, pesoLiqUnitKg: real, batchReceitaKg: real,
    classificacao: string, ativo: bool)

  /**
   * `produtoSchema`: every text field non-empty, at least one unit per
   * box, and a net weight and batch weight of at least 0.01 kg.
   */
  predicate ValidProduto(p: Produto) {
    && |p.codigo| >= 1 && |p.descricao| >= 1 && |p.maquina| >= 1 && |p.embalagem| >= 1
    && p.unCx >= 1.0 && p.pesoLiqUnitKg >= 0.01 && p.batchReceitaKg >= 0.01
    && |p.classificacao| >= 1
  }

  /** The fields `produtoSchema` checks, in the schema's order. */
  datatype SchemaField = Codigo | Descricao | Maquina | Embalagem | UnCx | PesoLiq | BatchReceita | Classificacao

  const SchemaOrder: seq<SchemaField> := [Codigo, Descricao, Maquina, Embalagem, UnCx, PesoLiq, BatchReceita, Classificacao]

  /** The field's check fails for the form's values. */
  predicate Fails(p: Produto, f: SchemaField) {
    match f
    case Codigo => p.codigo == ""
    case Descricao => p.descricao == ""
    case Maquina => p.maquina == ""
    case Embalagem => p.embalagem == ""
    case UnCx => p.unCx < 1.0
    case PesoLiq => p.pesoLiqUnitKg < 0.01
    case BatchReceita => p.batchReceitaKg < 0.01
    case Classificacao => p.classificacao == ""
  }

  /** The message the schema gives for a failing field. */
  function Message(f: SchemaField): string {
    match f
    case Codigo => "Código é obrigatório"
    case Descricao => "Descrição é obrigatória"
    case Maquina => "Máquina é obrigatória"
    case Embalagem => "Embalagem é obrigatória"
    case UnCx => "UN/CX deve ser maior que 0"
    case PesoLiq => "Peso deve ser maior que 0"
    case BatchReceita => "Batch receita deve ser maior que 0"
    case Classificacao => "Classificação é obrigatória"
  }

  /** No two fields share a message: the first two characters already tell them apart. */
  lemma MessageInjective(f: SchemaField, g: SchemaField)
    requires Message(f) == Message(g)
    ensures f == g
  {
    assert Message(f)[..2] == Message(g)[..2];
  }

  function FailsFor(p: Produto): SchemaField -> bool {
    (f: SchemaField) => Fails(p, f)
  }

  /** The schema's messages for the form's values, one per failing field in field order. */
  function Issues(p: Produto): (issues: seq<string>)
    ensures |issues| <= 8
    ensures Seqs.NoDuplicates(issues)
    ensures forall f: SchemaField :: Message(f) in issues <==> Fails(p, f)
    ensures forall t | t in issues :: exists f: SchemaField :: t == Message(f) && Fails(p, f)
    ensures |issues| == 0 <==> forall f: SchemaField :: !Fails(p, f)
  {
    IssuesOfFailing(p);
    Seqs.Map(Seqs.Filter(SchemaOrder, FailsFor(p)), Message)
  }

  lemma IssuesOfFailing(p: Produto)
    ensures var issues := Seqs.Map(Seqs.Filter(SchemaOrder, FailsFor(p)), Message);
      && |issues| <= 8
      && Seqs.NoDuplicates(issues)
      && (forall f: SchemaField :: Message(f) in issues <==> Fails(p, f))
      && (forall t | t in issues :: exists f: SchemaField :: t == Message(f) && Fails(p, f))
      && (|issues| == 0 <==> forall f: SchemaField :: !Fails(p, f))
  {
    var failing := Seqs.Filter(SchemaOrder, FailsFor(p));
    var issues := Seqs.Map(failing, Message);
    SchemaOrderDistinct();
    Seqs.FilterNoDuplicates(SchemaOrder, FailsFor(p));
    FailingMessagesDistinct(failing);
    Seqs.MapFilter(SchemaOrder, FailsFor(p), Message);
    forall f: SchemaField
      ensures Message(f) in issues <==> Fails(p, f)
    {
      SchemaOrderComplete(f);
      if Message(f) in issues {
        var g :| g in SchemaOrder && FailsFor(p)(g) && Message(f) == Message(g);
        MessageInjective(f, g);
      }
    }
    if |issues| > 0 {
      assert issues[0] in issues;
    }
  }

  /** Every field is checked. */
  lemma SchemaOrderComplete(f: SchemaField)
    ensures f in SchemaOrder
  {
    match f
    case Codigo => assert SchemaOrder[0] == f;
    case Descricao => assert SchemaOrder[1] == f;
    case Maquina => assert SchemaOrder[2] == f;
    case Embalagem => assert SchemaOrder[3] == f;
    case UnCx => assert SchemaOrder[4] == f;
    case PesoLiq => assert SchemaOrder[5] == f;
    case BatchReceita => assert SchemaOrder[6] == f;
    case Classificacao => assert SchemaOrder[7] == f;
  }

  /** Every field is checked once. */
  lemma SchemaOrderDistinct()
    ensures Seqs.NoDuplicates(SchemaOrder)
  {
  }

  /** Distinct fields give distinct messages. */
  lemma FailingMessagesDistinct(fields: seq<SchemaField>)
    requires Seqs.NoDuplicates(fields)
    ensures Seqs.NoDuplicates(Seqs.Map(fields, Message))
  {
    forall i, j | 0 <= i < j < |fields|
      ensures Message(fields[i]) != Message(fields[j])
    {
      if Message(fields[i]) == Message(fields[j]) {
        MessageInjective(fields[i], fields[j]);
      }
    }
  }

  /** `zodResolver(produtoSchema)`: the values unchanged, or every failing field's message. */
  function Validate(form: Produto): (r: Result<Produto, seq<string>>)
    ensures r.Success? ==> r.value == form
    ensures r.Failure? ==> |r.error| > 0 && r.error == Issues(form)
  {
    var issues := Issues(form);
    if |issues| == 0 then Success(form) else Failure(issues)
  }

  /** The form is accepted exactly when the values satisfy the schema. */
  lemma ValidateIff(form: Produto)
    ensures Validate(form).Success? <==> ValidProduto(form)
  {
    ValidIffNoFailure(form);
  }

  /** The schema holds exactly when none of its field checks fails. */
  lemma ValidIffNoFailure(p: Produto)
    ensures ValidProduto(p) <==> forall f: SchemaField :: !Fails(p, f)
  {
    if ValidProduto(p) {
      forall f: SchemaField
        ensures !Fails(p, f)
      {
      }
    } else {
      var f :=
        if p.codigo == "" then Codigo
        else if p.descricao == "" then Descricao
        else if p.maquina == "" then Maquina
        else if p.embalagem == "" then Embalagem
        else if p.unCx < 1.0 then UnCx
        else if p.pesoLiqUnitKg < 0.01 then PesoLiq
        else if p.batchReceitaKg < 0.01 then BatchReceita
        else Classificacao;
      assert Fails(p, f);
    }
  }

  /** The form's initial values. */
  const DefaultForm: Produto := Produto("", "", "", "", 1.0, 0.0, 0.0, "", true)

  /** The untouched form is refused for every field except the units per box. */
  lemma DefaultFormRefused()
    ensures Validate(DefaultForm).Failure?
    ensures |Validate(DefaultForm).error| == 7
    ensures "UN/CX deve ser maior que 0" !in Validate(DefaultForm).error
  {
    var passing := Seqs.Filter(SchemaOrder, PassesFor(DefaultForm));
    SchemaOrderDistinct();
    Seqs.FilterNoDuplicates(SchemaOrder, PassesFor(DefaultForm));
    Seqs.CountSplit(SchemaOrder, FailsFor(DefaultForm), PassesFor(DefaultForm));
    SchemaOrderComplete(UnCx);
    assert UnCx in passing;
    forall f | f in passing
      ensures f == UnCx
    {
      assert !Fails(DefaultForm, f);
    }
    Seqs.AtMostOneOf(passing, UnCx);
    assert Fails(DefaultForm, Codigo);
  }

  function PassesFor(p: Produto): SchemaField -> bool {
    (f: SchemaField) => !Fails(p, f)
  }

  /** What submitting the form leads to. */
  datatype Submission =
    | Refused(issues: seq<string>) // the schema refused the values; nothing is written
    | Saved(produto: Produto)       // the product was added; the form resets and the dialog closes
    | Kept(produto: Produto)        // the store refused the write; the error is logged and the dialog stays open

  /** `form.handleSubmit(onSubmit)`: validate, then add the product unless the store refuses. */
  function Submit(form: Produto, storeRefuses: bool): (s: Submission)
    ensures s.Saved? <==> ValidProduto(form) && !storeRefuses
    ensures s.Refused? <==> !ValidProduto(form)
    ensures !s.Refused? ==> s.produto == form
  {
    ValidateIff(form);
    match Validate(form)
    case Failure(issues) => Refused(issues)
    case Success(p) => if storeRefuses then Kept(p) else Saved(p)
  }

  /**
   * The search test: the term occurs, ignoring case, in the code, the
   * description or the machine; the empty term occurs in every product.
   */
  function Matches(term: string): (m: Produto -> bool)
    ensures forall p: Produto :: m(p) <==> OccursIn(p.codigo, term) || OccursIn(p.descricao, term) || OccursIn(p.maquina, term)
    ensures term == "" ==> forall p: Produto :: m(p)
  {
    assert forall p: Produto ::
        (|| Text.Includes(Text.Lower(p.codigo), Text.Lower(term))
         || Text.Includes(Text.Lower(p.descricao), Text.Lower(term))
         || Text.Includes(Text.Lower(p.maquina), Text.Lower(term)))
        <==> OccursIn(p.codigo, term) || OccursIn(p.descricao, term) || OccursIn(p.maquina, term) by {
      forall p: Produto
        ensures (|| Text.Includes(Text.Lower(p.codigo), Text.Lower(term))
                 || Text.Includes(Text.Lower(p.descricao), Text.Lower(term))
                 || Text.Includes(Text.Lower(p.maquina), Text.Lower(term)))
                <==> OccursIn(p.codigo, term) || OccursIn(p.descricao, term) || OccursIn(p.maquina, term)
      {
        Text.IncludesIff(Text.Lower(p.codigo), Text.Lower(term));
        Text.IncludesIff(Text.Lower(p.descricao), Text.Lower(term));
        Text.IncludesIff(Text.Lower(p.maquina), Text.Lower(term));
      }
    }
    assert term == "" ==> forall p: Produto :: OccursIn(p.codigo, term) by {
      if term == "" {
        forall p: Produto ensures OccursIn(p.codigo, term) {
          assert Text.OccursAt(Text.Lower(p.codigo), Text.Lower(term), 0);
        }
      }
    }
    (p: Produto) =>
      || Text.Includes(Text.Lower(p.codigo), Text.Lower(term))
      || Text.Includes(Text.Lower(p.descricao), Text.Lower(term))
      || Text.Includes(Text.Lower(p.maquina), Text.Lower(term))
  }

  /** The lower-cased term occurs somewhere in the lower-cased text. */
  ghost predicate OccursIn(text: string, term: string) {
    exists i: nat :: Text.OccursAt(Text.Lower(text), Text.Lower(term), i)
  }

  /** `filteredProdutos`. */
  function Search(produtos: seq<Produto>, term: string): (found: seq<Produto>)
    ensures forall p | p in produtos :: p in found <==> Matches(term)(p)
    ensures forall p | p in found :: p in produtos
  {
    Seqs.Filter(produtos, Matches(term))
  }

  /** An empty search keeps the whole catalogue, in order. */
  lemma EmptySearchKeepsAll(produtos: seq<Produto>)
    ensures Search(produtos, "") == produtos
  {
    Seqs.FilterKeepsAll(produtos, Matches(""));
  }

  /** The search keeps the catalogue's order. */
  lemma SearchInOrder(produtos: seq<Produto>, term: string)
    ensures Seqs.IsSubsequence(Search(produtos, term), produtos)
  {
    Seqs.FilterIsSubsequence(produtos, Matches(term));
  }

  /** `[...new Set(values)].filter(Boolean)`: the distinct non-empty texts, in order of first appearance. */
  function OptionList(values: seq<string>): (opts: seq<string>)
    ensures Seqs.NoDuplicates(opts)
    ensures forall v :: v in opts <==> v in values && v != ""
  {
    Seqs.FilterNoDuplicates(Seqs.Distinct(values), (v: string) => v != "");
    Seqs.Filter(Seqs.Distinct(values), (v: string) => v != "")
  }

  /** `maquinas`. */
  function Machines(produtos: seq<Produto>): (opts: seq<string>)
    ensures Seqs.NoDuplicates(opts) && "" !in opts
    ensures forall i | 0 <= i < |produtos| && produtos[i].maquina != "" :: produtos[i].maquina in opts
    ensures forall v | v in opts :: exists i | 0 <= i < |produtos| :: produtos[i].maquina == v
  {
    var values := Seqs.Map(produtos, (p: Produto) => p.maquina);
    assert forall i | 0 <= i < |produtos| :: values[i] == produtos[i].maquina;
    OptionList(values)
  }

  /** `embalagens`. */
  function Packagings(produtos: seq<Produto>): (opts: seq<string>)
    ensures Seqs.NoDuplicates(opts) && "" !in opts
    ensures forall i | 0 <= i < |produtos| && produtos[i].embalagem != "" :: produtos[i].embalagem in opts
    ensures forall v | v in opts :: exists i | 0 <= i < |produtos| :: produtos[i].embalagem == v
  {
    var values := Seqs.Map(produtos, (p: Produto) => p.embalagem);
    assert forall i | 0 <= i < |produtos| :: values[i] == produtos[i].embalagem;
    OptionList(values)
  }

  /** `classificacoes`. */
  function Classifications(produtos: seq<Produto>): (opts: seq<string>)
    ensures Seqs.NoDuplicates(opts) && "" !in opts
    ensures forall i | 0 <= i < |produtos| && produtos[i].classificacao != "" :: produtos[i].classificacao in opts
    ensures forall v | v in opts :: exists i | 0 <= i < |produtos| :: produtos[i].classificacao == v
  {
    var values := Seqs.Map(produtos, (p: Produto) => p.classificacao);
    assert forall i | 0 <= i < |produtos| :: values[i] == produtos[i].classificacao;
    OptionList(values)
  }

  /** The classification selector: the three fixed classes, then the catalogue's classifications. */
  function ClassOptions(produtos: seq<Produto>): seq<string> {
    ["A", "B", "C"] + Classifications(produtos)
  }

  /** A catalogue product already classified "A" makes the selector offer "A" twice. */
  lemma ClassOptionRepeats(produtos: seq<Produto>, i: nat)
    requires i < |produtos| && produtos[i].classificacao == "A"
    ensures !Seqs.NoDuplicates(ClassOptions(produtos))
  {
    var opts := ClassOptions(produtos);
    var k :| 0 <= k < |Classifications(produtos)| && Classifications(produtos)[k] == "A";
    assert opts[0] == opts[3 + k];
  }

  /** `p.ativo`. */
  predicate IsActive(p: Produto) {
    p.ativo
  }

  /** `!p.ativo`. */
  predicate IsInactive(p: Produto) {
    !p.ativo
  }

  /** The active-products card: `produtos.filter(p => p.ativo).length`. */
  function ActiveCount(produtos: seq<Produto>): (n: nat)
    ensures n <= |produtos|
    ensures (forall i | 0 <= i < |produtos| :: produtos[i].ativo) ==> n == |produtos|
  {
    if forall i | 0 <= i < |produtos| :: produtos[i].ativo then
      Seqs.FilterKeepsAll(produtos, IsActive);
      Seqs.Count(produtos, IsActive)
    else Seqs.Count(produtos, IsActive)
  }

  /** Active and inactive products together are the whole catalogue. */
  lemma ActiveAndInactive(produtos: seq<Produto>)
    ensures ActiveCount(produtos) + Seqs.Count(produtos, IsInactive) == |produtos|
  {
    Seqs.CountSplit(produtos, IsActive, IsInactive);
  }

  /** The classification badge of the catalogue table. */
  datatype ClassBadge = ClassDefault | ClassSecondary | ClassOutline

  /** `'A'` is the default badge, `'B'` the secondary one, anything else an outline. */
  function ClassVariant(c: string): (b: ClassBadge)
    ensures b == ClassDefault <==> c == "A"
    ensures b == ClassSecondary <==> c == "B"
    ensures b == ClassOutline <==> c != "A" && c != "B"
  {
    if c == "A" then ClassDefault else if c == "B" then ClassSecondary else ClassOutline
  }

  /** The status badge text. */
  function StatusLabel(p: Produto): (text: string)
    ensures text == "Ativo" <==> p.ativo
    ensures text == "Inativo" <==> !p.ativo
  {
    if p.ativo then "Ativo" else "Inativo"
  }
}

=== FILE: resultados.dfy ===
/**
 * The results page (`Resultados`): the stored records narrowed to one
 * classification (or all of them), their aggregate metrics, the
 * per-classification totals, the shift comparison and the spreadsheet
 * export.
 */
module Resultados {
  import opened Wrappers
  import opened Values
  import Seqs
  import Text
  import Badges
  import Processamento
  import Dashboard

  /** The category selector's value that keeps every record. */
  const AllCategories: string := "todos"

  /** `item.classificacao`, with `undefined` read as `null` (both are falsy and equal no category). */
  function ClassCell(item: Record): Value {
    if "classificacao" in item then item["classificacao"] else Null
  }

  /** The category filter of `filteredData`; the period selector filters nothing. */
  function Selects(selected: string): Record -> bool {
    (item: Record) => selected == AllCategories || ClassCell(item) == Str(selected)
  }

  /** `filteredData`. */
  function Filtered(listing: seq<Record>, selected: string): (items: seq<Record>)
    ensures selected == AllCategories ==> items == listing
    ensures selected != AllCategories ==>
              forall item | item in listing :: item in items <==> ClassCell(item) == Str(selected)
    ensures forall item | item in items :: item in listing
  {
    if selected == AllCategories then
      Seqs.FilterKeepsAll(listing, Selects(selected));
      Seqs.Filter(listing, Selects(selected))
    else Seqs.Filter(listing, Selects(selected))
  }

  /** The filtered records keep their listing order. */
  lemma FilteredInOrder(listing: seq<Record>, selected: string)
    ensures Seqs.IsSubsequence(Filtered(listing, selected), listing)
  {
    Seqs.FilterIsSubsequence(listing, Selects(selected));
  }

  /** `categorias`: the distinct truthy classifications, in order of first appearance. */
  function Categories(listing: seq<Record>): (cats: seq<Value>)
    ensures Seqs.NoDuplicates(cats)
    ensures forall i | 0 <= i < |cats| :: Truthy(cats[i])
    ensures forall v :: v in cats <==> Truthy(v) && exists i | 0 <= i < |listing| :: ClassCell(listing[i]) == v
  {
    var all := Seqs.Map(listing, ClassCell);
    assert forall v :: v in all <==> exists i | 0 <= i < |listing| :: ClassCell(listing[i]) == v by {
      forall v | v in all ensures exists i | 0 <= i < |listing| :: ClassCell(listing[i]) == v {
        var i :| 0 <= i < |all| && all[i] == v;
      }
    }
    Seqs.FilterNoDuplicates(Seqs.Distinct(all), Truthy);
    Seqs.Filter(Seqs.Distinct(all), Truthy)
  }

  /** The records of one category. */
  function InCategory(categoria: Value): Record -> bool {
    (item: Record) => ClassCell(item) == categoria
  }

  /** One row of `categoryData`. */
  datatype CategoryRow = CategoryRow(categoria: Value, total: real, items: nat)

  /** The total and the count of the filtered records of one category. */
  function CategoryOf(filtered: seq<Record>, categoria: Value): (row: CategoryRow)
    ensures row.categoria == categoria
    ensures row.items <= |filtered|
    ensures row.items == Seqs.Count(filtered, InCategory(categoria))
    ensures row.total == Seqs.Sum(Seqs.Filter(filtered, InCategory(categoria)), Processamento.Kgtd)
  {
    var members := Seqs.Filter(filtered, InCategory(categoria));
    CategoryRow(categoria, Seqs.Sum(members, Processamento.Kgtd), |members|)
  }

  /** `categoryData`: one row per category of the whole listing, over the filtered records. */
  function CategoryData(listing: seq<Record>, selected: string): (rows: seq<CategoryRow>)
    ensures |rows| == |Categories(listing)|
    ensures forall i | 0 <= i < |rows| :: rows[i] == CategoryOf(Filtered(listing, selected), Categories(listing)[i])
  {
    Seqs.Map(Categories(listing), (c: Value) => CategoryOf(Filtered(listing, selected), c))
  }

  /** Every record's classification is text or missing. */
  predicate TextClasses(items: seq<Record>) {
    forall i | 0 <= i < |items| :: ClassCell(items[i]).Str? || ClassCell(items[i]).Null?
  }

  /**
   * Where every classification is text, a category's total here is the
   * dashboard's total for that classification.
   */
  lemma {:induction false} CategoryTotalMatchesDashboard(items: seq<Record>, s: string)
    requires TextClasses(items)
    requires s != "" && s != "N/A"
    ensures CategoryOf(items, Str(s)).total == Dashboard.ClassTotal(items, s)
    decreases |items|
  {
    if |items| > 0 {
      var init := items[..|items| - 1];
      var last := items[|items| - 1];
      assert TextClasses(init) by {
        forall i | 0 <= i < |init| ensures ClassCell(init[i]).Str? || ClassCell(init[i]).Null? {
          assert init[i] == items[i];
        }
      }
      CategoryTotalMatchesDashboard(init, s);
      var members := Seqs.Filter(init, InCategory(Str(s)));
      assert ClassCell(last) == Str(s) <==> Dashboard.ClassOf(last) == s by {
        assert ClassCell(last).Str? || ClassCell(last).Null?;
      }
      if ClassCell(last) == Str(s) {
        assert (members + [last])[..|members|] == members;
      }
    }
  }

  /** With every record selected, a category's total is its entry in the dashboard distribution. */
  lemma CategoryMatchesDistribution(listing: seq<Record>, s: string)
    requires TextClasses(listing)
    requires s != "" && s != "N/A"
    ensures CategoryOf(Filtered(listing, AllCategories), Str(s)).total ==
            Dashboard.ValueOf(Dashboard.Distribution(listing), s)
  {
    CategoryTotalMatchesDashboard(listing, s);
    Dashboard.DistributionValue(listing, s);
  }

  /** `item.ctptd >= 100`. */
  predicate ReachedGoal(item: Record) {
    Field(item, "ctptd") >= 100.0
  }

  /** The aggregate metrics of the filtered records. */
  datatype Metricas = Metricas(totalKg: real, totalCx: real, eficienciaMedia: real, metaAtingida: nat, totalItens: nat)

  /** `metricas`: sums, the mean `ctptd` (0 for no records) and the number that reached the goal. */
  function MetricsOf(filtered: seq<Record>): (m: Metricas)
    ensures m.totalItens == |filtered|
    ensures m.metaAtingida <= m.totalItens
    ensures m.metaAtingida == Seqs.Count(filtered, ReachedGoal)
    ensures m.totalKg == Seqs.Sum(filtered, Processamento.Kgtd)
    ensures m.totalCx == Seqs.Sum(filtered, Processamento.Cxstd)
    ensures |filtered| == 0 ==> m.eficienciaMedia == 0.0
    ensures |filtered| > 0 ==> m.eficienciaMedia * |filtered| as real == Seqs.Sum(filtered, Processamento.Ctptd)
  {
    var n := |filtered|;
    Metricas(Seqs.Sum(filtered, Processamento.Kgtd), Seqs.Sum(filtered, Processamento.Cxstd),
             if n > 0 then Seqs.Sum(filtered, Processamento.Ctptd) / n as real else 0.0,
             Seqs.Count(filtered, ReachedGoal), n)
  }

  /** The success rate card: goals reached as a percentage of the records, 0 for none. */
  function SuccessRate(m: Metricas): (r: real)
    ensures m.totalItens == 0 ==> r == 0.0
    ensures m.totalItens > 0 ==> r * m.totalItens as real == m.metaAtingida as real * 100.0
    ensures m.metaAtingida <= m.totalItens ==> 0.0 <= r <= 100.0
  {
    if m.totalItens > 0 then m.metaAtingida as real / m.totalItens as real * 100.0 else 0.0
  }

  /** A category's participation: its share of the filtered total, 0 when that is not positive. */
  function Participation(row: CategoryRow, m: Metricas): (p: real)
    ensures m.totalKg > 0.0 ==> p * m.totalKg == row.total * 100.0
    ensures m.totalKg <= 0.0 ==> p == 0.0
  {
    Dashboard.Share(row.total, m.totalKg)
  }

  /** The goal badge of a results row: default when `ctptd >= 100`, destructive otherwise. */
  function GoalVariant(x: real): (v: Badges.Variant)
    ensures v == Badges.Default <==> Badges.EfficiencyVariant(x) == Badges.Default
    ensures v != Badges.Secondary
  {
    if x >= 100.0 then Badges.Default else Badges.Destructive
  }

  /** The row carries the "Meta atingida" label. */
  predicate LabelledReached(item: Record) {
    Badges.GoalLabel(Field(item, "ctptd"), 100.0) == "Meta atingida"
  }

  /** The goals-reached card counts exactly the table rows labelled "Meta atingida". */
  lemma GoalCardMatchesLabels(filtered: seq<Record>)
    ensures MetricsOf(filtered).metaAtingida == Seqs.Count(filtered, LabelledReached)
  {
    Seqs.FilterEquivalent(filtered, ReachedGoal, LabelledReached);
  }

  /** One row of `turnoComparison`. */
  datatype ShiftComparison = ShiftComparison(codigo: string, turno1: real, turno2: real, eficiencia1: real, eficiencia2: real)

  /** A record's shift comparison. */
  function CompareShifts(item: Record): ShiftComparison {
    ShiftComparison(Dashboard.Code(item), Field(item, "kg"), Field(item, "kg2"), Field(item, "ctp1"), Field(item, "ctp2"))
  }

  /** `turnoComparison`: the first ten filtered records, in filter order. */
  function TurnoComparison(filtered: seq<Record>): (rows: seq<ShiftComparison>)
    ensures |rows| == if |filtered| < 10 then |filtered| else 10
    ensures forall i | 0 <= i < |rows| :: rows[i] == CompareShifts(filtered[i])
  {
    Seqs.Take(Seqs.Map(filtered, CompareShifts), 10)
  }

  /** The fourteen export column headers, in order. */
  const ExportHeaders: seq<string> := [
    "Código", "Descrição", "Máquina", "Classificação", "1° Turno (Meta)", "2° Turno (Meta)",
    "KG Turno 1", "KG Turno 2", "Total KG", "Total CX", "CTP1 (%)", "CTP2 (%)", "CTPTD (%)", "Diferença P/R"
  ]

  /** The record field each export column copies. */
  const ExportFields: seq<string> := [
    "codigo", "descricaoProduto", "maquina", "classificacao", "turno1", "turno2",
    "kg", "kg2", "kgtd", "cxstd", "ctp1", "ctp2", "ctptd", "diferencaPrKg"
  ]

  /** One export cell: a header and the copied value, `None` when the field is undefined. */
  datatype Column = Column(header: string, value: Option<Value>)

  /** One exported row: the fourteen columns of a record. */
  function ExportRow(item: Record): (row: seq<Column>)
    ensures |row| == |ExportHeaders| == |ExportFields| == 14
    ensures forall j | 0 <= j < 14 :: row[j].header == ExportHeaders[j]
    ensures forall j | 0 <= j < 14 :: row[j].value == Lookup(item, ExportFields[j])
  {
    seq(14, j requires 0 <= j < 14 => Column(ExportHeaders[j], Lookup(item, ExportFields[j])))
  }

  /** The value under `header` in an exported row, `None` when no column has that header. */
  function ColumnValue(row: seq<Column>, header: string): Option<Value>
    decreases |row|
  {
    if |row| == 0 then None
    else if row[0].header == header then row[0].value
    else ColumnValue(row[1..], header)
  }

  /** The headers are pairwise distinct. */
  lemma ExportHeadersDistinct()
    ensures forall i, j | 0 <= i < j < 14 :: ExportHeaders[i] != ExportHeaders[j]
  {
  }

  /** In a row whose headers are distinct, the column found under a header is that column. */
  lemma {:induction false} ColumnValueAt(row: seq<Column>, j: nat)
    requires j < |row|
    requires forall i | 0 <= i < j :: row[i].header != row[j].header
    ensures ColumnValue(row, row[j].header) == row[j].value
    decreases j
  {
    if j > 0 {
      assert row[0].header != row[j].header;
      ColumnValueAt(row[1..], j - 1);
    }
  }

  /** Reading an exported row back by header gives each copied field. */
  lemma ExportReadsBack(item: Record, j: nat)
    requires j < 14
    ensures ColumnValue(ExportRow(item), ExportHeaders[j]) == Lookup(item, ExportFields[j])
  {
    ExportHeadersDistinct();
    ColumnValueAt(ExportRow(item), j);
  }

  /** `exportData`: one row per filtered record, in filter order. */
  function ExportRows(filtered: seq<Record>): (rows: seq<seq<Column>>)
    ensures |rows| == |filtered|
    ensures forall i | 0 <= i < |rows| :: rows[i] == ExportRow(filtered[i])
  {
    Seqs.Map(filtered, ExportRow)
  }

  /** `isoDate.split('T')[0]`: the text before the first `T`. */
  function DatePart(iso: string): (d: string)
    ensures d <= iso
    ensures 'T' !in d
    ensures |d| < |iso| ==> iso[|d|] == 'T'
    decreases |iso|
  {
    if |iso| == 0 || iso[0] == 'T' then "" else [iso[0]] + DatePart(iso[1..])
  }

  /** The export's file name for the current instant, given as its ISO text. */
  function ExportFileName(iso: string): (name: string)
    ensures Text.StartsWith(name, "Resultados_PCP_") && Text.EndsWith(name, ".xlsx")
    ensures |name| >= 20 && 'T' !in name[15..|name| - 5]
    ensures name[15..|name| - 5] == DatePart(iso)
    ensures name[15..|name| - 5] <= iso && (|name| - 20 < |iso| ==> iso[|name| - 20] == 'T')
  {
    "Resultados_PCP_" + DatePart(iso) + ".xlsx"
  }
}

=== FILE: rounding.dfy ===
/**
 * Two-decimal rounding as the metric functions perform it:
 * `Math.round(x * 100) / 100`. `Math.round` rounds halves towards +infinity,
 * so this is `floor(100 x + 0.5) / 100` (so -0.005 rounds to 0, not -0.01).
 */
module Rounding {

  /** `r` is a whole number of hundredths. */
  predicate IsCents(r: real) {
    (r * 100.0).Floor as real == r * 100.0
  }

  /** `r` is the cent value nearest to `x`, a tie going to the larger one. */
  predicate RoundsTo(x: real, r: real) {
    IsCents(r) && x - 0.005 < r <= x + 0.005
  }

  function Round2(x: real): (r: real)
    ensures RoundsTo(x, r)
  {
    ((x * 100.0 + 0.5).Floor as real) / 100.0
  }

  /** At most one cent value is nearest to `x`: `RoundsTo` specifies `Round2` completely. */
  lemma RoundsToUnique(x: real, r1: real, r2: real)
    requires RoundsTo(x, r1) && RoundsTo(x, r2)
    ensures r1 == r2
  {
    var k1 := (r1 * 100.0).Floor;
    var k2 := (r2 * 100.0).Floor;
    assert -1.0 < k1 as real - k2 as real < 1.0;
    assert k1 == k2;
  }

  /** Cent values are closed under subtraction. */
  lemma CentsDifference(a: real, b: real)
    requires IsCents(a) && IsCents(b)
    ensures IsCents(a - b)
  {
    var ka := (a * 100.0).Floor;
    var kb := (b * 100.0).Floor;
    assert (a - b) * 100.0 == (ka - kb) as real;
  }

  /** Rounding a cent value changes nothing; in particular `Round2` is idempotent. */
  lemma Round2OfCents(r: real)
    requires IsCents(r)
    ensures Round2(r) == r
  {
    RoundsToUnique(r, r, Round2(r));
  }

  lemma Round2Idempotent(x: real)
    ensures Round2(Round2(x)) == Round2(x)
  {
    Round2OfCents(Round2(x));
  }

  /** Rounding preserves order. */
  lemma Round2Monotonic(x: real, y: real)
    requires x <= y
    ensures Round2(x) <= Round2(y)
  {
    assert (x * 100.0 + 0.5).Floor <= (y * 100.0 + 0.5).Floor;
  }

  /** A non-negative value rounds to a non-negative value. */
  lemma Round2NonNegative(x: real)
    requires x >= 0.0
    ensures Round2(x) >= 0.0
  {
    Round2Monotonic(0.0, x);
    Round2OfCents(0.0);
  }

  /** Halves round up: 0.005 becomes 0.01 and -0.005 becomes 0. */
  lemma Round2HalvesUp()
    ensures Round2(0.005) == 0.01
    ensures Round2(-0.005) == 0.0
  {
  }
}

=== FILE: segundo_turno.dfy ===
/**
 * The second-shift import (`SegundoTurno`): each row is merged with the
 * record listed under its code, taking the first-shift quantities from that
 * record and the second-shift quantities from the row, and is derived afresh.
 * Rows whose code has no first shift are reported, and still written.
 */
module SegundoTurno {
  import opened Wrappers
  import opened Values
  import opened Calculations
  import opened Store
  import opened ShiftRows
  import Badges
  import Rounding
  import Seqs
  import Text

  /** `existingItem?.k || 0`: the listed value when truthy (not coerced), else 0. */
  function Carried(existing: Option<Record>, k: string): (v: Value)
    ensures existing.None? ==> v == Num(0.0)
    ensures existing.Some? && TruthyAt(existing.value, k) ==> v == existing.value[k]
    ensures existing.Some? && !TruthyAt(existing.value, k) ==> v == Num(0.0)
  {
    match existing
    case None => Num(0.0)
    case Some(e) => FirstTruthy(e, [k], Num(0.0))
  }

  const Turno2Aliases: seq<string> := ["2 TURNO", "TURNO2"]
  const Kg2Aliases: seq<string> := ["KG2", "KG"]
  const Cx2Aliases: seq<string> := ["CX2", "CXS"]

  /** The first-shift quantities, which a second-shift row takes from the listed record. */
  const FirstShiftKeys: set<string> := {"turno1", "kg", "cxs"}

  /**
   * The quantity `k` of a second-shift row merged with the listed record:
   * the first shift comes from the listed record, 0 when it is absent or
   * falsy; every other quantity is a number read from the row, `kg2` falling
   * back to `KG` and `cx2` to `CXS`.
   */
  function Shift2Cell(row: Record, existing: Option<Record>, k: string): (v: Value)
    requires k in InputKeys
    ensures k in FirstShiftKeys && existing.Some? && TruthyAt(existing.value, k) ==> v == existing.value[k]
    ensures k in FirstShiftKeys && (existing.None? || !TruthyAt(existing.value, k)) ==> v == Num(0.0)
    ensures k !in FirstShiftKeys ==> v.Num?
    ensures k == "kg2" && !TruthyAt(row, "KG2") && TruthyAt(row, "KG") ==> v == Num(ToNumber(row["KG"]))
    ensures k == "cx2" && !TruthyAt(row, "CX2") && TruthyAt(row, "CXS") ==> v == Num(ToNumber(row["CXS"]))
  {
    match k
    case "turno1" => Carried(existing, "turno1")
    case "kg" => Carried(existing, "kg")
    case "cxs" => Carried(existing, "cxs")
    case "turno2" => NumberCell(row, Turno2Aliases)
    case "kg2" =>
      assert Kg2Aliases[0] == "KG2" && Kg2Aliases[1] == "KG";
      NumberCell(row, Kg2Aliases)
    case "cx2" =>
      assert Cx2Aliases[0] == "CX2" && Cx2Aliases[1] == "CXS";
      NumberCell(row, Cx2Aliases)
    case _ => PackagingCell(row, k)
  }

  /** The record listed under the row's code, if any. */
  function Existing(listing: seq<Record>, row: Record): (o: Option<Record>)
    ensures o.Some? <==> FindByCode(listing, RowCode(row)).Some?
    ensures o.Some? ==> o.value == listing[FindByCode(listing, RowCode(row)).value]
  {
    match FindByCode(listing, RowCode(row))
    case None => None
    case Some(i) => Some(listing[i])
  }

  /** The derived record a second-shift row writes. */
  function Shift2Record(row: Record, existing: Option<Record>): Record {
    ProcessFullCalculations(ParsedItem(row, map k | k in InputKeys :: Shift2Cell(row, existing, k)))
  }

  /**
   * The row's code has no first shift: nothing is listed under it, or the
   * listed first-shift plan is exactly the number 0 (an undefined one is not).
   */
  function LacksFirstShift(listing: seq<Record>, row: Record): (b: bool)
    ensures (forall j | 0 <= j < |listing| :: !HasCode(listing[j], RowCode(row))) ==> b
    ensures forall i | 0 <= i < |listing| && HasCode(listing[i], RowCode(row)) &&
                       (forall j | 0 <= j < i :: !HasCode(listing[j], RowCode(row))) ::
              b <==> "turno1" in listing[i] && listing[i]["turno1"] == Num(0.0)
  {
    var existing := Existing(listing, row);
    existing.None? || ("turno1" in existing.value && existing.value["turno1"] == Num(0.0))
  }

  /** The divergence notice of a row. */
  function NoticeText(row: Record): string {
    "Produto " + RowCode(row) + ": Sem dados do 1° turno"
  }

  /**
   * What one second-shift row writes, before the store has its say: a code
   * nobody lists is added, merged with nothing; otherwise the first record
   * listed under the code is updated with the row merged into it, and the row
   * fails when that record has no id.
   */
  function Shift2Write(listing: seq<Record>, row: Record): (w: Result<Action, RowError>)
    ensures (forall j | 0 <= j < |listing| :: !HasCode(listing[j], RowCode(row))) <==> w.Success? && w.value.Add?
    ensures w.Success? && w.value.Add? ==> w == Success(Add(Shift2Record(row, None)))
    ensures w.Success? && w.value.Update? ==>
              exists i | 0 <= i < |listing| ::
                && FirstWithCode(listing, RowCode(row), i) && IdOf(listing[i]) == Some(w.value.id)
                && w.value.rec == Shift2Record(row, Some(listing[i]))
    ensures w.Failure? ==>
              w.error == MissingId && exists i | 0 <= i < |listing| :: FirstWithCode(listing, RowCode(row), i) && IdOf(listing[i]).None?
  {
    WriteFor(listing, RowCode(row), Shift2Record(row, None), Shift2Merge(row))
  }

  /** The update of a listed record: the row merged into it. */
  function Shift2Merge(row: Record): Record -> Record {
    (existing: Record) => Shift2Record(row, Some(existing))
  }

  /** The notices and per-row outcomes of a batch. */
  datatype Batch = Batch(notices: seq<string>, outcomes: seq<Result<Action, RowError>>)

  /**
   * `handleDataImported`: every row against the same listing. A notice is
   * recorded before the write is attempted, so it stays even if the write
   * fails; a failed write is logged and the batch goes on.
   */
  function ImportShift2(listing: seq<Record>, rows: seq<Record>, rejects: Action -> bool): (b: Batch)
    ensures |b.outcomes| == |rows|
    ensures forall i | 0 <= i < |rows| :: b.outcomes[i] == Attempt(Shift2Write(listing, rows[i]), rejects)
    ensures |b.notices| == Seqs.Count(rows, Lacking(listing))
    ensures Seqs.IsSubsequence(b.notices, Seqs.Map(rows, NoticeText))
  {
    AttemptsRows(rows, WriteAgainst(listing), rejects);
    Batch(Notices(listing, rows), Outcomes(listing, rows, rejects))
  }

  /** One notice per row lacking a first shift, in row order. */
  function Notices(listing: seq<Record>, rows: seq<Record>): (notices: seq<string>)
    ensures |notices| <= |rows|
    ensures forall row | row in rows && LacksFirstShift(listing, row) :: NoticeText(row) in notices
    ensures forall t | t in notices :: exists row | row in rows :: LacksFirstShift(listing, row) && t == NoticeText(row)
    ensures |notices| == Seqs.Count(rows, Lacking(listing))
    ensures Seqs.IsSubsequence(notices, Seqs.Map(rows, NoticeText))
  {
    Seqs.MapFilter(rows, Lacking(listing), NoticeText);
    Seqs.Map(Seqs.Filter(rows, Lacking(listing)), NoticeText)
  }

  /** `LacksFirstShift` against a fixed listing. */
  function Lacking(listing: seq<Record>): Record -> bool {
    (row: Record) => LacksFirstShift(listing, row)
  }

  /** The divergence alert: the first three notices as bullets, then how many more there are. */
  function AlertLines(notices: seq<string>): (lines: seq<string>)
    ensures |notices| <= 3 ==> |lines| == |notices|
    ensures |notices| > 3 ==> |lines| == 4 && lines[3] == "... e mais " + Text.NatText(|notices| - 3) + " divergências"
    ensures forall i | 0 <= i < |lines| && i < 3 :: lines[i] == "• " + notices[i]
  {
    var bullets := Seqs.Map(Seqs.Take(notices, 3), (t: string) => "• " + t);
    if |notices| > 3 then bullets + ["... e mais " + Text.NatText(|notices| - 3) + " divergências"] else bullets
  }

  /** The row outcomes of a second-shift batch. */
  function Outcomes(listing: seq<Record>, rows: seq<Record>, rejects: Action -> bool): (out: seq<Result<Action, RowError>>)
    ensures |out| == |rows|
  {
    Attempts(rows, WriteAgainst(listing), rejects)
  }

  /** `Shift2Write` against a fixed listing. */
  function WriteAgainst(listing: seq<Record>): Record -> Result<Action, RowError> {
    (row: Record) => Shift2Write(listing, row)
  }

  /** The written record: the row's texts, the merged quantities, fresh derived fields. */
  lemma Shift2Processed(row: Record, existing: Option<Record>)
    ensures Shift2Record(row, existing)["codigo"] == Str(RowCode(row))
    ensures forall k | k in InputKeys :: Shift2Record(row, existing)[k] == Shift2Cell(row, existing, k)
    ensures Consistent(Shift2Record(row, existing))
  {
    var q := map k | k in InputKeys :: Shift2Cell(row, existing, k);
    ProcessParsed(row, q);
  }

  /**
   * The written record takes the first shift from the listed record and the
   * second shift from the row, and every derived field is computed afresh.
   */
  lemma Shift2RecordFields(row: Record, existing: Option<Record>)
    ensures Shift2Record(row, existing)["codigo"] == Str(RowCode(row))
    ensures Shift2Record(row, existing)["turno1"] == Carried(existing, "turno1")
    ensures Shift2Record(row, existing)["kg"] == Carried(existing, "kg")
    ensures Shift2Record(row, existing)["cxs"] == Carried(existing, "cxs")
    ensures Shift2Record(row, existing)["turno2"] == NumberCell(row, Turno2Aliases)
    ensures Shift2Record(row, existing)["kg2"] == NumberCell(row, Kg2Aliases)
    ensures Shift2Record(row, existing)["cx2"] == NumberCell(row, Cx2Aliases)
    ensures Consistent(Shift2Record(row, existing))
  {
    Shift2Processed(row, existing);
    assert "turno1" in InputKeys && "kg" in InputKeys && "cxs" in InputKeys;
    assert "turno2" in InputKeys && "kg2" in InputKeys && "cx2" in InputKeys;
    Shift2Cells(row, existing);
  }

  lemma Shift2Cells(row: Record, existing: Option<Record>)
    ensures Shift2Cell(row, existing, "turno1") == Carried(existing, "turno1")
    ensures Shift2Cell(row, existing, "kg") == Carried(existing, "kg")
    ensures Shift2Cell(row, existing, "cxs") == Carried(existing, "cxs")
    ensures Shift2Cell(row, existing, "turno2") == NumberCell(row, Turno2Aliases)
    ensures Shift2Cell(row, existing, "kg2") == NumberCell(row, Kg2Aliases)
    ensures Shift2Cell(row, existing, "cx2") == NumberCell(row, Cx2Aliases)
  {
  }

  /** A listed code with a document id is updated in place. */
  lemma Shift2UpdatesListed(listing: seq<Record>, row: Record, i: nat, id: string)
    requires FindByCode(listing, RowCode(row)) == Some(i)
    requires IdOf(listing[i]) == Some(id)
    ensures Existing(listing, row) == Some(listing[i])
    ensures Shift2Write(listing, row) == Success(Update(id, Shift2Record(row, Existing(listing, row))))
  {
  }

  /** A code not yet listed is added, with an empty first shift and a notice. */
  lemma Shift2AddsNewCode(listing: seq<Record>, row: Record)
    requires FindByCode(listing, RowCode(row)).None?
    ensures Shift2Write(listing, row) == Success(Add(Shift2Record(row, Existing(listing, row))))
    ensures LacksFirstShift(listing, row)
    ensures Shift2Record(row, Existing(listing, row))["turno1"] == Num(0.0)
    ensures Shift2Record(row, Existing(listing, row))["kg"] == Num(0.0)
  {
    Shift2RecordFields(row, Existing(listing, row));
  }

  /** A row with a notice is written all the same; only a missing document id stops it. */
  lemma NoticedRowIsWritten(listing: seq<Record>, row: Record)
    requires LacksFirstShift(listing, row)
    ensures Shift2Write(listing, row).Success? <==>
              (FindByCode(listing, RowCode(row)).None? || IdOf(listing[FindByCode(listing, RowCode(row)).value]).Some?)
  {
  }

  /**
   * The notice tests for the number 0 strictly: a listed record whose first
   * shift is undefined gets no notice, yet is merged with a first shift of 0.
   */
  lemma UndefinedFirstShiftIsNotNoticed(listing: seq<Record>, row: Record)
    requires Existing(listing, row).Some? && "turno1" !in Existing(listing, row).value
    ensures !LacksFirstShift(listing, row)
    ensures Shift2Record(row, Existing(listing, row))["turno1"] == Num(0.0)
  {
    Shift2RecordFields(row, Existing(listing, row));
  }

  /**
   * Both shifts of one product: the listed first shift planned 100 kg and made
   * 90, the second planned 100 and made 95, so together 185 kg at 92.5 %,
   * 15 kg short.
   */
  lemma ShiftsCombine()
    ensures Shift2Write(CombinedListing, CombinedRow) == Success(Update("doc1", Shift2Record(CombinedRow, Some(CombinedListed))))
    ensures Shift2Record(CombinedRow, Some(CombinedListed))["kgtd"] == Num(185.0)
    ensures Shift2Record(CombinedRow, Some(CombinedListed))["ctptd"] == Num(92.5)
    ensures Shift2Record(CombinedRow, Some(CombinedListed))["diferencaPrKg"] == Num(-15.0)
  {
    CombinedFacts();
    Shift2UpdatesListed(CombinedListing, CombinedRow, 0, "doc1");
    CombinedTotals();
  }

  lemma CombinedTotals()
    ensures Shift2Record(CombinedRow, Some(CombinedListed))["kgtd"] == Num(185.0)
    ensures Shift2Record(CombinedRow, Some(CombinedListed))["ctptd"] == Num(92.5)
    ensures Shift2Record(CombinedRow, Some(CombinedListed))["diferencaPrKg"] == Num(-15.0)
  {
    var r := Shift2Record(CombinedRow, Some(CombinedListed));
    CombinedQuantities();
    Shift2Processed(CombinedRow, Some(CombinedListed));
    ConsistentTotals(r);
    CombinedMetrics();
  }

  lemma CombinedFacts()
    ensures RowCode(CombinedRow) == "P1"
    ensures FindByCode(CombinedListing, "P1") == Some(0)
    ensures IdOf(CombinedListed) == Some("doc1")
  {
  }

  lemma CombinedQuantities()
    ensures QuantitiesOf(Shift2Record(CombinedRow, Some(CombinedListed))).turno1 == 100.0
    ensures QuantitiesOf(Shift2Record(CombinedRow, Some(CombinedListed))).kg == 90.0
    ensures QuantitiesOf(Shift2Record(CombinedRow, Some(CombinedListed))).turno2 == 100.0
    ensures QuantitiesOf(Shift2Record(CombinedRow, Some(CombinedListed))).kg2 == 95.0
  {
    Shift2RecordFields(CombinedRow, Some(CombinedListed));
    CombinedCells();
  }

  lemma CombinedCells()
    ensures Carried(Some(CombinedListed), "turno1") == Num(100.0)
    ensures Carried(Some(CombinedListed), "kg") == Num(90.0)
    ensures NumberCell(CombinedRow, Turno2Aliases) == Num(100.0)
    ensures NumberCell(CombinedRow, Kg2Aliases) == Num(95.0)
  {
  }

  lemma CombinedMetrics()
    ensures KGTD(90.0, 95.0) == 185.0
    ensures CTPTD(185.0, 100.0, 100.0) == 92.5
    ensures DiferencaPrKg(185.0, 100.0, 100.0) == -15.0
  {
    Rounding.Round2OfCents(185.0);
    Rounding.Round2OfCents(92.5);
    Rounding.Round2OfCents(-15.0);
  }

  /** The records shown in the second-shift table (`turno2Data`). */
  function Shift2Rows(listing: seq<Record>): (shown: seq<Record>)
    ensures forall item | item in listing :: item in shown <==> Field(item, "turno2") > 0.0
    ensures Seqs.IsSubsequence(shown, listing)
    ensures |shown| + Seqs.Count(listing, Unplanned2) == |listing|
  {
    Seqs.FilterIsSubsequence(listing, Planned2);
    Seqs.CountSplit(listing, Planned2, Unplanned2);
    Seqs.Filter(listing, Planned2)
  }

  /** `item.turno2 > 0`. */
  predicate Planned2(item: Record) {
    Field(item, "turno2") > 0.0
  }

  /** A record the second-shift table leaves out. */
  predicate Unplanned2(item: Record) {
    !Planned2(item)
  }

  /** The second-shift summary cards: the table's records, their produced kg and their mean CTP2. */
  function Shift2Summary(listing: seq<Record>): (s: Summary)
    ensures s.produtos == |Shift2Rows(listing)| <= |listing|
    ensures s.totalKg == Seqs.Sum(Shift2Rows(listing), FieldOf("kg2"))
    ensures |Shift2Rows(listing)| > 0 ==> s.eficienciaMedia == Seqs.Sum(Shift2Rows(listing), FieldOf("ctp2")) / |Shift2Rows(listing)| as real
  {
    SummaryOf(Shift2Rows(listing), "kg2", "ctp2")
  }

  /** When every listed record has a second-shift plan, the cards cover the whole listing. */
  lemma Shift2SummaryOfAllPlanned(listing: seq<Record>)
    requires forall i | 0 <= i < |listing| :: Planned2(listing[i])
    ensures Shift2Summary(listing).produtos == |listing|
    ensures Shift2Summary(listing).totalKg == Seqs.Sum(listing, FieldOf("kg2"))
  {
    Seqs.FilterKeepsAll(listing, Planned2);
  }

  /** The records compared shift against shift (`comparativeData`). */
  function ComparativeRows(listing: seq<Record>): (shown: seq<Record>)
    ensures forall item | item in listing ::
              item in shown <==> Field(item, "turno1") > 0.0 && Field(item, "turno2") > 0.0
    ensures Seqs.IsSubsequence(shown, listing)
    ensures |shown| + Seqs.Count(listing, NotBothPlanned) == |listing|
  {
    Seqs.FilterIsSubsequence(listing, BothPlanned);
    Seqs.CountSplit(listing, BothPlanned, NotBothPlanned);
    Seqs.Filter(listing, BothPlanned)
  }

  /** `item.turno1 > 0 && item.turno2 > 0`: a plan in both shifts. */
  predicate BothPlanned(item: Record) {
    Field(item, "turno1") > 0.0 && Field(item, "turno2") > 0.0
  }

  /** A record the comparison leaves out. */
  predicate NotBothPlanned(item: Record) {
    !BothPlanned(item)
  }

  /** Every compared record is also in the second-shift table. */
  lemma ComparedAreSecondShiftRows(listing: seq<Record>)
    ensures forall item | item in ComparativeRows(listing) :: item in Shift2Rows(listing)
  {
  }

  function Abs(x: real): real {
    if x < 0.0 then -x else x
  }

  /** `calcularDivergencia`: the gap between two amounts as a percentage of their mean. */
  function Divergence(a: real, b: real): (d: real)
    ensures (a + b) / 2.0 <= 0.0 ==> d == 0.0
    ensures (a + b) / 2.0 > 0.0 ==> d * (a + b) == Abs(a - b) * 200.0
  {
    var media := (a + b) / 2.0;
    if media > 0.0 then Abs(a - b) / media * 100.0 else 0.0
  }

  /** The divergence does not depend on which shift comes first. */
  lemma DivergenceSymmetric(a: real, b: real)
    ensures Divergence(a, b) == Divergence(b, a)
  {
    assert Abs(a - b) == Abs(b - a);
  }

  /**
   * For amounts that are not negative the divergence lies between 0 (equal
   * amounts) and 200 % (one of them zero).
   */
  lemma DivergenceBounds(a: real, b: real)
    requires a >= 0.0 && b >= 0.0
    ensures 0.0 <= Divergence(a, b) <= 200.0
    ensures Divergence(a, b) == 0.0 <==> a == b
    ensures a + b > 0.0 ==> (Divergence(a, b) == 200.0 <==> a == 0.0 || b == 0.0)
  {
    var d := Divergence(a, b);
    if a + b > 0.0 {
      assert d * (a + b) == Abs(a - b) * 200.0;
      assert Abs(a - b) <= a + b;
      if d < 0.0 {
        PositiveProduct(-d, a + b);
      }
      assert Abs(a - b) * 200.0 <= 200.0 * (a + b);
      ScaleBound(d, 200.0, a + b);
      if d == 200.0 {
        assert Abs(a - b) == a + b;
      }
      if a == 0.0 || b == 0.0 {
        assert Abs(a - b) == a + b;
        assert d * (a + b) == 200.0 * (a + b);
      }
      if d == 0.0 {
        assert Abs(a - b) == 0.0;
      }
    }
  }

  /** Dividing both sides of `x * y <= z * y` by a positive `y`. */
  lemma ScaleBound(x: real, z: real, y: real)
    requires y > 0.0 && x * y <= z * y
    ensures x <= z
  {
    assert (x - z) * y == x * y - z * y;
    if x > z {
      PositiveProduct(x - z, y);
    }
  }

  lemma PositiveProduct(x: real, y: real)
    requires x > 0.0 && y > 0.0
    ensures x * y > 0.0
  {
  }

  /** A first shift of 100 against a second of 50 diverges by two thirds. */
  lemma DivergenceExample()
    ensures Divergence(100.0, 50.0) == 200.0 / 3.0
  {
  }

  /** `divergencia < 10 ? "default" : divergencia < 25 ? "secondary" : "destructive"`. */
  function DivergenceVariant(d: real): (v: Badges.Variant)
    ensures v == Badges.Default <==> d < 10.0
    ensures v == Badges.Destructive <==> d >= 25.0
  {
    if d < 10.0 then Badges.Default else if d < 25.0 then Badges.Secondary else Badges.Destructive
  }

  /** `divergencia < 10 ? "Normal" : "Atenção"`. */
  function DivergenceStatus(d: real): (status: string)
    ensures status == "Normal" <==> d < 10.0
  {
    if d < 10.0 then "Normal" else "Atenção"
  }

  /** One line of the shift comparison table. */
  datatype Comparison = Comparison(codigo: string, diferenca: real, divergencia: real, variant: Badges.Variant, status: string)

  function Compare(item: Record): (c: Comparison)
    ensures c.codigo == TextField(item, "codigo")
    ensures c.diferenca == Field(item, "kg2") - Field(item, "kg")
    ensures c.diferenca >= 0.0 <==> Field(item, "kg2") >= Field(item, "kg")
    ensures c.divergencia == Divergence(Field(item, "kg"), Field(item, "kg2"))
    ensures c.variant == DivergenceVariant(c.divergencia) && c.status == DivergenceStatus(c.divergencia)
    ensures c.status == "Normal" <==> c.variant == Badges.Default
    ensures c.variant == Badges.Destructive <==> c.divergencia >= 25.0
  {
    var divergencia := Divergence(Field(item, "kg"), Field(item, "kg2"));
    Comparison(TextField(item, "codigo"), Field(item, "kg2") - Field(item, "kg"), divergencia,
               DivergenceVariant(divergencia), DivergenceStatus(divergencia))
  }

  /** A larger gap never earns a better badge. */
  lemma DivergenceVariantAntitone(d: real, e: real)
    requires d <= e
    ensures Badges.Rank(DivergenceVariant(e)) <= Badges.Rank(DivergenceVariant(d))
  {
  }

  /** The second-shift row of product P1: 100 kg planned, 95 kg produced. */
  const CombinedRow: Record := map["CÓDIGO" := Str("P1"), "2 TURNO" := Num(100.0), "KG2" := Num(95.0)]

  /** P1 as listed after its first shift: 100 kg planned, 90 kg produced. */
  const CombinedListed: Record := map["id" := Str("doc1"), "codigo" := Str("P1"), "turno1" := Num(100.0), "kg" := Num(90.0)]

  const CombinedListing: seq<Record> := [CombinedListed]
}

=== FILE: seqs.dfy ===
/**
 * The array reductions the pages use (`filter`, `reduce` as a sum, the
 * `[...new Set(xs)]` idiom, `slice(0, n)`), each defined once and proved
 * about once.
 */
module Seqs {

  /** `xs.reduce((sum, x) => sum + f(x), 0)`: one element sums to its own value. */
  function Sum<T>(xs: seq<T>, f: T -> real): (s: real)
    ensures |xs| == 1 ==> s == f(xs[0])
    decreases |xs|
  {
    assert |xs| == 1 ==> xs[..0] == [];
    if |xs| == 0 then 0.0 else Sum(xs[..|xs| - 1], f) + f(xs[|xs| - 1])
  }

  lemma {:induction false} SumAppend<T>(a: seq<T>, b: seq<T>, f: T -> real)
    ensures Sum(a + b, f) == Sum(a, f) + Sum(b, f)
    decreases |b|
  {
    if |b| == 0 {
      assert a + b == a;
    } else {
      assert (a + b)[..|a + b| - 1] == a + b[..|b| - 1];
      SumAppend(a, b[..|b| - 1], f);
    }
  }

  /** A sum of non-negative terms is non-negative. */
  lemma {:induction false} SumNonNegative<T>(xs: seq<T>, f: T -> real)
    requires forall i | 0 <= i < |xs| :: f(xs[i]) >= 0.0
    ensures Sum(xs, f) >= 0.0
    decreases |xs|
  {
    if |xs| > 0 {
      SumNonNegative(xs[..|xs| - 1], f);
    }
  }

  /** A sum of terms between `lo` and `hi` lies between `|xs|` times each. */
  lemma {:induction false} SumBounds<T>(xs: seq<T>, f: T -> real, lo: real, hi: real)
    requires forall i | 0 <= i < |xs| :: lo <= f(xs[i]) <= hi
    ensures |xs| as real * lo <= Sum(xs, f) <= |xs| as real * hi
    decreases |xs|
  {
    if |xs| > 0 {
      SumBounds(xs[..|xs| - 1], f, lo, hi);
    }
  }

  /** Summing a pointwise sum is summing each term. */
  lemma {:induction false} SumPointwise<T>(xs: seq<T>, f: T -> real, g: T -> real, h: T -> real)
    requires forall i | 0 <= i < |xs| :: h(xs[i]) == f(xs[i]) + g(xs[i])
    ensures Sum(xs, h) == Sum(xs, f) + Sum(xs, g)
    decreases |xs|
  {
    if |xs| > 0 {
      SumPointwise(xs[..|xs| - 1], f, g, h);
    }
  }

  /** Summing a pointwise difference is taking the difference of the sums. */
  lemma {:induction false} SumPointwiseDifference<T>(xs: seq<T>, f: T -> real, g: T -> real, h: T -> real)
    requires forall i | 0 <= i < |xs| :: h(xs[i]) == f(xs[i]) - g(xs[i])
    ensures Sum(xs, h) == Sum(xs, f) - Sum(xs, g)
    decreases |xs|
  {
    if |xs| > 0 {
      SumPointwiseDifference(xs[..|xs| - 1], f, g, h);
    }
  }

  /** `xs.filter(p)`. */
  function Filter<T(!new)>(xs: seq<T>, p: T -> bool): (r: seq<T>)
    ensures |r| <= |xs|
    ensures forall i | 0 <= i < |r| :: p(r[i])
    ensures forall x :: x in r <==> x in xs && p(x)
    decreases |xs|
  {
    if |xs| == 0 then []
    else
      var init := Filter(xs[..|xs| - 1], p);
      assert forall x :: x in xs <==> x in xs[..|xs| - 1] || x == xs[|xs| - 1];
      if p(xs[|xs| - 1]) then init + [xs[|xs| - 1]] else init
  }

  lemma {:induction false} FilterAppend<T(!new)>(a: seq<T>, b: seq<T>, p: T -> bool)
    ensures Filter(a + b, p) == Filter(a, p) + Filter(b, p)
    decreases |b|
  {
    if |b| == 0 {
      assert a + b == a;
    } else {
      assert (a + b)[..|a + b| - 1] == a + b[..|b| - 1];
      FilterAppend(a, b[..|b| - 1], p);
    }
  }

  /** `a` is `b` with some elements left out, order kept. */
  ghost predicate IsSubsequence<T>(a: seq<T>, b: seq<T>)
    decreases |b|
  {
    if |a| == 0 then true
    else if |b| == 0 then false
    else if a[|a| - 1] == b[|b| - 1] then IsSubsequence(a[..|a| - 1], b[..|b| - 1])
    else IsSubsequence(a, b[..|b| - 1])
  }

  /** Filtering keeps the surviving elements in their original order. */
  lemma {:induction false} FilterIsSubsequence<T(!new)>(xs: seq<T>, p: T -> bool)
    ensures IsSubsequence(Filter(xs, p), xs)
    decreases |xs|
  {
    if |xs| > 0 {
      var init := xs[..|xs| - 1];
      FilterIsSubsequence(init, p);
      if p(xs[|xs| - 1]) {
        var r := Filter(xs, p);
        assert r[..|r| - 1] == Filter(init, p);
      } else {
        var r := Filter(xs, p);
        if |r| > 0 {
          assert p(r[|r| - 1]);
        }
      }
    }
  }

  /** A subsequence stays one when an element is appended to the longer sequence. */
  lemma {:induction false} SubsequenceSnoc<T>(a: seq<T>, b: seq<T>, x: T)
    requires IsSubsequence(a, b)
    ensures IsSubsequence(a, b + [x])
    decreases |b|, 1
  {
    var c := b + [x];
    assert c[..|c| - 1] == b;
    if |a| > 0 && a[|a| - 1] == x {
      SubsequenceDropLast(a, b);
    }
  }

  /** Dropping the last element of a subsequence leaves a subsequence. */
  lemma {:induction false} SubsequenceDropLast<T>(a: seq<T>, b: seq<T>)
    requires |a| > 0 && IsSubsequence(a, b)
    ensures IsSubsequence(a[..|a| - 1], b)
    decreases |b|, 0
  {
    var init := b[..|b| - 1];
    assert init + [b[|b| - 1]] == b;
    if a[|a| - 1] == b[|b| - 1] {
      SubsequenceSnoc(a[..|a| - 1], init, b[|b| - 1]);
    } else {
      if |a| > 1 {
        SubsequenceDropLast(a, init);
      }
      SubsequenceSnoc(a[..|a| - 1], init, b[|b| - 1]);
    }
  }

  /** Mapping both sides keeps a subsequence a subsequence. */
  lemma {:induction false} MapSubsequence<T, U>(a: seq<T>, b: seq<T>, f: T -> U)
    requires IsSubsequence(a, b)
    ensures IsSubsequence(Map(a, f), Map(b, f))
    decreases |b|
  {
    if |a| > 0 {
      var mb := Map(b, f);
      assert mb[..|mb| - 1] == Map(b[..|b| - 1], f);
      if a[|a| - 1] == b[|b| - 1] {
        MapSubsequence(a[..|a| - 1], b[..|b| - 1], f);
        var ma := Map(a, f);
        assert ma[..|ma| - 1] == Map(a[..|a| - 1], f);
      } else {
        MapSubsequence(a, b[..|b| - 1], f);
        SubsequenceSnoc(Map(a, f), Map(b[..|b| - 1], f), f(b[|b| - 1]));
        assert Map(b[..|b| - 1], f) + [f(b[|b| - 1])] == mb;
      }
    }
  }

  /** `xs.filter(p).map(f)`: one image per kept element, in order, and nothing else. */
  lemma {:induction false} MapFilter<T(!new), U>(xs: seq<T>, p: T -> bool, f: T -> U)
    ensures forall x | x in xs && p(x) :: f(x) in Map(Filter(xs, p), f)
    ensures forall y | y in Map(Filter(xs, p), f) :: exists x | x in xs :: p(x) && y == f(x)
    ensures IsSubsequence(Map(Filter(xs, p), f), Map(xs, f))
  {
    var kept := Filter(xs, p);
    var images := Map(kept, f);
    forall x | x in xs && p(x)
      ensures f(x) in images
    {
      var j :| 0 <= j < |kept| && kept[j] == x;
      assert images[j] == f(x);
    }
    forall y | y in images
      ensures exists x | x in xs :: p(x) && y == f(x)
    {
      var j :| 0 <= j < |images| && images[j] == y;
      assert kept[j] in xs && p(kept[j]);
    }
    FilterIsSubsequence(xs, p);
    MapSubsequence(kept, xs, f);
  }

  /** The number of elements satisfying `p`: `xs.filter(p).length`. */
  function Count<T(!new)>(xs: seq<T>, p: T -> bool): (n: nat)
    ensures n <= |xs|
  {
    |Filter(xs, p)|
  }

  /** The elements that satisfy `p` and those that satisfy its complement `q` add up to all. */
  lemma {:induction false} SumFilterSplit<T(!new)>(xs: seq<T>, p: T -> bool, q: T -> bool, f: T -> real)
    requires forall x :: q(x) <==> !p(x)
    ensures Sum(Filter(xs, p), f) + Sum(Filter(xs, q), f) == Sum(xs, f)
    decreases |xs|
  {
    if |xs| > 0 {
      var init := xs[..|xs| - 1];
      var last := xs[|xs| - 1];
      SumFilterSplit(init, p, q, f);
      if p(last) {
        SumAppend(Filter(init, p), [last], f);
        assert Sum([last], f) == f(last) by { assert [last][..0] == []; }
      } else {
        SumAppend(Filter(init, q), [last], f);
        assert Sum([last], f) == f(last) by { assert [last][..0] == []; }
      }
    }
  }

  /** The elements counted by `p` and by its complement `q` are all of them. */
  lemma {:induction false} CountSplit<T(!new)>(xs: seq<T>, p: T -> bool, q: T -> bool)
    requires forall x :: q(x) <==> !p(x)
    ensures Count(xs, p) + Count(xs, q) == |xs|
    decreases |xs|
  {
    if |xs| > 0 {
      CountSplit(xs[..|xs| - 1], p, q);
    }
  }

  ghost predicate NoDuplicates<T>(xs: seq<T>) {
    forall i, j | 0 <= i < j < |xs| :: xs[i] != xs[j]
  }

  /** A duplicate-free sequence holding nothing but `a` has at most one element. */
  lemma AtMostOneOf<T>(xs: seq<T>, a: T)
    requires NoDuplicates(xs)
    requires forall x | x in xs :: x == a
    ensures |xs| <= 1
  {
    OccurrencesOfOnly(xs, a);
    OccurrencesInDistinct(xs, a);
  }

  /** In a sequence holding nothing but `a`, every element is an occurrence of `a`. */
  lemma {:induction false} OccurrencesOfOnly<T>(xs: seq<T>, a: T)
    requires forall x | x in xs :: x == a
    ensures multiset(xs)[a] == |xs|
    decreases |xs|
  {
    if |xs| > 0 {
      var init := xs[..|xs| - 1];
      assert init + [xs[|xs| - 1]] == xs;
      assert forall x | x in init :: x in xs;
      OccurrencesOfOnly(init, a);
      assert xs[|xs| - 1] in xs;
      assert multiset(xs) == multiset(init) + multiset{xs[|xs| - 1]};
    }
  }

  /** A duplicate-free sequence holds each value at most once. */
  lemma {:induction false} OccurrencesInDistinct<T>(xs: seq<T>, a: T)
    requires NoDuplicates(xs)
    ensures multiset(xs)[a] <= 1
    decreases |xs|
  {
    if |xs| > 0 {
      var init := xs[..|xs| - 1];
      assert init + [xs[|xs| - 1]] == xs;
      OccurrencesInDistinct(init, a);
      if xs[|xs| - 1] == a {
        assert a !in init;
      }
    }
  }

  /** `[...new Set(xs)]`: each element of `xs` once, in the order of `xs`. */
  function Distinct<T(==,!new)>(xs: seq<T>): (r: seq<T>)
    ensures NoDuplicates(r)
    ensures forall x :: x in r <==> x in xs
    ensures IsSubsequence(r, xs)
    ensures |r| <= |xs|
    decreases |xs|
  {
    if |xs| == 0 then []
    else
      var init := Distinct(xs[..|xs| - 1]);
      var last := xs[|xs| - 1];
      assert forall x :: x in xs <==> x in xs[..|xs| - 1] || x == last;
      assert xs[..|xs| - 1] + [last] == xs;
      if last in init then
        SubsequenceSnoc(init, xs[..|xs| - 1], last);
        init
      else
        assert (init + [last])[..|init|] == init;
        init + [last]
  }

  /** Filtering a duplicate-free sequence keeps it duplicate-free. */
  lemma {:induction false} FilterNoDuplicates<T(!new)>(xs: seq<T>, p: T -> bool)
    requires NoDuplicates(xs)
    ensures NoDuplicates(Filter(xs, p))
    decreases |xs|
  {
    if |xs| > 0 {
      var init := xs[..|xs| - 1];
      FilterNoDuplicates(init, p);
      assert xs[|xs| - 1] !in init;
    }
  }

  /** A filter whose predicate holds everywhere keeps the whole sequence. */
  lemma {:induction false} FilterKeepsAll<T(!new)>(xs: seq<T>, p: T -> bool)
    requires forall i | 0 <= i < |xs| :: p(xs[i])
    ensures Filter(xs, p) == xs
    decreases |xs|
  {
    if |xs| > 0 {
      FilterKeepsAll(xs[..|xs| - 1], p);
      assert xs[..|xs| - 1] + [xs[|xs| - 1]] == xs;
    }
  }

  /** Filters by two predicates that agree everywhere are the same. */
  lemma {:induction false} FilterEquivalent<T(!new)>(xs: seq<T>, p: T -> bool, q: T -> bool)
    requires forall x :: p(x) == q(x)
    ensures Filter(xs, p) == Filter(xs, q)
    decreases |xs|
  {
    if |xs| > 0 {
      FilterEquivalent(xs[..|xs| - 1], p, q);
    }
  }

  /** `xs.slice(0, n)`. */
  function Take<T>(xs: seq<T>, n: nat): (r: seq<T>)
    ensures |r| == if n < |xs| then n else |xs|
    ensures forall i | 0 <= i < |r| :: r[i] == xs[i]
  {
    if n < |xs| then xs[..n] else xs
  }

  /** `xs.map(f)`. */
  function Map<T, U>(xs: seq<T>, f: T -> U): (r: seq<U>)
    ensures |r| == |xs|
    ensures forall i | 0 <= i < |xs| :: r[i] == f(xs[i])
  {
    seq(|xs|, i requires 0 <= i < |xs| => f(xs[i]))
  }
}

=== FILE: shift_rows.dfy ===
/**
 * The spreadsheet columns both shift imports read the same way: the product
 * code, the descriptive texts and the three packaging quantities, each taken
 * from the first truthy of its column aliases.
 */
module ShiftRows {
  import opened Values
  import opened Calculations
  import Types
  import Seqs

  const CodeAliases: seq<string> := ["CÓDIGO", "CODIGO"]

  /** `String(row[a0] || row[a1] || ... || '')`. */
  function TextCell(row: Record, aliases: seq<string>): (v: Value)
    ensures v.Str?
    ensures (forall i | 0 <= i < |aliases| :: !TruthyAt(row, aliases[i])) ==> v == Str("")
    ensures |aliases| > 0 && TruthyAt(row, aliases[0]) && row[aliases[0]].Str? ==> v == row[aliases[0]]
    ensures forall i | 0 <= i < |aliases| && TruthyAt(row, aliases[i]) ::
              (forall j | 0 <= j < i :: !TruthyAt(row, aliases[j])) ==> v == Str(Show(row[aliases[i]]))
  {
    Str(Show(FirstTruthy(row, aliases, Str(""))))
  }

  /** `Number(row[a0] || row[a1] || ... || 0)`. */
  function NumberCell(row: Record, aliases: seq<string>): (v: Value)
    ensures v.Num?
    ensures (forall i | 0 <= i < |aliases| :: !TruthyAt(row, aliases[i])) ==> v == Num(0.0)
    ensures |aliases| > 0 && TruthyAt(row, aliases[0]) && row[aliases[0]].Num? ==> v == row[aliases[0]]
    ensures forall i | 0 <= i < |aliases| && TruthyAt(row, aliases[i]) ::
              (forall j | 0 <= j < i :: !TruthyAt(row, aliases[j])) ==> v == Num(ToNumber(row[aliases[i]]))
  {
    Num(ToNumber(FirstTruthy(row, aliases, Num(0.0))))
  }

  /** The product code of a row; a row with neither code column gets the empty code. */
  function RowCode(row: Record): (code: string)
    ensures !TruthyAt(row, "CÓDIGO") && !TruthyAt(row, "CODIGO") ==> code == ""
    ensures TruthyAt(row, "CÓDIGO") && row["CÓDIGO"].Str? ==> code == row["CÓDIGO"].s
    ensures TruthyAt(row, "CÓDIGO") ==> code == Show(row["CÓDIGO"])
    ensures !TruthyAt(row, "CÓDIGO") && TruthyAt(row, "CODIGO") ==> code == Show(row["CODIGO"])
  {
    assert CodeAliases[0] == "CÓDIGO" && CodeAliases[1] == "CODIGO";
    TextCell(row, CodeAliases).s
  }

  /** The descriptive field `k` of a parsed row. */
  function DescriptiveCell(row: Record, k: string): Value
    requires k in Types.TextKeys
  {
    match k
    case "codigo" => Str(RowCode(row))
    case "descricaoProduto" => TextCell(row, ["DESCRIÇÃO PRODUTO", "DESCRICAO PRODUTO"])
    case "maquina" => TextCell(row, ["MÁQUINA", "MAQUINA"])
    case "embalagem" => TextCell(row, ["EMBALAGEM"])
    case "classificacao" => TextCell(row, ["CLASSIFICAÇÃO", "CLASSIFICACAO"])
  }

  /** The packaging quantities, read the same way by both imports. */
  function PackagingCell(row: Record, k: string): (v: Value)
    requires k in {"unCx", "pesoLiqUnitKg", "batchReceitaKg"}
    ensures v.Num?
  {
    match k
    case "unCx" => NumberCell(row, ["UN/CX", "UN_CX"])
    case "pesoLiqUnitKg" => NumberCell(row, ["PESO LIQ UNIT KG", "PESO_LIQ_UNIT_KG"])
    case "batchReceitaKg" => NumberCell(row, ["BATCH RECEITA KG", "BATCH_RECEITA_KG"])
  }

  /** A parsed row (`pcpItem`): the descriptive fields and the nine quantities `q`. */
  function ParsedItem(row: Record, q: Record): (item: Record)
    requires q.Keys == InputKeys
    ensures item.Keys == Types.TextKeys + InputKeys
  {
    (map k | k in Types.TextKeys :: DescriptiveCell(row, k)) + q
  }

  /**
   * Deriving a parsed row: every descriptive field and every quantity is kept,
   * and every derived field agrees with the quantities.
   */
  lemma ProcessParsed(row: Record, q: Record)
    requires q.Keys == InputKeys
    ensures ProcessFullCalculations(ParsedItem(row, q)).Keys == Types.TextKeys + InputKeys + DerivedKeys
    ensures forall k | k in Types.TextKeys :: ProcessFullCalculations(ParsedItem(row, q))[k] == DescriptiveCell(row, k)
    ensures forall k | k in InputKeys :: ProcessFullCalculations(ParsedItem(row, q))[k] == q[k]
    ensures Consistent(ProcessFullCalculations(ParsedItem(row, q)))
  {
    var item := ParsedItem(row, q);
    Types.TextKeysDisjoint();
    KeySetsDisjoint();
    assert item.Keys !! DerivedKeys;
    forall k | k in Types.TextKeys
      ensures ProcessFullCalculations(item)[k] == DescriptiveCell(row, k)
    {
      assert k !in q;
    }
  }

  /** The three summary cards of a shift page: products shown, produced kg, mean efficiency. */
  datatype Summary = Summary(produtos: nat, totalKg: real, eficienciaMedia: real)

  /** The field `k` of a record, as the cards read it. */
  function FieldOf(k: string): Record -> real {
    (item: Record) => Field(item, k)
  }

  /** The cards over the shown records: their number, their summed `kg`, their mean `ctp` (0 for none). */
  function SummaryOf(shown: seq<Record>, kg: string, ctp: string): (s: Summary)
    ensures s.produtos == |shown|
    ensures s.totalKg == Seqs.Sum(shown, FieldOf(kg))
    ensures |shown| == 0 ==> s.eficienciaMedia == 0.0
    ensures |shown| > 0 ==> s.eficienciaMedia == Seqs.Sum(shown, FieldOf(ctp)) / |shown| as real
  {
    Summary(|shown|, Seqs.Sum(shown, FieldOf(kg)),
            if |shown| > 0 then Seqs.Sum(shown, FieldOf(ctp)) / |shown| as real else 0.0)
  }

  /** The mean efficiency card lies between the lowest and the highest efficiency shown. */
  lemma MeanWithinRange(shown: seq<Record>, kg: string, ctp: string, lo: real, hi: real)
    requires |shown| > 0
    requires forall i | 0 <= i < |shown| :: lo <= Field(shown[i], ctp) <= hi
    ensures lo <= SummaryOf(shown, kg, ctp).eficienciaMedia <= hi
  {
    var n := |shown| as real;
    var m := SummaryOf(shown, kg, ctp).eficienciaMedia;
    Seqs.SumBounds(shown, FieldOf(ctp), lo, hi);
    assert (m - lo) * n >= 0.0 && (hi - m) * n >= 0.0;
    NonNegativeFactor(m - lo, n);
    NonNegativeFactor(hi - m, n);
  }

  /** A product that is not negative, with a positive factor, has a non-negative other factor. */
  lemma NonNegativeFactor(x: real, n: real)
    requires n > 0.0 && x * n >= 0.0
    ensures x >= 0.0
  {
  }
}

=== FILE: sistema.dfy ===
/**
 * The system page (`Sistema`): the production-targets form, its initial
 * values drawn from the stored targets, its validation schema, and the
 * document it saves.
 */
module Sistema {
  import opened Wrappers

  /** The efficiency parameters nested in the stored targets; a field may be missing. */
  datatype Params = Params(fatorConversao: Option<real>, toleranciaEficiencia: Option<real>)

  /** The stored targets (`MetasData`), as read back: any field may be missing. */
  datatype Metas = Metas(id: Option<string>, metaDiaria: Option<real>, metaMensal: Option<real>, parametrosCtp: Option<Params>)

  /** The form's four values. */
  datatype MetasForm = MetasForm(metaDiaria: real, metaMensal: real, fatorConversao: real, toleranciaEficiencia: real)

  /** `value || fallback` on a number: a missing or zero value gives the fallback. */
  function OrDefault(value: Option<real>, fallback: real): (x: real)
    ensures value.Some? && value.value != 0.0 ==> x == value.value
    ensures value.None? || value.value == 0.0 ==> x == fallback
  {
    if value.Some? && value.value != 0.0 then value.value else fallback
  }

  /** `metas?.parametrosCtp?.fatorConversao`. */
  function FatorOf(metas: Option<Metas>): Option<real> {
    if metas.Some? && metas.value.parametrosCtp.Some? then metas.value.parametrosCtp.value.fatorConversao else None
  }

  /** `metas?.parametrosCtp?.toleranciaEficiencia`. */
  function ToleranciaOf(metas: Option<Metas>): Option<real> {
    if metas.Some? && metas.value.parametrosCtp.Some? then metas.value.parametrosCtp.value.toleranciaEficiencia else None
  }

  /** The form's initial values: each stored target, or 1000 / 30000 / 1.0 / 5 when it is missing or zero. */
  function DefaultValues(metas: Option<Metas>): (f: MetasForm)
    ensures metas.None? ==> f == MetasForm(1000.0, 30000.0, 1.0, 5.0)
    ensures f.metaDiaria == OrDefault(if metas.Some? then metas.value.metaDiaria else None, 1000.0)
    ensures f.metaMensal == OrDefault(if metas.Some? then metas.value.metaMensal else None, 30000.0)
    ensures f.fatorConversao == OrDefault(FatorOf(metas), 1.0)
    ensures f.toleranciaEficiencia == OrDefault(ToleranciaOf(metas), 5.0)
  {
    MetasForm(
      OrDefault(if metas.Some? then metas.value.metaDiaria else None, 1000.0),
      OrDefault(if metas.Some? then metas.value.metaMensal else None, 30000.0),
      OrDefault(FatorOf(metas), 1.0),
      OrDefault(ToleranciaOf(metas), 5.0))
  }

  /** `metasSchema`. */
  predicate ValidMetas(f: MetasForm) {
    f.metaDiaria >= 1.0 && f.metaMensal >= 1.0 && f.fatorConversao >= 0.1 && f.toleranciaEficiencia >= 1.0
  }

  const DiariaMessage := "Meta diária deve ser maior que 0"
  const MensalMessage := "Meta mensal deve ser maior que 0"
  const FatorMessage := "Fator de conversão inválido"
  const ToleranciaMessage := "Tolerância deve ser pelo menos 1%"

  /** The schema's messages, one per failing field in field order. */
  function Issues(f: MetasForm): (issues: seq<string>)
    ensures |issues| == 0 <==> ValidMetas(f)
    ensures |issues| <= 4
    ensures DiariaMessage in issues <==> f.metaDiaria < 1.0
    ensures MensalMessage in issues <==> f.metaMensal < 1.0
    ensures FatorMessage in issues <==> f.fatorConversao < 0.1
    ensures ToleranciaMessage in issues <==> f.toleranciaEficiencia < 1.0
  {
    MessagesDistinct();
    (if f.metaDiaria >= 1.0 then [] else [DiariaMessage])
    + (if f.metaMensal >= 1.0 then [] else [MensalMessage])
    + (if f.fatorConversao >= 0.1 then [] else [FatorMessage])
    + (if f.toleranciaEficiencia >= 1.0 then [] else [ToleranciaMessage])
  }

  /** The four messages differ pairwise. */
  lemma MessagesDistinct()
    ensures DiariaMessage != MensalMessage && DiariaMessage != FatorMessage && DiariaMessage != ToleranciaMessage
    ensures MensalMessage != FatorMessage && MensalMessage != ToleranciaMessage && FatorMessage != ToleranciaMessage
  {
    assert DiariaMessage[5] == 'd' && MensalMessage[5] == 'm';
    assert FatorMessage[0] == 'F' && ToleranciaMessage[0] == 'T' && DiariaMessage[0] == 'M' && MensalMessage[0] == 'M';
  }

  /** The fallback values satisfy the schema. */
  lemma DefaultsValid()
    ensures ValidMetas(DefaultValues(None))
  {
  }

  /** A stored target of zero is replaced by its fallback, so the defaults expression never yields it. */
  lemma ZeroTargetFallsBack(id: Option<string>, p: Option<Params>)
    ensures DefaultValues(Some(Metas(id, Some(0.0), Some(0.0), p))).metaDiaria == 1000.0
    ensures DefaultValues(Some(Metas(id, Some(0.0), Some(0.0), p))).metaMensal == 30000.0
  {
  }

  /** `onSubmit`'s document: the two targets at the top, the other two nested under `parametrosCtp`. */
  function Payload(f: MetasForm, id: Option<string>): (m: Metas)
    ensures m.id == id
    ensures m.metaDiaria == Some(f.metaDiaria) && m.metaMensal == Some(f.metaMensal)
    ensures m.parametrosCtp == Some(Params(Some(f.fatorConversao), Some(f.toleranciaEficiencia)))
  {
    Metas(id, Some(f.metaDiaria), Some(f.metaMensal), Some(Params(Some(f.fatorConversao), Some(f.toleranciaEficiencia))))
  }

  /**
   * The defaults expression reads a saved payload of valid values back as
   * those values. (The page itself evaluates it once, when it mounts.)
   */
  lemma PayloadReadsBack(f: MetasForm, id: Option<string>)
    requires ValidMetas(f)
    ensures DefaultValues(Some(Payload(f, id))) == f
  {
  }

  /** The write `updateMetas` issues. */
  datatype MetasWrite = UpdateMetas(id: string, doc: Metas) | AddMetas(doc: Metas)

  /** `metas?.id`: the listed document's id, when it is present and not empty. */
  predicate HasId(current: Option<Metas>) {
    current.Some? && current.value.id.Some? && current.value.id.value != ""
  }

  /** `updateMetas`: update the listed document when it has an id, otherwise add one. */
  function WriteMetas(current: Option<Metas>, f: MetasForm): (w: MetasWrite)
    ensures HasId(current) <==> w.UpdateMetas?
    ensures w.UpdateMetas? ==> w.id == current.value.id.value
    ensures ValidMetas(f) ==> DefaultValues(Some(w.doc)) == f
  {
    if HasId(current) then UpdateMetas(current.value.id.value, Payload(f, None))
    else AddMetas(Payload(f, None))
  }

  /** What a submission leads to. */
  datatype Submission =
    | Refused(issues: seq<string>)  // the schema refused the values; nothing is written
    | Written(write: MetasWrite)     // the write was issued and accepted
    | Logged(write: MetasWrite)      // the store refused the write; the error is logged, not rethrown

  /** `form.handleSubmit(onSubmit)`. */
  function Submit(current: Option<Metas>, f: MetasForm, storeRefuses: bool): (s: Submission)
    ensures s.Refused? <==> !ValidMetas(f)
    ensures s.Written? <==> ValidMetas(f) && !storeRefuses
    ensures !s.Refused? ==> s.write == WriteMetas(current, f)
  {
    var issues := Issues(f);
    if |issues| > 0 then Refused(issues)
    else if storeRefuses then Logged(WriteMetas(current, f))
    else Written(WriteMetas(current, f))
  }
}

=== FILE: store.dfy ===
/**
 * The store as the import and recompute flows see it: a listing fixed when
 * the flow starts (`pcpData`), lookups by product code in that listing, and
 * the writes the flows issue. Persistence itself is not modelled; a write the
 * store refuses is decided by a caller-supplied predicate.
 */
module Store {
  import opened Wrappers
  import opened Values

  /** A write issued against the store: `addPCPData` or `updatePCPData`. */
  datatype Action = Add(rec: Record) | Update(id: string, rec: Record)

  /** Why a row of a batch ended without a write. */
  datatype RowError =
    | MissingId                // `existingItem.id!` was undefined, so the update threw
    | Rejected(action: Action) // the store refused the write and the call threw

  /** `item.codigo === code`. */
  predicate HasCode(item: Record, code: string) {
    "codigo" in item && item["codigo"] == Str(code)
  }

  /** `pcpData.find(item => item.codigo === code)`, as an index into the listing. */
  function FindByCode(listing: seq<Record>, code: string): (o: Option<nat>)
    ensures o.Some? ==> o.value < |listing| && HasCode(listing[o.value], code)
    ensures o.Some? ==> forall j | 0 <= j < o.value :: !HasCode(listing[j], code)
    ensures o.None? ==> forall j | 0 <= j < |listing| :: !HasCode(listing[j], code)
    decreases |listing|
  {
    if |listing| == 0 then None
    else if HasCode(listing[0], code) then Some(0)
    else
      match FindByCode(listing[1..], code)
      case None => None
      case Some(i) => Some(i + 1)
  }

  /** The document id of a listed item; an undefined, non-text or empty id counts as absent. */
  function IdOf(item: Record): (o: Option<string>)
    ensures o.Some? <==> "id" in item && item["id"].Str? && item["id"].s != ""
    ensures o.Some? ==> item["id"] == Str(o.value)
  {
    if "id" in item && item["id"].Str? && item["id"].s != "" then Some(item["id"].s) else None
  }

  /** Record `i` is the first listed under `code`, the one `pcpData.find` returns. */
  predicate FirstWithCode(listing: seq<Record>, code: string, i: nat)
    requires i < |listing|
  {
    HasCode(listing[i], code) && forall j | 0 <= j < i :: !HasCode(listing[j], code)
  }

  /**
   * The write a row makes against the listing: a code nobody lists adds
   * `added` (`addPCPData`); otherwise the first record listed under the code
   * is updated with `merge` of it (`updatePCPData(existingItem.id!, ...)`),
   * and the row fails when that record has no id.
   */
  function WriteFor(listing: seq<Record>, code: string, added: Record, merge: Record -> Record): (w: Result<Action, RowError>)
    ensures (forall j | 0 <= j < |listing| :: !HasCode(listing[j], code)) <==> w.Success? && w.value.Add?
    ensures w.Success? && w.value.Add? ==> w.value.rec == added
    ensures w.Success? && w.value.Update? ==>
              exists i | 0 <= i < |listing| ::
                FirstWithCode(listing, code, i) && IdOf(listing[i]) == Some(w.value.id) && w.value.rec == merge(listing[i])
    ensures w.Failure? ==>
              w.error == MissingId && exists i | 0 <= i < |listing| :: FirstWithCode(listing, code, i) && IdOf(listing[i]).None?
  {
    match FindByCode(listing, code)
    case None => Success(Add(added))
    case Some(i) =>
      assert FirstWithCode(listing, code, i);
      match IdOf(listing[i])
      case None => Failure(MissingId)
      case Some(id) => Success(Update(id, merge(listing[i])))
  }

  /** The write for a listed code, once the first record under it is known. */
  lemma WriteForFound(listing: seq<Record>, code: string, added: Record, merge: Record -> Record, i: nat)
    requires FindByCode(listing, code) == Some(i)
    ensures IdOf(listing[i]).None? ==> WriteFor(listing, code, added, merge) == Failure(MissingId)
    ensures IdOf(listing[i]).Some? ==> WriteFor(listing, code, added, merge) == Success(Update(IdOf(listing[i]).value, merge(listing[i])))
  {
  }

  /** A listed item as the live listener builds it: `{ id: doc.id, ...doc.data() }`. */
  function Listed(id: string, data: Record): (item: Record)
    ensures item.Keys == data.Keys + {"id"}
    ensures "id" !in data ==> item["id"] == Str(id)
    ensures forall k | k in data :: k in item && item[k] == data[k]
  {
    map["id" := Str(id)] + data
  }

  /** Issue a write; a refused write makes the row fail. */
  function Attempt(write: Result<Action, RowError>, rejects: Action -> bool): (o: Result<Action, RowError>)
    ensures o.Success? <==> write.Success? && !rejects(write.value)
    ensures o.Success? ==> o.value == write.value
    ensures write.Success? && rejects(write.value) ==> o == Failure(Rejected(write.value))
  {
    match write
    case Success(a) => if rejects(a) then Failure(Rejected(a)) else write
    case Failure(_) => write
  }

  /**
   * A batch (`for (const row of data)`): every row's write attempted in turn,
   * a failed row logged and skipped; `write` sees the listing as it stood
   * when the batch began.
   */
  function Attempts<T>(rows: seq<T>, write: T -> Result<Action, RowError>, rejects: Action -> bool): (out: seq<Result<Action, RowError>>)
    ensures |out| == |rows|
  {
    if |rows| == 0 then []
    else Attempts(rows[..|rows| - 1], write, rejects) + [Attempt(write(rows[|rows| - 1]), rejects)]
  }

  /** Each row's outcome is its own write's, whatever the rows before it did. */
  lemma {:induction false} AttemptsRows<T>(rows: seq<T>, write: T -> Result<Action, RowError>, rejects: Action -> bool)
    ensures forall i | 0 <= i < |rows| :: Attempts(rows, write, rejects)[i] == Attempt(write(rows[i]), rejects)
    decreases |rows|
  {
    if |rows| > 0 {
      var init := rows[..|rows| - 1];
      AttemptsRows(init, write, rejects);
      var out := Attempts(rows, write, rejects);
      assert out == Attempts(init, write, rejects) + [Attempt(write(rows[|rows| - 1]), rejects)];
      forall i | 0 <= i < |rows|
        ensures out[i] == Attempt(write(rows[i]), rejects)
      {
        if i < |rows| - 1 {
          assert rows[i] == init[i];
        }
      }
    }
  }

  /** `updateDoc` on a document that does not exist: the store refuses it. */
  predicate Missing(store: map<string, Record>, action: Action) {
    action.Update? && action.id !in store
  }

  /**
   * The store after a write; `newId` is the id the store assigns to an added
   * document. An update of a document that is not stored is refused, and
   * `updatePCPData` rethrows the refusal.
   */
  function Apply(store: map<string, Record>, action: Action, newId: string): (r: Result<map<string, Record>, RowError>)
    requires action.Add? ==> newId !in store
    ensures r.Failure? <==> Missing(store, action)
    ensures r.Failure? ==> r.error == Rejected(action)
    ensures r.Success? && action.Add? ==> r.value == store[newId := action.rec]
    ensures r.Success? && action.Update? ==> r.value.Keys == store.Keys
    ensures r.Success? && action.Update? ==>
              forall k | k in action.rec :: k in r.value[action.id] && r.value[action.id][k] == action.rec[k]
    ensures r.Success? && action.Update? ==>
              forall k | k in store[action.id] && k !in action.rec :: k in r.value[action.id] && r.value[action.id][k] == store[action.id][k]
    ensures r.Success? ==>
              forall id | id in store && id != newId && (action.Update? ==> id != action.id) :: id in r.value && r.value[id] == store[id]
  {
    match action
    case Add(rec) => Success(store[newId := rec])
    case Update(id, rec) =>
      if id in store then Success(store[id := store[id] + rec]) else Failure(Rejected(action))
  }

  /** `Missing` against a fixed store, as a batch's refusal predicate. */
  function MissingIn(store: map<string, Record>): Action -> bool {
    (action: Action) => Missing(store, action)
  }

  /**
   * A row's attempt against a store that refuses only updates of missing
   * documents succeeds exactly when applying its write to that store does,
   * and fails with the same error.
   */
  lemma AttemptAgainstStore(store: map<string, Record>, write: Result<Action, RowError>, newId: string)
    requires write.Success? && write.value.Add? ==> newId !in store
    ensures write.Success? ==>
              (Attempt(write, MissingIn(store)).Success? <==> Apply(store, write.value, newId).Success?)
    ensures write.Success? && Apply(store, write.value, newId).Failure? ==>
              Attempt(write, MissingIn(store)) == Failure(Apply(store, write.value, newId).error)
  {
  }
}

=== FILE: text.dfy ===
/** String helpers standing in for the JavaScript `String.prototype` methods the pages use. */
module Text {

  /** `s.startsWith(p)`. */
  predicate StartsWith(s: string, p: string) {
    |p| <= |s| && s[..|p|] == p
  }

  /** `s.endsWith(p)`. */
  predicate EndsWith(s: string, p: string) {
    |p| <= |s| && s[|s| - |p|..] == p
  }

  /** `t` occurs in `s` starting at index `i`. */
  predicate OccursAt(s: string, t: string, i: nat) {
    i + |t| <= |s| && s[i..i + |t|] == t
  }

  /** `s.includes(t)`, by scanning the start positions left to right. */
  function Includes(s: string, t: string): bool
    decreases |s|
  {
    if |t| > |s| then false
    else if s[..|t|] == t then true
    else Includes(s[1..], t)
  }

  /** The scan finds an occurrence exactly when one exists. */
  lemma {:induction false} IncludesIff(s: string, t: string)
    ensures Includes(s, t) <==> exists i: nat :: OccursAt(s, t, i)
    decreases |s|
  {
    if |t| > |s| {
      assert forall i: nat :: !OccursAt(s, t, i);
    } else if s[..|t|] == t {
      assert OccursAt(s, t, 0);
    } else {
      IncludesIff(s[1..], t);
      if Includes(s[1..], t) {
        var i: nat :| OccursAt(s[1..], t, i);
        assert s[i + 1..i + 1 + |t|] == s[1..][i..i + |t|];
        assert OccursAt(s, t, i + 1);
      } else {
        forall i: nat | OccursAt(s, t, i)
          ensures false
        {
          if i > 0 {
            assert s[1..][i - 1..i - 1 + |t|] == s[i..i + |t|];
            assert OccursAt(s[1..], t, i - 1);
          }
        }
      }
    }
  }

  /**
   * `toLowerCase` on one character, for ASCII and the Latin-1 capitals
   * (U+00C0 to U+00DE except the multiplication sign), which covers the
   * Portuguese accented letters.
   */
  function LowerChar(c: char): (d: char)
    ensures 'A' <= c <= 'Z' ==> d as int == c as int + 32
    ensures !('A' <= c <= 'Z') && !('\U{C0}' <= c <= '\U{DE}') ==> d == c
  {
    if 'A' <= c <= 'Z' then (c as int + 32) as char
    else if '\U{C0}' <= c <= '\U{DE}' && c != '\U{D7}' then (c as int + 32) as char
    else c
  }

  /** `s.toLowerCase()`, character by character. */
  function Lower(s: string): (r: string)
    ensures |r| == |s|
    ensures forall i | 0 <= i < |s| :: r[i] == LowerChar(s[i])
  {
    seq(|s|, i requires 0 <= i < |s| => LowerChar(s[i]))
  }

  function DigitChar(d: nat): char
    requires d < 10
  {
    "0123456789"[d]
  }

  /** Decimal digits of a natural number, most significant first. */
  function NatText(n: nat): (r: string)
    ensures |r| >= 1
    decreases n
  {
    if n < 10 then [DigitChar(n)] else NatText(n / 10) + [DigitChar(n % 10)]
  }

  /** At most `fuel` decimal digits of a fraction `0 <= f < 1`, stopping when it is exhausted. */
  function FractionDigits(f: real, fuel: nat): string
    requires 0.0 <= f < 1.0
    decreases fuel
  {
    if fuel == 0 || f == 0.0 then ""
    else
      var d := (f * 10.0).Floor;
      [DigitChar(d)] + FractionDigits(f * 10.0 - d as real, fuel - 1)
  }

  /**
   * The decimal text of a number as JavaScript's `String` writes it for
   * integers and for short fractions; see README for what is not modelled.
   */
  function RealText(x: real): string
    decreases if x < 0.0 then 1 else 0
  {
    if x < 0.0 then "-" + RealText(-x)
    else
      var whole := x.Floor;
      var fraction := x - whole as real;
      if fraction == 0.0 then NatText(whole)
      else NatText(whole) + "." + FractionDigits(fraction, 20)
  }
}

=== FILE: types.dfy ===
/**
 * The typed entities of `src/types/pcp.ts`: the production record, the
 * product master and the targets configuration, plus the translation of a
 * production record to and from the untyped document the store holds.
 * The `createdAt`/`updatedAt` stamps are not part of this model.
 */
module Types {
  import opened Wrappers
  import opened Values
  import Calculations

  /** One production record per product code (`PCPData`). */
  datatype PCPData = PCPData(
    id: Option<string>,
    codigo: string, descricaoProduto: string, maquina: string, embalagem: string,
    unCx: real, turno1: real, turno2: real, planoDiarioCx: real, cxRespectiva: real,
    pesoLiqUnitKg: real, batchReceitaUn: real, batchReceitaKg: real,
    classificacao: string,
    kg: real, cxs: real, ctp1: real, kg2: real, cx2: real, ctp2: real,
    kgtd: real, cxstd: real, diferencaPrKg: real, ctptd: real)

  /** A catalogue product (`ProdutoData`). */
  datatype ProdutoData = ProdutoData(
    id: Option<string>,
    codigo: string, descricao: string, maquina: string, embalagem: string,
    unCx: real, pesoLiqUnitKg: real, batchReceitaKg: real,
    classificacao: string, ativo: bool)

  datatype ParametrosCtp = ParametrosCtp(fatorConversao: real, toleranciaEficiencia: real)

  /** The targets configuration (`MetasData`). */
  datatype MetasData = MetasData(id: Option<string>, metaDiaria: real, metaMensal: real, parametrosCtp: ParametrosCtp)

  /** The text fields of a production record. */
  function TextPart(d: PCPData): Record {
    map["codigo" := Str(d.codigo), "descricaoProduto" := Str(d.descricaoProduto),
        "maquina" := Str(d.maquina), "embalagem" := Str(d.embalagem),
        "classificacao" := Str(d.classificacao)]
  }

  /** The nine input quantities of a production record. */
  function InputPart(d: PCPData): Record {
    map["turno1" := Num(d.turno1), "turno2" := Num(d.turno2), "kg" := Num(d.kg), "kg2" := Num(d.kg2),
        "cxs" := Num(d.cxs), "cx2" := Num(d.cx2), "pesoLiqUnitKg" := Num(d.pesoLiqUnitKg),
        "unCx" := Num(d.unCx), "batchReceitaKg" := Num(d.batchReceitaKg)]
  }

  /** The nine derived quantities of a production record. */
  function DerivedPart(d: PCPData): Record {
    map["planoDiarioCx" := Num(d.planoDiarioCx), "cxRespectiva" := Num(d.cxRespectiva),
        "batchReceitaUn" := Num(d.batchReceitaUn), "ctp1" := Num(d.ctp1), "ctp2" := Num(d.ctp2),
        "kgtd" := Num(d.kgtd), "cxstd" := Num(d.cxstd), "diferencaPrKg" := Num(d.diferencaPrKg),
        "ctptd" := Num(d.ctptd)]
  }

  function IdPart(id: Option<string>): Record {
    match id
    case Some(s) => map["id" := Str(s)]
    case None => map[]
  }

  /** The stored document of a production record. */
  function ToRecord(d: PCPData): (r: Record)
    ensures forall k | k in TextKeys + Calculations.InputKeys + Calculations.DerivedKeys :: k in r
    ensures forall k | k in r :: k == "id" || k in TextKeys + Calculations.InputKeys + Calculations.DerivedKeys
    ensures "id" in r <==> d.id.Some?
    ensures d.id.Some? ==> r["id"] == Str(d.id.value)
  {
    PartKeys(d);
    IdPart(d.id) + TextPart(d) + InputPart(d) + DerivedPart(d)
  }

  function NumAt(r: Record, k: string): Option<real> {
    if k in r && r[k].Num? then Some(r[k].n) else None
  }

  function StrAt(r: Record, k: string): Option<string> {
    if k in r && r[k].Str? then Some(r[k].s) else None
  }

  /** Read a stored document back as a production record; `None` if a field is missing or mistyped. */
  function FromRecord(r: Record): (o: Option<PCPData>)
    ensures o.Some? <==>
              && (forall k | k in TextKeys :: StrAt(r, k).Some?)
              && (forall k | k in Calculations.InputKeys :: NumAt(r, k).Some?)
              && (forall k | k in Calculations.DerivedKeys :: NumAt(r, k).Some?)
  {
    if
      && StrAt(r, "codigo").Some?
      && StrAt(r, "descricaoProduto").Some?
      && StrAt(r, "maquina").Some?
      && StrAt(r, "embalagem").Some?
      && NumAt(r, "unCx").Some?
      && NumAt(r, "turno1").Some?
      && NumAt(r, "turno2").Some?
      && NumAt(r, "planoDiarioCx").Some?
      && NumAt(r, "cxRespectiva").Some?
      && NumAt(r, "pesoLiqUnitKg").Some?
      && NumAt(r, "batchReceitaUn").Some?
      && NumAt(r, "batchReceitaKg").Some?
      && StrAt(r, "classificacao").Some?
      && NumAt(r, "kg").Some?
      && NumAt(r, "cxs").Some?
      && NumAt(r, "ctp1").Some?
      && NumAt(r, "kg2").Some?
      && NumAt(r, "cx2").Some?
      && NumAt(r, "ctp2").Some?
      && NumAt(r, "kgtd").Some?
      && NumAt(r, "cxstd").Some?
      && NumAt(r, "diferencaPrKg").Some?
      && NumAt(r, "ctptd").Some?
    then
      Some(PCPData(StrAt(r, "id"),
        StrAt(r, "codigo").value,
        StrAt(r, "descricaoProduto").value,
        StrAt(r, "maquina").value,
        StrAt(r, "embalagem").value,
        NumAt(r, "unCx").value,
        NumAt(r, "turno1").value,
        NumAt(r, "turno2").value,
        NumAt(r, "planoDiarioCx").value,
        NumAt(r, "cxRespectiva").value,
        NumAt(r, "pesoLiqUnitKg").value,
        NumAt(r, "batchReceitaUn").value,
        NumAt(r, "batchReceitaKg").value,
        StrAt(r, "classificacao").value,
        NumAt(r, "kg").value,
        NumAt(r, "cxs").value,
        NumAt(r, "ctp1").value,
        NumAt(r, "kg2").value,
        NumAt(r, "cx2").value,
        NumAt(r, "ctp2").value,
        NumAt(r, "kgtd").value,
        NumAt(r, "cxstd").value,
        NumAt(r, "diferencaPrKg").value,
        NumAt(r, "ctptd").value))
    else None
  }

  /** The text fields of a production record. */
  const TextKeys: set<string> := {"codigo", "descricaoProduto", "maquina", "embalagem", "classificacao"}

  lemma PartKeys(d: PCPData)
    ensures TextPart(d).Keys == TextKeys
    ensures InputPart(d).Keys == Calculations.InputKeys
    ensures DerivedPart(d).Keys == Calculations.DerivedKeys
    ensures IdPart(d.id).Keys <= {"id"}
    ensures TextKeys !! Calculations.InputKeys && TextKeys !! Calculations.DerivedKeys
    ensures "id" !in TextKeys + Calculations.InputKeys + Calculations.DerivedKeys
  {
    Calculations.KeySetsDisjoint();
    TextKeysDisjoint();
    IdKeyDisjoint();
    TextPartKeys(d);
    InputPartKeys(d);
    DerivedPartKeys(d);
  }

  lemma TextPartKeys(d: PCPData)
    ensures TextPart(d).Keys == TextKeys
  {
  }

  lemma InputPartKeys(d: PCPData)
    ensures InputPart(d).Keys == Calculations.InputKeys
  {
  }

  lemma DerivedPartKeys(d: PCPData)
    ensures DerivedPart(d).Keys == Calculations.DerivedKeys
  {
  }

  lemma TextKeysDisjoint()
    ensures TextKeys !! Calculations.InputKeys
    ensures TextKeys !! Calculations.DerivedKeys
  {
  }

  lemma IdKeyDisjoint()
    ensures "id" !in TextKeys
    ensures "id" !in Calculations.InputKeys
    ensures "id" !in Calculations.DerivedKeys
  {
  }

  /** Storing a record and reading it back gives the same record. */
  lemma RecordRoundTrip(d: PCPData)
    ensures FromRecord(ToRecord(d)) == Some(d)
  {
    PartKeys(d);
    TextLookups(d);
    InputLookups(d);
    DerivedLookups(d);
    IdLookup(d);
  }

  lemma TextLookups(d: PCPData)
    ensures StrAt(ToRecord(d), "codigo") == Some(d.codigo)
    ensures StrAt(ToRecord(d), "descricaoProduto") == Some(d.descricaoProduto)
    ensures StrAt(ToRecord(d), "maquina") == Some(d.maquina)
    ensures StrAt(ToRecord(d), "embalagem") == Some(d.embalagem)
    ensures StrAt(ToRecord(d), "classificacao") == Some(d.classificacao)
  {
    PartKeys(d);
    TextPartValues(d);
    assert forall k | k in TextKeys :: ToRecord(d)[k] == TextPart(d)[k];
  }

  lemma TextPartValues(d: PCPData)
    ensures TextPart(d)["codigo"] == Str(d.codigo)
    ensures TextPart(d)["descricaoProduto"] == Str(d.descricaoProduto)
    ensures TextPart(d)["maquina"] == Str(d.maquina)
    ensures TextPart(d)["embalagem"] == Str(d.embalagem)
    ensures TextPart(d)["classificacao"] == Str(d.classificacao)
  {
  }

  lemma InputLookups(d: PCPData)
    ensures NumAt(ToRecord(d), "turno1") == Some(d.turno1)
    ensures NumAt(ToRecord(d), "turno2") == Some(d.turno2)
    ensures NumAt(ToRecord(d), "kg") == Some(d.kg)
    ensures NumAt(ToRecord(d), "kg2") == Some(d.kg2)
    ensures NumAt(ToRecord(d), "cxs") == Some(d.cxs)
    ensures NumAt(ToRecord(d), "cx2") == Some(d.cx2)
    ensures NumAt(ToRecord(d), "pesoLiqUnitKg") == Some(d.pesoLiqUnitKg)
    ensures NumAt(ToRecord(d), "unCx") == Some(d.unCx)
    ensures NumAt(ToRecord(d), "batchReceitaKg") == Some(d.batchReceitaKg)
  {
    InputPartValues(d);
    DerivedKeysAbsent(d);
  }

  /** No input key is a derived key, so the derived part never hides an input. */
  lemma DerivedKeysAbsent(d: PCPData)
    ensures "turno1" !in DerivedPart(d) && "turno2" !in DerivedPart(d) && "kg" !in DerivedPart(d)
    ensures "kg2" !in DerivedPart(d) && "cxs" !in DerivedPart(d) && "cx2" !in DerivedPart(d)
    ensures "pesoLiqUnitKg" !in DerivedPart(d) && "unCx" !in DerivedPart(d) && "batchReceitaKg" !in DerivedPart(d)
  {
    DerivedPartKeys(d);
    Calculations.KeySetsDisjoint();
  }

  lemma InputPartValues(d: PCPData)
    ensures InputPart(d)["turno1"] == Num(d.turno1)
    ensures InputPart(d)["turno2"] == Num(d.turno2)
    ensures InputPart(d)["kg"] == Num(d.kg)
    ensures InputPart(d)["kg2"] == Num(d.kg2)
    ensures InputPart(d)["cxs"] == Num(d.cxs)
    ensures InputPart(d)["cx2"] == Num(d.cx2)
    ensures InputPart(d)["pesoLiqUnitKg"] == Num(d.pesoLiqUnitKg)
    ensures InputPart(d)["unCx"] == Num(d.unCx)
    ensures InputPart(d)["batchReceitaKg"] == Num(d.batchReceitaKg)
  {
  }

  lemma DerivedLookups(d: PCPData)
    ensures NumAt(ToRecord(d), "planoDiarioCx") == Some(d.planoDiarioCx)
    ensures NumAt(ToRecord(d), "cxRespectiva") == Some(d.cxRespectiva)
    ensures NumAt(ToRecord(d), "batchReceitaUn") == Some(d.batchReceitaUn)
    ensures NumAt(ToRecord(d), "ctp1") == Some(d.ctp1)
    ensures NumAt(ToRecord(d), "ctp2") == Some(d.ctp2)
    ensures NumAt(ToRecord(d), "kgtd") == Some(d.kgtd)
    ensures NumAt(ToRecord(d), "cxstd") == Some(d.cxstd)
    ensures NumAt(ToRecord(d), "diferencaPrKg") == Some(d.diferencaPrKg)
    ensures NumAt(ToRecord(d), "ctptd") == Some(d.ctptd)
  {
    PartKeys(d);
    DerivedPartValues(d);
    assert forall k | k in Calculations.DerivedKeys :: ToRecord(d)[k] == DerivedPart(d)[k];
  }

  lemma DerivedPartValues(d: PCPData)
    ensures DerivedPart(d)["planoDiarioCx"] == Num(d.planoDiarioCx)
    ensures DerivedPart(d)["cxRespectiva"] == Num(d.cxRespectiva)
    ensures DerivedPart(d)["batchReceitaUn"] == Num(d.batchReceitaUn)
    ensures DerivedPart(d)["ctp1"] == Num(d.ctp1)
    ensures DerivedPart(d)["ctp2"] == Num(d.ctp2)
    ensures DerivedPart(d)["kgtd"] == Num(d.kgtd)
    ensures DerivedPart(d)["cxstd"] == Num(d.cxstd)
    ensures DerivedPart(d)["diferencaPrKg"] == Num(d.diferencaPrKg)
    ensures DerivedPart(d)["ctptd"] == Num(d.ctptd)
  {
  }

  lemma IdLookup(d: PCPData)
    ensures StrAt(ToRecord(d), "id") == d.id
  {
    PartKeys(d);
  }

  /**
   * A stored production record is a fixed point of the derivation, whatever
   * its derived fields hold: they all ride through the `rest` spread.
   */
  lemma StoredRecordFixpoint(d: PCPData)
    ensures Calculations.ProcessFullCalculations(ToRecord(d)) == ToRecord(d)
  {
    PartKeys(d);
    Calculations.ProcessFixpoint(ToRecord(d));
  }
}

=== FILE: values.dfy ===
/**
 * Dynamically typed JavaScript values as they appear in spreadsheet rows and
 * in stored documents, and the handful of coercions the pages apply to them.
 * A record (`Partial<PCPData>`, an imported row, a stored document) is a map
 * from field name to value; a missing key is JavaScript's `undefined`.
 */
module Values {
  import opened Wrappers
  import Text

  datatype Value = Num(n: real) | Str(s: string) | Bool(b: bool) | Null

  type Record = map<string, Value>

  /** JavaScript truthiness (NaN is not modelled). */
  predicate Truthy(v: Value) {
    match v
    case Num(n) => n != 0.0
    case Str(s) => s != ""
    case Bool(b) => b
    case Null => false
  }

  /** The field `k` of `m`, `None` when it is `undefined`. */
  function Lookup(m: Record, k: string): (o: Option<Value>)
    ensures o.Some? <==> k in m
    ensures o.Some? ==> o.value == m[k]
  {
    if k in m then Some(m[k]) else None
  }

  /** The field `k` is present and truthy. */
  predicate TruthyAt(m: Record, k: string) {
    k in m && Truthy(m[k])
  }

  /**
   * `m[a0] || m[a1] || ... || default`: the first truthy alias, or the
   * default when every alias is undefined or falsy.
   */
  function FirstTruthy(m: Record, aliases: seq<string>, default: Value): (v: Value)
    ensures (forall i | 0 <= i < |aliases| :: !TruthyAt(m, aliases[i])) ==> v == default
    ensures forall i | 0 <= i < |aliases| && TruthyAt(m, aliases[i]) ::
              (forall j | 0 <= j < i :: !TruthyAt(m, aliases[j])) ==> v == m[aliases[i]]
  {
    if |aliases| == 0 then default
    else if TruthyAt(m, aliases[0]) then m[aliases[0]]
    else
      var v := FirstTruthy(m, aliases[1..], default);
      assert forall i | 1 <= i < |aliases| :: aliases[i] == aliases[1..][i - 1];
      v
  }

  /**
   * JavaScript's `Number(v)` for the values that occur in numeric columns.
   * A non-empty text is read as 0 (the source yields its numeric parse or NaN).
   */
  function ToNumber(v: Value): real {
    match v
    case Num(n) => n
    case Bool(b) => if b then 1.0 else 0.0
    case Str(_) => 0.0
    case Null => 0.0
  }

  /** JavaScript's `String(v)`. */
  function Show(v: Value): string {
    match v
    case Num(n) => Text.RealText(n)
    case Str(s) => s
    case Bool(b) => if b then "true" else "false"
    case Null => "null"
  }

  /** A numeric field read as `item.f || 0`: undefined and falsy become 0. */
  function Field(m: Record, k: string): (x: real)
    ensures k !in m ==> x == 0.0
    ensures k in m && m[k].Num? ==> x == m[k].n
  {
    if k in m then ToNumber(m[k]) else 0.0
  }

  /** A text field such as `item.codigo`; anything but a string reads as "". */
  function TextField(m: Record, k: string): (s: string)
    ensures k in m && m[k].Str? ==> s == m[k].s
  {
    if k in m && m[k].Str? then m[k].s else ""
  }
}

=== FILE: wrappers.dfy ===
/** Failure-compatible wrappers shared by the model. */
module Wrappers {

  /** An optional value: `None` stands for JavaScript's `undefined`/`null`. */
  datatype Option<+T> = None | Some(value: T)

  /** Either a value or an error, for operations of the source that throw. */
  datatype Result<+R, +E> = Success(value: R) | Failure(error: E)
}
